=== FILE: README.md ===
# chat-notes in Dafny

chat-notes is a chat-style note taker. Each message the user sends becomes a
note. A language model sorts it into one of six categories (task, idea,
journal, meeting, reading, misc) and extracts category-specific metadata,
which is stored with the note in a hosted database. Category views then show
the notes: tasks with due dates and completion, ideas, reading links,
meetings and journal days.

This project models the deterministic logic around the model and the
database, one Dafny module per source component:

- **Shared vocabulary.**
  - `Categories`: the allow-list.
  - `Schemas`: the JSON schemas and the per-category schema lookup.
  - `Notes`: the note record, its metadata map, and the database as a map from id to note.
  - `SupabaseUtils`: the keyed metadata update.
- **Model calls and cost accounting.**
  - `LlmClient`: the guards before a call, the status-to-error mapping, the content sanitiser, the reading enhancer and the prompt table.
  - `CostTracking`: the token estimate, the price and the fail-soft cost log.
  - `LlmCosts`: the cost summary endpoint, with per-day totals, newest first, cut to seven days.
- **Serverless endpoints.**
  - `Classify`: classification post-processing in its three variants.
  - `MetadataActions`: the metadata action dispatcher and its stand-alone twins.
  - `EnhanceMetadata`: the edge enhancer's category dispatch and fallbacks.
  - `Urls`: the URL pattern it uses.
  - `Search`: search, with the database's `ilike` pattern language.
  - `Health`: the health check.
- **Security wrapper.**
  - `Middleware`: the environment check, the fixed-window rate limiter, request validation, the client address, log redaction and the error-to-status mapping.
  - `FirebaseAuth`: the bearer header and the allowed-email check.
- **Browser side.**
  - The hooks: `TaskCompletions` and `NoteOperations`.
  - The list edits shared by the task and idea views: `ListEdits`.
  - The views: `TasksList`, `IdeasList`, `ReadingList`, `MeetingsList`, `JournalList` and `Calendar`.
  - `Composer`, `ChatPage` and `SettingsPage`.
- **Helpers.** `Text`, `Seqs`, `Ordering`, `Grouping`, `Numbers`, `Http` and `Wrappers` hold the string, list, sorting and grouping functions the components share.

The model and the database enter as parameters. The model's reply is given
as parsed or raw text. Each database call is given as its answer: rows, an
error, or success. Every state change is therefore a pure function from the
old state to the new one.

Two behaviours are modelled as written, although they look unintended:

- **A missing Authorization header ends as a 500, not a 401.**
  - The header check fails with a message that contains neither "authentication" nor "Unauthorized".
  - So the error mapping falls through to its generic case (`Middleware.MissingHeaderIsGeneric`).
- **An edited meeting keeps its old title, date and time in the meetings view.**
  - The meeting update writes the keys `title`, `date` and `time`.
  - The meetings view reads `meeting_title`, `meeting_date` and `meeting_time` (`MeetingsList.EditIsNotShown`).
  - Which side is meant to change is not evident, so the model keeps both as written.

## Model

| member | source | states |
|---|---|---|
| Categories.Parse | api/shared/supabase-utils.ts:24 | a label reads back to a category exactly when it is on the six-entry allow-list, and the category's name is that label |
| Categories.AllowListIsTheCategories | api/shared/supabase-utils.ts:24 | the allow-list has six distinct labels and names exactly the six categories |
| Categories.Coerce | apps/edge/src/classify.ts:56-57 | an allowed label keeps its category; any other label becomes misc |
| Categories.NameParseRoundTrip | apps/edge/src/classify.ts:56-57 | a category's own label parses back to it, so coercing is idempotent |
| Schemas.MetadataSchema | api/shared/schemas.ts:13-49 | only task, idea, meeting and reading have a schema; all are closed; only idea's has required keys; every property is one the classification metadata also declares |
| Schemas.LookupSchema | api/metadata.ts:74-77 | a category name finds a schema exactly when it is task, idea, meeting or reading, and then the one of that category |
| Schemas.LookupSchemaAsWritten | api/metadata.ts:74-77 | the lookup as written also returns something truthy for the names every object inherits, such as "constructor" |
| Schemas.InheritedNamePassesGuardAsWritten | api/extract-metadata.ts:35-38 | "constructor" is not a category, yet the guard as written does not reject it |
| Schemas.ClassificationShape | api/shared/schemas.ts:51-75 | the category enum is exactly the allowed names; category and metadata are required, cleaned_content optional; the metadata part declares seven keys |
| Schemas.TitleSummaryConformance | api/shared/schemas.ts:3-30 | a reply fits the enhancement schema exactly when it holds a string title and summary and nothing else, and the idea schema accepts exactly the same objects |
| Schemas.CategorySchemasWithinClassification | api/shared/schemas.ts:51-75 | metadata that fits a per-category schema also fits the classification schema's metadata part; the enhance and classification schemas are closed |
| Notes.TextField | apps/web/src/components/MeetingsList.tsx:60-62 | a field is read as text only when it holds a non-empty string, and then it is that string |
| Notes.ApplyPatch | api/shared/supabase-utils.ts:13-16 | written columns take the patch's value; id, content, source and creation time never change |
| Notes.UpdateWhere | api/metadata.ts:278-283 | only the row with the id changes, and only when it is live if the filter on `deleted_at` is present; the key set and the id-keying are kept |
| Notes.UpdateIdempotent | api/shared/supabase-utils.ts:13-16 | applying the same update twice is the same as applying it once |
| SupabaseUtils.UpdateNoteMetadata | api/shared/supabase-utils.ts:10-22 | fails with the fixed "Database update error" exactly when the database answers with an error; otherwise only the target row changes, by the patch |
| CostTracking.CalculateTokens | api/shared/cost-tracking.ts:9-13 | the fewest tokens that cover the text at four UTF-16 units each, as JavaScript measures length; zero only for the empty text |
| CostTracking.TokensMonotone | api/shared/cost-tracking.ts:9-13 | a text of no more UTF-16 units never estimates to more tokens, and appending text never lowers the estimate |
| CostTracking.CalculateCost | api/shared/cost-tracking.ts:15-19 | the price is never negative and is zero only for a call with no tokens |
| CostTracking.CostAdditive | api/shared/cost-tracking.ts:4-19 | pricing adds up over calls, a thousand input tokens cost $0.0025 and a thousand output tokens $0.01, so with additivity every price is fixed, and one output token costs as much as four input tokens |
| CostTracking.LogCost | api/shared/cost-tracking.ts:21-57 | the record is appended only with both environment variables and a successful insert; otherwise the table is unchanged; an error is logged exactly for an insert error other than the missing table |
| CostTracking.CalculateAndLogCost | api/shared/cost-tracking.ts:59-70 | the logged record names the endpoint and model; each token count is the fewest that cover its text at four UTF-16 units each; its cost is the price of those counts, a dollar per 400000 input or 100000 output tokens, so it costs nothing only when both texts are empty |
| LlmClient.ClampTokens | api/shared/openai-utils.ts:23-26 | the budget never exceeds 4000 and is kept exactly when it is within it |
| LlmClient.CollapseWhitespace | api/shared/openai-utils.ts:127 | the only whitespace left is single spaces, and no other character is introduced |
| LlmClient.RemoveControl | api/shared/openai-utils.ts:128 | exactly the characters outside the control class survive |
| LlmClient.Sanitize | api/shared/openai-utils.ts:110-132 | whatever the pattern scrub does, the result has no control character, its only whitespace is the space, and it neither starts nor ends with whitespace; empty content gives empty text |
| LlmClient.SanitizeClean | api/shared/openai-utils.ts:110-132 | already-clean text with nothing to neutralise comes out unchanged |
| LlmClient.StatusError | api/shared/openai-utils.ts:73-86 | 401, 429 and 5xx each map to their own error, and every other failing status to the generic one |
| LlmClient.Guard | api/shared/openai-utils.ts:12-32 | a request is sent exactly when the key starts with `sk-`, the message list is non-empty and the contents total at most 50000 UTF-16 units; the key check comes first, then the empty list |
| LlmClient.SanitizeAll | api/shared/openai-utils.ts:35-38 | every message keeps its role and position and gets sanitised content |
| LlmClient.CallOpenAI | api/shared/openai-utils.ts:11-105 | a guard failure is the result; a success means an OK answer whose content is returned, and the request has model gpt-4o, temperature 0, the schema, the capped budget and exactly the sanitised messages; the cost record names the endpoint and model and estimates tokens from the sent text and the reply; a failing status, the timeout and an unreachable network become their errors, and an OK answer after the guard is always a success |
| LlmClient.RejectedCallIgnoresTransport | api/shared/openai-utils.ts:12-32 | a request the guard rejects never reaches the network |
| LlmClient.EnhanceMessages | api/shared/openai-utils.ts:136-145 | a system message then a user message; the link is in both and the note in the second; their total length is at least the note plus the link twice |
| LlmClient.EnhanceTexts | api/shared/openai-utils.ts:138-144 | the system text contains the link and the user text contains both the note and the link |
| LlmClient.EnhanceReadingContent | api/shared/openai-utils.ts:134-157 | an enhancement is exactly the parse of an OK reply to the enhancement call; a failed call, an unparsable reply or input over the length limit gives nothing instead of throwing |
| LlmClient.EnhancementIsParsedReply | api/shared/openai-utils.ts:134-157 | an enhancement comes back exactly when the guard passes, the model answers with an OK status and the reply parses, and it is that parse |
| LlmClient.BuildCategoryPrompt | api/shared/openai-utils.ts:159-173 | the task and meeting prompts contain today's date |
| LlmClient.PromptDateIndependence | api/shared/openai-utils.ts:159-173 | every other prompt ignores the date, and an unknown name gets the generic prompt |
| Classify.LabelOf | api/classify.ts:64-80 | a reply that is not JSON is trimmed and lower-cased; an allowed label keeps its category, anything else is misc |
| Classify.CleanedContent | api/classify.ts:88 | the model's non-empty cleaned text when it supplies one, otherwise the note's own text |
| Classify.Postprocess | api/classify.ts:61-103 | the category is the coerced label; keys other than cleaned_content, title and summary come from the reply unchanged; a task whose text changed gets cleaned_content, and otherwise cleaned_content is the reply's own (or absent with it); a reading note with a truthy link and an enhancement gets its title and summary, and nothing else gets them |
| Classify.EnhancerOnlyForReadingLinks | api/classify.ts:95-103 | outside a reading note with a link, the enhancer's answer makes no difference |
| Classify.PostprocessKeepsSchema | api/shared/schemas.ts:51-75 | a reply whose metadata fits the classification schema still fits it after post-processing |
| Classify.BareLabelReply | api/classify.ts:64-80 | the reply " Idea\n" is read as the idea category with empty metadata |
| Classify.TaskWithDueDate | api/classify.ts:90-93 | a task whose text the model shortened keeps its due date and gains the cleaned text |
| Classify.ClassifyEndpoint | api/classify.ts:15-130 | 405 for anything but POST, 400 for a missing field, 500 for a failed call, a `null` reply or a failed write; 200 exactly when all succeed, and then the returned category and metadata are what the row holds; on any error nothing is written |
| Classify.ClassifyLabel | apps/edge/src/classify.ts:20-78 | 400 for a missing field; 200 exactly with a reply and a successful write; then only the category column of that note changes, to the reply's label |
| Classify.EdgeClassify | apps/edge/src/classify.ts:13-15 | 405 for anything but POST, 500 for an unreadable body, and otherwise the label classifier |
| Classify.LabelVariantsAgree | apps/edge/src/classify.ts:53-65 | for a reply that is a bare label, the structured classifier and the label-only one both succeed, answer the same category and store the same category for the note |
| MetadataActions.ExtractedMetadata | api/metadata.ts:94-110 | the parsed object, or an empty one when the reply does not parse; only title and summary can differ from it, and only for a reading note with a link and an enhancement |
| MetadataActions.Extract | api/metadata.ts:62-115 | 400 for a missing field; journal and misc get empty metadata with no write; a name without its own schema entry is a 400 "Invalid category" (the corrected lookup); on success the call and write went through and the returned metadata is what the row's metadata column now holds; any error writes nothing |
| MetadataActions.ExtractAsWritten | api/metadata.ts:62-115 | with the lookup as written, every category but an inherited name behaves as the corrected extraction; an inherited name such as "constructor" reaches the model call and a successful call and write return the reply as metadata, where the corrected one answers 400 |
| MetadataActions.ExtractStoresWhatItReturns | api/metadata.ts:113-115 | after a successful extraction the note differs from before only in its metadata, which is the returned object |
| MetadataActions.Update | api/metadata.ts:117-143 | 400 for a missing id or a metadata value that is not an object; on success only that note's metadata changes, to exactly the given object |
| MetadataActions.MeetingFields | api/metadata.ts:174-179 | the merge adds or overwrites title, date and time and keeps every other key |
| MetadataActions.MeetingFieldsIdempotent | api/metadata.ts:174-179 | merging the same fields twice is merging them once |
| MetadataActions.UpdateMeeting | api/metadata.ts:159-192 | the count is the number of ids whose fetch and write both succeed; exactly the notes those ids name gain the three fields over their previous metadata, and nothing else changes |
| MetadataActions.TouchedStep | api/metadata.ts:160-192 | one more loop iteration touches a note exactly when earlier ones did or the new id names it and goes through |
| MetadataActions.TaskCompletion | api/metadata.ts:199-229 | 400 without an id; on success the id is marked complete exactly when `completed`, and no other id changes; a database error changes nothing |
| MetadataActions.TaskCompletionIdempotent | api/metadata.ts:208-216 | marking twice is marking once (the duplicate insert is ignored), and marking then unmarking restores the table |
| MetadataActions.TaskDueDate | api/metadata.ts:231-266 | 400 without id or date; success exactly when the note is found live and both steps succeed, and then only its due_date key changes |
| MetadataActions.SoftDelete | api/metadata.ts:268-289 | 400 without an id; on success a live note gets the deletion time, a deleted or missing one is untouched, and nothing else changes |
| MetadataActions.SoftDeleteKeepsFirstStamp | api/metadata.ts:282 | deleting again later keeps the first deletion time |
| MetadataActions.MeetingRequestError | api/metadata.ts:148-154 | the request is accepted exactly with a non-empty id array and all three fields |
| MetadataActions.HandleMetadata | api/metadata.ts:50-298 | 405 for anything but POST; an absent or unparsable body ends in the catch-all 500 with no write; 400 for a missing or unknown action; each action's answer and effect is that action's, with extract using the corrected lookup; update_meeting answers its two 400 messages, or the count and the updated live notes; a failed request changes neither table; only task_completion touches completions |
| MetadataActions.Endpoint | api/update-metadata.ts:15-53 | the single-purpose frame: 405 for anything but POST, 500 for an unreadable body, otherwise the action |
| MetadataActions.ExtractEndpoint | api/extract-metadata.ts:16-83 | the stand-alone extraction is the extract action, with the corrected lookup and the truthy-link test, and leaves completions alone |
| MetadataActions.LinkGuardsDiffer | api/extract-metadata.ts:64 | the two link tests disagree exactly on an empty string link and on the value true |
| MetadataActions.UpdateEndpoint | api/update-metadata.ts:15-53 | the stand-alone update is the update action |
| MetadataActions.TaskCompletionEndpoint | api/task-completion.ts:15-57 | the stand-alone completion is the task_completion action and never touches notes |
| MetadataActions.TaskDueDateEndpoint | apps/edge/api/task-due-date.ts:11-57 | the edge due-date endpoint is the due-date action without the live-note filter |
| MetadataActions.UpdateMeetingEndpoint | api/update-meeting.ts:27-91 | 405, 500 for an unreadable body, the two 400 messages for a bad request; otherwise the count and the notes after the loop without the live-note filter; refusals change nothing and completions are never touched |
| Urls.FirstMatchFrom | apps/edge/src/enhance-metadata.ts:192-193 | the leftmost position at or after i where the URL pattern matches, or none when there is no such position |
| Urls.FirstUrl | apps/edge/src/enhance-metadata.ts:192-193 | no URL exactly when the pattern matches nowhere; otherwise the text of the leftmost match: a scheme, no whitespace, ending at whitespace or the end |
| Urls.UrlAfterPlainText | apps/edge/src/enhance-metadata.ts:192-193 | a URL after text with no `h` in it is found whole |
| EnhanceMetadata.IdeaFallback | apps/edge/src/enhance-metadata.ts:119-124 | a standalone idea gets the first four words as title, the whole text when it has at most four words, and a null related id |
| EnhanceMetadata.EnhanceIdea | apps/edge/src/enhance-metadata.ts:66-125 | the request fails only when ideas exist and the call throws; a parsed reply wins only when ideas exist; otherwise the fallback |
| EnhanceMetadata.FirstIdeaIgnoresModel | apps/edge/src/enhance-metadata.ts:73 | with no existing idea the model's outcome makes no difference |
| EnhanceMetadata.MeetingTitle | apps/edge/src/enhance-metadata.ts:180-187 | the trimmed first sentence when non-empty and under 60 UTF-16 units, else five words and an ellipsis; so a title of 60 or more units always ends in the ellipsis |
| EnhanceMetadata.MeetingFallback | apps/edge/src/enhance-metadata.ts:184-187 | a new meeting gets exactly a meeting title and a null related id |
| EnhanceMetadata.EnhanceMeeting | apps/edge/src/enhance-metadata.ts:127-188 | shaped like the idea enhancement, with the meeting fallback |
| EnhanceMetadata.ReadingFallback | apps/edge/src/enhance-metadata.ts:237-241 | link is the first URL or null, excerpt is true exactly when there is no URL, title is five words and an ellipsis |
| EnhanceMetadata.WithFoundLink | apps/edge/src/enhance-metadata.ts:227-231 | a URL in the note overrides the model's link and every other key is kept; without one the model's answer stands |
| EnhanceMetadata.EnhanceReading | apps/edge/src/enhance-metadata.ts:190-242 | fails exactly when the call throws; a parsed reply gets the found link; anything else gets the fallback |
| EnhanceMetadata.BareLinkReading | apps/edge/src/enhance-metadata.ts:237-241 | a note that is just a link, with no usable reply, is recorded as that link and not as an excerpt |
| EnhanceMetadata.Enhancement | apps/edge/src/enhance-metadata.ts:29-42 | categories other than idea, meeting and reading get an empty object |
| EnhanceMetadata.EnhanceEndpoint | apps/edge/src/enhance-metadata.ts:13-64 | 405, 500 for an unreadable body, 400 for a missing field; on success the metadata column is replaced by exactly the answer; any failure writes nothing |
| Search.Literals | api/search.ts:30 | a plain query compiles to one lower-cased literal per character |
| Search.CompileSubstring | api/search.ts:30 | the pattern `%q%` of a plain query compiles to any-run, q's literals, any-run |
| Search.LeadingAny | api/search.ts:30 | a leading `%` matches exactly when the rest matches some suffix of the text |
| Search.LiteralsThenAny | api/search.ts:30 | literals followed by `%` match exactly the texts that start with them, ignoring case |
| Search.PlainQueryIsSubstring | api/search.ts:27-32 | for a plain query the search pattern matches exactly the contents that contain the query, ignoring case |
| Search.Hits | api/search.ts:27-30 | a note is a hit exactly when it is in the table and its content matches |
| Search.Query | api/search.ts:27-32 | the 50 newest matching notes, or all of them when fewer match: drawn from the matches without repetition, newest first, and a matching note is left out only when 50 are returned, all at least as new as it |
| Search.ApiSearch | api/search.ts:11-47 | 405, 500 for an unreadable body, 400 for a blank query; success searches the trimmed query and turns a missing result set into an empty list; a plain non-blank query always succeeds when the database answers, and a database error is a 500 |
| Search.PlainTrim | api/search.ts:19 | trimming a plain query keeps it plain |
| Search.UntrimmedSearch | server.js:90-115 | only the empty query is refused; the query is searched as given and a missing result set is passed through; a missing body or a database error is a 500 |
| Search.EdgeSearch | apps/edge/src/search.ts:10-43 | the edge search is the untrimmed search behind a POST check |
| Search.BlankQueryVariants | apps/edge/src/search.ts:18-20 | a query of spaces is refused by the serverless endpoint but searched for by the edge function |
| FirebaseAuth.GetAuthHeader | api/shared/firebase-auth.js:61-68 | fails with the fixed message exactly when the header is absent or does not start with "Bearer "; otherwise the header is the prefix followed by the returned token |
| FirebaseAuth.BearerRoundTrip | api/shared/firebase-auth.js:61-68 | the token of a header built from a token is that token |
| FirebaseAuth.AllowedEmail | api/shared/firebase-auth.js:44 | the configured address when it is set and non-empty, otherwise the built-in one |
| FirebaseAuth.InnerVerify | api/shared/firebase-auth.js:44-47 | an accepted token for another address is refused as unauthorized |
| FirebaseAuth.VerifyToken | api/shared/firebase-auth.js:39-59 | success exactly when the SDK accepts the token and its email is the allowed one, and then the user carries the token's uid, email and verification flag; every refusal has the same message |
| FirebaseAuth.Authenticate | api/shared/firebase-auth.js:70-74 | a bad header is refused before any verification; otherwise the verdict on its token |
| FirebaseAuth.MissingFirebaseVars | api/shared/firebase-auth.js:9-17 | each setting is named exactly when it is empty |
| FirebaseAuth.InitFirebase | api/shared/firebase-auth.js:7-21 | initialisation succeeds exactly when all three settings are present, and otherwise names the missing ones |
| Health.ServiceStatus | api/health.ts:21-53 | a service is healthy exactly when it is configured and its probe answered OK; it is never degraded |
| Health.Overall | api/health.ts:55-59 | healthy exactly when both services are; unhealthy whenever the database is; degraded when only the model service is down |
| Health.OverallMonotone | api/health.ts:55-59 | a service recovering never makes the overall status worse |
| Health.StatusCode | api/health.ts:72-73 | 503 exactly for unhealthy, 200 otherwise |
| Health.Check | api/health.ts:16-93 | the no-cache header always; the code matches the overall status; a failure while reporting gives both services unhealthy and 503 |
| Health.UnconfiguredDatabaseIsUnavailable | api/health.ts:23 | without database settings the endpoint always answers 503 |
| Middleware.RateLimit | api/shared/middleware.ts:12-18 | one of the five per-minute limits, and 100 for every URL not in the table |
| Middleware.Admit | api/shared/middleware.ts:76-110 | a new window opens exactly when the key has none or it is past; a request is refused exactly when the open window is at the limit, and then nothing changes; a counted request stays at or under the limit and the remaining-count header is what is left |
| Middleware.WindowAdmitsAtMostLimit | api/shared/middleware.ts:81-104 | within one minute of its first request a client is admitted at most the endpoint's limit, and the entry counts exactly the admitted requests |
| Middleware.Cleanup | api/shared/middleware.ts:334-341 | keeps exactly the entries less than a minute past their window, unchanged |
| Middleware.CleanupUnobservable | api/shared/middleware.ts:334-341 | the cleanup never changes a later limiter decision or the entry it leaves |
| Middleware.Member | api/shared/middleware.ts:143 | a member is found exactly when some pair has that name, and what is found is the value of the last pair with it, as `JSON.parse` keeps the last duplicate |
| Middleware.KeptIsFound | api/shared/middleware.ts:143 | the member the lookup finds for a name is the last pair with that name |
| Middleware.AnyStringOfObject | api/shared/middleware.ts:155-167 | an object holds a dangerous string exactly when the value some name looks up to holds one |
| Middleware.ShadowedIsIgnored | api/shared/middleware.ts:155-167 | a dangerous string shadowed by a later member of the same name does not make the object dangerous |
| Middleware.ValidatePostContent | api/shared/middleware.ts:136-168 | a body passes exactly when it is an object or array, its content is not over 50000 UTF-16 units and no string the parsed value holds is dangerous (a shadowed duplicate member is not read); every refusal is a 400 with the first failing reason, "Invalid content detected" when only a dangerous string fails |
| Middleware.ValidateRequest | api/shared/middleware.ts:115-131 | 413 over a megabyte, then 405 for a method off the list, then the content rules for a POST with a truthy body; it passes exactly when all of those do |
| Middleware.ClientIP | api/shared/middleware.ts:173-186 | the address has no comma and no surrounding whitespace; it is the trimmed first field of the first present source among x-forwarded-for, x-real-ip and the socket address, and "unknown" when there is none |
| Middleware.SanitizeLogData | api/shared/middleware.ts:214-225 | the key set is kept, present sensitive keys are masked and every other value is untouched |
| Middleware.SanitizeIdempotent | api/shared/middleware.ts:214-225 | sanitising twice is sanitising once |
| Middleware.HandleSecurityError | api/shared/middleware.ts:240-291 | a security error keeps its status and message; a message naming authentication or Unauthorized is a 401; anything else is a generic 500, and a 401 never comes from a non-Error value |
| Middleware.MissingHeaderIsGeneric | api/shared/middleware.ts:269-290 | a missing or malformed Authorization header ends as a 500, not a 401 |
| Middleware.InvalidTokenIsUnauthorized | api/shared/middleware.ts:269-284 | a refused token ends as a 401 |
| Middleware.MissingEnv | api/shared/middleware.ts:297-306 | names exactly the required variables that are unset |
| Middleware.ValidateEnvironment | api/shared/middleware.ts:296-329 | succeeds exactly when all six variables are set, and then gives the four format warnings of the set values; the failure message lists the missing ones |
| Middleware.FormatWarnings | api/shared/middleware.ts:312-328 | each of the four format warnings is given exactly when its check fails: a key without `sk-`, a database URL without `https://`, a client email without `@`, a private key without its PEM header |
| Middleware.EnvMessageIsGeneric | api/shared/middleware.ts:287-290 | a missing-environment failure is answered with a generic 500 |
| Middleware.Guarded | api/shared/middleware.ts:47-65 | a validation failure is answered through the error mapping; a bad header gives a 500, a refused token a 401; the handler runs exactly when both checks pass, with the user, address and user agent of the request |
| Middleware.WithAuth | api/shared/middleware.ts:35-71 | a failed environment check gives a 500 and leaves the limiter alone; a refused request gives 429 and leaves it alone; otherwise the limiter counts the request whatever follows |
| LlmCosts.BuildDailyMap | api/llm-costs.ts:71-80 | the map has an entry exactly for each date present, holding the summed cost (a missing cost counting zero) and the number of rows of that date |
| LlmCosts.AddRow | api/llm-costs.ts:73-79 | one step of the per-row update keeps the map equal to the per-date totals of the rows seen so far |
| LlmCosts.DayStep | api/llm-costs.ts:75-78 | a further row changes only its own date's totals, by its cost and one request |
| LlmCosts.Days | api/llm-costs.ts:83-88 | one entry per distinct date, each with the totals of that date |
| LlmCosts.Summarize | api/llm-costs.ts:64-90 | the totals cover every selected row; the breakdown has min(7, dates) entries, newest first, each with its own date's totals, and any date left out is no newer than the last one shown |
| LlmCosts.OmittedDayIsOlder | api/llm-costs.ts:89-90 | a date missing from the breakdown means seven entries are shown and it is no newer than the seventh |
| LlmCosts.DailyTotalsAddUp | api/llm-costs.ts:64-80 | before the seven-day cut the per-day costs and counts add up to the overall totals |
| LlmCosts.CostsEndpoint | api/llm-costs.ts:15-99 | 405 off GET; the all-zero summary without database settings or when the table is missing; any other query error a 500; otherwise the summary of the rows of the last thirty days, with at most seven days |
| LlmCosts.EmptyLogIsZero | api/llm-costs.ts:60-68 | no rows give the same all-zero answer as a missing table |
| TaskCompletions.Load | apps/web/src/hooks/useTaskCompletions.ts:11-38 | loading ends in every case; no ids on screen clears the set without a query; a failed query keeps the set; otherwise the set is exactly the on-screen ids the table holds |
| TaskCompletions.Toggle | apps/web/src/hooks/useTaskCompletions.ts:40-50 | the toggled id changes membership and every other id keeps it |
| TaskCompletions.ToggleTwice | apps/web/src/hooks/useTaskCompletions.ts:40-50 | toggling an id twice gives back the state it started from |
| TaskCompletions.ToggleCommutes | apps/web/src/hooks/useTaskCompletions.ts:40-50 | toggles of two ids give the same state in either order |
| NoteOperations.DeleteNote | apps/web/src/hooks/useNoteOperations.ts:7-56 | while in flight the id is marked and loading is on, with the optimistic change applied; afterwards the mark is cleared and loading off, other marks untouched; the rollback runs exactly on failure, and the result is true exactly when the answer was OK with success |
| NoteOperations.FailedDeleteRestores | apps/web/src/hooks/useNoteOperations.ts:39-55 | with a rollback that undoes the optimistic change, a failed delete leaves the view and the hook's state as they were and resolves to false |
| ListEdits.FindById | apps/web/src/components/TasksList.tsx:92 | nothing is found exactly when no note has the id; otherwise the first note with that id |
| ListEdits.RemoveId | apps/web/src/components/TasksList.tsx:97-99 | keeps exactly the notes whose id differs |
| ListEdits.Restore | apps/web/src/components/TasksList.tsx:101-107 | without a found note the list is untouched; with one, the list gains exactly that note and is newest first |
| ListEdits.RemoveOne | apps/web/src/components/TasksList.tsx:97-99 | with distinct ids, removing an id drops exactly the one note that carries it |
| ListEdits.DeleteThenRollback | apps/web/src/components/IdeasList.tsx:45-60 | on a newest-first list with distinct ids and times, removing a note and rolling back gives the list back |
| ListEdits.HandleDelete | apps/web/src/components/TasksList.tsx:86-117 | the note disappears at once; it stays gone unless the request fails, when the found note is put back newest first; the parent is told only on success |
| ListEdits.RefusedDeleteRestoresView | apps/web/src/components/IdeasList.tsx:39-70 | a refused delete leaves such a list exactly as it was and tells the parent nothing |
| TasksList.Preview | apps/web/src/components/TasksList.tsx:119-121 | text of up to 80 UTF-16 units is kept; longer text is a prefix of 79 or 80 units followed by an ellipsis, exactly its first 80 characters when none lies outside the Basic Multilingual Plane |
| TasksList.DisplayContent | apps/web/src/components/TasksList.tsx:123-126 | the cleaned text when the note has a non-empty one, otherwise the typed text |
| TasksList.FormatDueDate | apps/web/src/components/TasksList.tsx:128-140 | no badge exactly for an empty date; overdue, today, tomorrow, a day count from 2 to 7, or the date, each for exactly its band of time left, the day count being the days rounded up |
| TasksList.LaterIsLessUrgent | apps/web/src/components/TasksList.tsx:133-139 | a later due date never gets a more urgent badge |
| TasksList.HandleToggleComplete | apps/web/src/components/TasksList.tsx:62-75 | the request asks for the opposite of the shown state; a saved toggle flips only that task; a failed one leaves the state as it was |
| IdeasList.IdeaTitle | apps/web/src/components/IdeasList.tsx:88-90 | the stored title when there is one, otherwise the placeholder; never blank |
| IdeasList.IdeaSummary | apps/web/src/components/IdeasList.tsx:92-94 | the stored summary when there is one; otherwise the note itself when it has at most 100 UTF-16 units, or its first 100 characters followed by an ellipsis when all lie in the Basic Multilingual Plane |
| IdeasList.FallbackSummaryIsShort | apps/web/src/components/IdeasList.tsx:93 | without a stored summary the summary begins the note and is at most 103 characters |
| ReadingList.Preview | apps/web/src/components/ReadingList.tsx:49-51 | text of up to 120 UTF-16 units is kept; longer text is a prefix of 119 or 120 units followed by an ellipsis, exactly its first 120 characters when none lies outside the Basic Multilingual Plane |
| ReadingList.ExtractLink | apps/web/src/components/ReadingList.tsx:53-57 | nothing exactly when no position starts a URL; otherwise the URL at the leftmost position that starts one |
| ReadingList.ItemTitle | apps/web/src/components/ReadingList.tsx:59-78 | the stored title, then the stored book title, then a first line of usable length, which then has no newline and 6 to 79 UTF-16 units, then the first words |
| ReadingList.OneLineIsItsOwnTitle | apps/web/src/components/ReadingList.tsx:69-74 | a one-line note of usable length without surrounding blanks is its own title |
| ReadingList.TypeOf | apps/web/src/components/ReadingList.tsx:80-85 | a link card exactly when a link is stored or the text holds a URL |
| ReadingList.ShownLink | apps/web/src/components/ReadingList.tsx:96 | the stored link when there is one, otherwise the first URL in the text |
| ReadingList.LinkCardsHaveLinks | apps/web/src/components/ReadingList.tsx:80-96 | when any stored link is text, a card is a link card exactly when it has a link to open |
| Calendar.Header | apps/web/src/components/JournalList.tsx:75-92 | "Today" exactly for today, "Yesterday" exactly for the day before, the date itself for any other day |
| MeetingsList.MeetingKey | apps/web/src/components/MeetingsList.tsx:50 | the stored meeting id when the note has one, otherwise the note's own id |
| MeetingsList.Meetings | apps/web/src/components/MeetingsList.tsx:49-56 | a partition of the notes by meeting key: no meeting empty or listed twice, each note in exactly its meeting, sizes adding up to the note count |
| MeetingsList.MeetingsAsWritten | apps/web/src/components/MeetingsList.tsx:49-56 | the plain-object accumulator fails exactly when some note's meeting key names an inherited object member; otherwise it gives the partition |
| MeetingsList.InheritedMeetingIdBreaksList | apps/web/src/components/MeetingsList.tsx:49-56 | a note whose meeting id is "constructor" breaks the list as written, while the corrected grouping gives it its own meeting |
| MeetingsList.OrderedMeetings | apps/web/src/components/MeetingsList.tsx:115-118 | the same meetings, none empty, ordered by their first note, newest first |
| MeetingsList.Transcript | apps/web/src/components/MeetingsList.tsx:191-192 | the same notes of one meeting, oldest first |
| MeetingsList.Title | apps/web/src/components/MeetingsList.tsx:58-75 | the stored meeting title, then the trimmed first sentence when it has 6 to 59 UTF-16 units, then the first four words |
| MeetingsList.MeetingWhen | apps/web/src/components/MeetingsList.tsx:77-92 | the stored date and time exactly when both are present, otherwise the first note's creation time |
| MeetingsList.EditIsNotShown | apps/web/src/components/MeetingsList.tsx:60-82 | a meeting edited through the meeting update keeps the title and time this view shows, since the edit writes other keys |
| JournalList.Days | apps/web/src/components/JournalList.tsx:43-50 | a partition of the entries by calendar day: no day empty or listed twice, each entry under its own day, sizes adding up to the entry count |
| JournalList.OrderedDays | apps/web/src/components/JournalList.tsx:53-55 | the same days, strictly newest first |
| JournalList.Entries | apps/web/src/components/JournalList.tsx:158-159 | the same entries of one day, oldest first |
| JournalList.DaySummary | apps/web/src/components/JournalList.tsx:57-73 | a short single entry is shown whole with an empty second line; a longer one shows words one to eight with an ellipsis, then words nine to sixteen, with an ellipsis when more follow; several entries give the entry and word counts and the start of the first one |
| JournalList.TwoLinesGiveTheEntryBack | apps/web/src/components/JournalList.tsx:58-64 | a single entry of 9 to 16 words is split across the two lines with nothing lost |
| Composer.OptionsAreAutoThenCategories | apps/web/src/components/Composer.tsx:8-20 | the menu starts on auto, then offers each allowed category once, in allow-list order, with distinct values |
| Composer.ValidNoteMeansNotBlank | src/utils.test.ts:8-10 | a note is valid exactly when it is not all whitespace |
| Composer.ValidNoteExamples | src/utils.test.ts:20-25 | the four cases of the unit test come out as it expects |
| Composer.Submit | apps/web/src/components/Composer.tsx:32-38 | something is sent exactly when the text is a valid note, and then it is the trimmed text with the selected value, after which the text is cleared and the menu closed; otherwise nothing changes |
| Composer.SubmitSendsOnce | apps/web/src/components/Composer.tsx:32-38 | submitting again right after a send sends nothing |
| Composer.SentTextIsClean | apps/web/src/components/Composer.tsx:33-35 | the text sent is itself a valid note and its own trim |
| Composer.KeyDown | apps/web/src/components/Composer.tsx:40-45 | Ctrl or Meta with Enter submits; every other key changes nothing |
| ChatPage.Recent | apps/web/src/pages/ChatPage.tsx:21-36 | a failed query keeps the list; no data shows nothing; otherwise at most 20 of the rows, newest first, none newer than a row left out |
| ChatPage.RowFor | apps/web/src/pages/ChatPage.tsx:42 | auto gives an empty category and the automatic source; a fixed category is stored as chosen with the manual source |
| ChatPage.SetCategory | apps/web/src/pages/ChatPage.tsx:63-65 | notes with the id get the category; every other note is untouched |
| ChatPage.HandleNoteInsert | apps/web/src/pages/ChatPage.tsx:38-75 | a failed insert changes nothing; a stored note is put first; the classifier is called exactly for auto notes, and only its answer changes the list; every classifier failure is swallowed |
| ChatPage.ClassifiedNoteLeads | apps/web/src/pages/ChatPage.tsx:49-65 | after a classified auto note the list has one more note, led by the new note with its category, the others as before |
| SettingsPage.DefaultsCoverTheCategories | apps/web/src/pages/SettingsPage.tsx:14-21 | one switch per allowed category, in allow-list order, all on |
| SettingsPage.Toggle | apps/web/src/pages/SettingsPage.tsx:26-32 | switches with the id flip and no other switch changes |
| SettingsPage.ToggleTwice | apps/web/src/pages/SettingsPage.tsx:26-32 | flipping the same switch twice gives back the list |
| SettingsPage.TotalsAdd | apps/web/src/pages/SettingsPage.tsx:34-35 | the totals of two joined lists are the sums of their totals, and one day totals to its own cost and request count |
| SettingsPage.MockTotals | apps/web/src/pages/SettingsPage.tsx:6-12 | the page's figures total 0.96 over 75 requests |
| Text.Trim | apps/web/src/components/Composer.tsx:33 | no whitespace at either end, no longer than the text, and empty exactly for blank text |
| Text.TrimPadded | apps/web/src/components/Composer.tsx:33 | the text is the trimmed text with only whitespace before and after it |
| Text.TrimOfPadded | apps/web/src/components/Composer.tsx:33 | text padded with whitespace around a core without whitespace ends trims to exactly that core, so trimming is characterised by padding |
| Text.TrimIsInfix | api/shared/middleware.ts:185 | every character of the trimmed text comes from the text |
| Text.SplitJoin | apps/web/src/components/JournalList.tsx:60-62 | splitting on a character and joining with it gives the text back |
| Text.FirstSentence | apps/web/src/components/MeetingsList.tsx:66-67 | the longest prefix without a sentence end, stopped by one or by the end of the text |
| Text.Truncate | apps/web/src/components/TasksList.tsx:119-121 | text within the length in UTF-16 units is kept; longer text is a prefix of the text one unit short of or exactly at the length, followed by the three-dot ellipsis |
| Text.Utf16Length | apps/web/src/components/TasksList.tsx:119 | the length JavaScript reports: between the character count and twice it |
| Text.Utf16Append | apps/web/src/components/TasksList.tsx:119 | the UTF-16 length of a concatenation is the sum of the parts' lengths |
| Text.Utf16LengthBmp | apps/web/src/components/TasksList.tsx:119 | the UTF-16 length equals the character count exactly when no character lies outside the Basic Multilingual Plane |
| Text.Utf16Prefix | apps/web/src/components/TasksList.tsx:120 | the longest prefix that fits in n UTF-16 units: it fits, it is at most one unit short, the next character would not fit, and text that fits is kept whole |
| Text.Utf16PrefixBmp | apps/web/src/components/TasksList.tsx:120 | on Basic Multilingual Plane text the cut is the first n characters, as `substring(0, n)` gives |
| Text.TruncateBmp | apps/web/src/components/TasksList.tsx:119-121 | on Basic Multilingual Plane text, text of at most n characters is kept and longer text is its first n characters and the ellipsis |
| Text.WordPreviewOfShortText | apps/web/src/components/ReadingList.tsx:76-77 | text of at most n words is kept whole; longer text is its first n words and an ellipsis |
| Ordering.SortDesc | apps/web/src/components/JournalList.tsx:53-55 | a permutation of the input, highest rank first |
| Ordering.SortedUnique | apps/web/src/components/IdeasList.tsx:56-58 | two highest-first permutations of the same items with distinct ranks are equal, so the sort's result does not depend on the input order |
| Ordering.TopByRank | apps/web/src/pages/ChatPage.tsx:26-27 | min(k, n) items, highest first, drawn from the input; an item left out ranks no higher than any kept one, and only when k are kept |
| Grouping.Keys | api/llm-costs.ts:71-80 | each key once, and exactly the keys of the elements |
| Grouping.GroupByIsPartition | apps/web/src/components/MeetingsList.tsx:49-56 | grouping is a partition: distinct keys, no empty group, each element in exactly the group of its key, sizes adding up |
| Grouping.GroupByPreservesSum | api/llm-costs.ts:71-80 | the groups' weights add up to the weight of the whole list |
| Grouping.SumOverAppend | api/llm-costs.ts:64-68 | a weight sum over two joined lists is the sum of the two sums |

## Left out

- **The language model, the database and Firebase token verification are not executed.**
  - Their answers are parameters: a reply (parsed or raw), an enhancement or none, a query result or error, a decoded token or a refusal.
  - The model's output is never specified.
- **Regular expressions are abstracted.**
  - The four injection patterns of the request check are the parameter `dangerous`.
  - The global-flag `lastIndex` state those patterns carry between `.test` calls is not modelled.
  - The sanitiser's pattern scrub is likewise a parameter.
  - The URL, sentence-end and whitespace patterns are written out as character predicates.
- Lower-casing covers ASCII letters only; JavaScript's `toLowerCase` also folds other scripts.
- **Clocks and locale formatting are parameters.**
  - `Date.now`, `new Date`, `toDateString`, `toLocaleDateString` and `toISOString` become plain inputs: `now` and `today` are integers, `dayOf` maps a timestamp to a local day, and dates in the cost log are day numbers.
  - Unparsable dates (NaN) are not modelled.
  - The written-out dates of the badges and headings are not modelled: `TasksList.OnDate`, `Calendar.OnDay` and `MeetingsList.AtCreation` carry the value, not the text.
- Calendar.Header: models the Today/Yesterday/date choice. The meetings view's short date, with its year shown only in other years, is not modelled.
- **Money is exact.**
  - Costs are real numbers, not floating point, so sums are exact where the browser may round in the last digit.
  - SettingsPage.MockTotals: states the exact total 0.96. Floating-point addition of the same figures may print a trailing rounding digit.
- **Timers and concurrency are not modelled.**
  - `setInterval` cleanup scheduling, `setTimeout` before the parent refresh, the `AbortController` timeout and the un-awaited cost log are left out.
  - Each operation is one event, and the cleanup is its predicate.
  - The timeout appears only as the error it produces.
- **Logging is not modelled.** `console` output and the audit log have no observable effect.
  - Middleware.SanitizeLogData: models the redaction the audit log applies, not the log line itself.
- **React rendering is not modelled.**
  - Left out: JSX, dialogs, the `confirm` prompt (the delete flows start after the user confirms), `window.location.reload` after a due-date change, and textarea resizing.
  - The pages without logic are left out as well, as are the auth provider wiring and the thin fetch wrappers.
- **View fallbacks read text only.**
  - They use `TextField`, which accepts a metadata value only when it is a non-empty string.
  - A truthy non-string value (`true`) would be shown by the browser as is; the model uses the fallback instead.
  - Notes.TextField: gives nothing for a truthy non-string value such as `true`, where the view's `||` would keep that value.
  - TasksList.DisplayContent: states nothing for a truthy non-string `cleaned_content`.
- **Ordering of equal ranks.**
  - The model sorts with an insertion sort whose order among equal ranks is not stated.
  - The browser's stable sort keeps input order, and `Object.entries` lists integer-like keys first.
  - MeetingsList.OrderedMeetings: states the newest-first order only. Meetings whose first notes share a creation time may come in either order.
- Search.Query: returns whole notes, while the serverless search selects only id, content, category and created_at.
- **Request bodies.**
  - A missing string field is represented as the empty string, matching the source's falsy checks.
  - An unreadable JSON body is a separate case.
  - `parseInt` of the content length is an optional integer: an unparsable length passes, as `NaN > max` is false.
- Middleware.WithAuth: after the limiter has written its 429, the source also passes the thrown error to the error handler. The second response that handler attempts is not modelled; the client sees the 429.
- **Lengths count UTF-16 units.**
  - Every length test and cut counts UTF-16 units, as JavaScript's `.length` and `substring` do (`Text.Utf16Length`).
  - Text.Truncate: when the cut falls inside a surrogate pair, JavaScript keeps the lone high surrogate. A Dafny character cannot hold one, so the model stops before the pair, one unit short.
  - TasksList.Preview: the same cut inside a surrogate pair, at 80 units.
  - ReadingList.Preview: the same cut inside a surrogate pair, at 120 units.
  - IdeasList.IdeaSummary: the same cut inside a surrogate pair, at 100 units; its exact text is stated for Basic Multilingual Plane notes only.
  - LlmClient.Sanitize: the same cut inside a surrogate pair, at 50000 units.
- **Model replies and metadata are flat objects.**
  - A metadata value is a string, a boolean or null. Numbers, arrays and nested objects are not represented, so an update carrying them has no counterpart.
  - EnhanceMetadata.EnhanceIdea: a reply that parses to a JSON value other than an object, such as `5`, is returned as the note's metadata by apps/edge/src/enhance-metadata.ts:112. The model treats it as unparsable and uses the fallback title.
  - EnhanceMetadata.EnhanceMeeting: likewise for a non-object reply, returned by apps/edge/src/enhance-metadata.ts:173.
  - EnhanceMetadata.EnhanceReading: a non-object reply is spread into the found link by apps/edge/src/enhance-metadata.ts:227-231, and a `null` reply throws there when the note has no URL and falls back. The model uses the fallback for every non-object reply.
  - Classify.Postprocess: takes no `null` reply. Reading its category throws, which `Classify.ClassifyEndpoint` answers with a 500. A number, string or array reply reads as all three members absent.
- **The corrected schema lookup.** The extraction uses the lookup of an own schema entry (see Findings); `MetadataActions.ExtractAsWritten` gives the lookup as written.
  - MetadataActions.Extract: answers 400 "Invalid category" for an inherited name such as "constructor", which api/metadata.ts:74-77 lets through to the model call.
  - MetadataActions.ExtractEndpoint: the same, for the same lookup in api/extract-metadata.ts:35-38.
  - MetadataActions.HandleMetadata: its extract action is the corrected one.
- MeetingsList.Meetings: groups by meeting key as intended. The view's plain-object accumulator fails on an inherited key such as "constructor", which `MeetingsList.MeetingsAsWritten` gives (see Findings).
- LlmCosts.CostsEndpoint: assumes creating the database client does not throw. api/llm-costs.ts:21 creates it before the settings test at 24-31, and the client library refuses an empty URL, so missing settings would end in a 500 rather than the zero summary the model gives.
- MetadataActions.Extract: a reply that parses to `null` is not modelled. For a non-reading note api/metadata.ts:97 would store null, and for a reading note reading `.link` at :103 throws and the request ends in a 500.
- The replacement of `\n` escapes in the Firebase private key is not modelled: it only reformats a secret.
- The service worker, icon scripts, edge dev server, test configuration and end-to-end test are not part of this model. `formatDate` in the unit test file is a locale call and is left out with the clock.

## Findings

| source | as written | input that shows it | evidently intended | confidence | as-written member | corrected member |
|---|---|---|---|---|---|---|
| api/metadata.ts:74-77 | the schema table is read as a plain object, so a category named after an inherited `Object.prototype` member finds a function and passes the `!schema` guard (the same lookup is in api/extract-metadata.ts:35-38). The request reaches the model call with a schema that `JSON.stringify` drops (api/shared/openai-utils.ts:46-54); when the call succeeds, its reply is stored as the note's metadata and answered with 200 | category "constructor" | a name without its own schema entry is refused with 400 "Invalid category" | not executed | MetadataActions.ExtractAsWritten | Schemas.LookupSchema |
| apps/web/src/components/MeetingsList.tsx:49-56 | the notes are grouped into a plain object, so a meeting id named after an inherited member finds that member instead of an empty slot, and pushing onto it throws, so the meetings view fails | a note whose `related_meeting_id` is "constructor" | every meeting id gets its own group | not executed | MeetingsList.MeetingsAsWritten | MeetingsList.Meetings |

=== FILE: calendar.dfy ===
/** The day headings the meetings and journal views show. Calendar days
    are integers in the viewer's local time; turning a timestamp into a
    day and printing a date are left to the locale. */
module Calendar {

  /** Today, Yesterday, or the date written out for any other day. */
  datatype DayHeader = Today | Yesterday | OnDay(day: int)

  /** `formatDateHeader(day)` seen from `today`. */
  function Header(day: int, today: int): (h: DayHeader)
    ensures h == Today <==> day == today
    ensures h == Yesterday <==> day == today - 1
    ensures h.OnDay? ==> h.day == day
  {
    if day == today then Today
    else if day == today - 1 then Yesterday
    else OnDay(day)
  }
}

=== FILE: categories.dfy ===
/** The six note categories and the allow-list every classifier and the
    metadata actions check labels against. */
module Categories {
  import opened Wrappers

  datatype Category = Task | Idea | Journal | Meeting | Reading | Misc

  /** The label stored in the `category` column. */
  function Name(c: Category): string {
    match c
    case Task => "task"
    case Idea => "idea"
    case Journal => "journal"
    case Meeting => "meeting"
    case Reading => "reading"
    case Misc => "misc"
  }

  /** `validCategories`, in the order the application lists them. */
  const ValidCategories: seq<string> := ["task", "idea", "journal", "meeting", "reading", "misc"]

  /** Reads a stored label back into a category; labels outside the
      allow-list have none. */
  function Parse(s: string): (r: Option<Category>)
    ensures r.Some? <==> s in ValidCategories
    ensures r.Some? ==> Name(r.value) == s
  {
    if s == "task" then Some(Task)
    else if s == "idea" then Some(Idea)
    else if s == "journal" then Some(Journal)
    else if s == "meeting" then Some(Meeting)
    else if s == "reading" then Some(Reading)
    else if s == "misc" then Some(Misc)
    else None
  }

  /** `validCategories.includes(label) ? label : 'misc'`: an allowed label
      keeps its category and anything else becomes misc. */
  function Coerce(tag: string): (c: Category)
    ensures tag in ValidCategories ==> Name(c) == tag
    ensures tag !in ValidCategories ==> c == Misc
  {
    Parse(tag).GetOr(Misc)
  }

  /** The allow-list names exactly the six categories, each once. */
  lemma AllowListIsTheCategories()
    ensures |ValidCategories| == 6
    ensures forall i, j :: 0 <= i < j < |ValidCategories| ==> ValidCategories[i] != ValidCategories[j]
    ensures forall c: Category :: Name(c) in ValidCategories
    ensures forall s :: s in ValidCategories ==> exists c: Category :: Name(c) == s
  {
    forall s | s in ValidCategories
      ensures exists c: Category :: Name(c) == s
    {
      assert Name(Parse(s).value) == s;
    }
  }

  /** Naming a category and parsing the name gives it back, so coercing a
      category's own label is the identity and coercion is idempotent. */
  lemma NameParseRoundTrip(c: Category, tag: string)
    ensures Parse(Name(c)) == Some(c)
    ensures Coerce(Name(c)) == c
    ensures Coerce(Name(Coerce(tag))) == Coerce(tag)
  {
  }
}

=== FILE: chat_page.dfy ===
/** The chat page: the recent notes it shows, and what happens to its list
    when the composer sends a note. */
module ChatPage {
  import opened Wrappers
  import opened Seqs
  import opened Categories
  import opened Notes
  import opened Ordering
  import opened Composer

  const RecentLimit: nat := 20

  /** The recent-notes query: newest first, at most 20. A failed query
      keeps the list the page had; a query with no data shows nothing. */
  function Recent(prev: seq<Note>, rows: seq<Note>, fails: bool, noData: bool): (r: seq<Note>)
    ensures fails ==> r == prev
    ensures !fails && noData ==> r == []
    ensures !fails && !noData ==> |r| == Min(RecentLimit, |rows|) && Descending(r, CreatedAt)
    ensures !fails && !noData ==> multiset(r) <= multiset(rows)
    ensures !fails && !noData ==> forall n, i :: n in rows && n !in r && 0 <= i < |r| ==> CreatedAt(n) <= CreatedAt(r[i])
  {
    if fails then prev else if noData then [] else TopByRank(rows, CreatedAt, RecentLimit)
  }

  /** The row the page asks the database to insert. */
  datatype NewRow = NewRow(content: string, category: Option<Category>, source: Source)

  /** The sent value becomes the row's category and source: `auto` leaves
      the category empty for the classifier and marks the note automatic;
      a fixed category is stored as chosen and marked manual. */
  function RowFor(content: string, choice: Choice): (r: NewRow)
    ensures r.content == content
    ensures r.category.None? <==> choice.AutoChoice?
    ensures r.source == Auto <==> choice.AutoChoice?
    ensures choice.Fixed? ==> r.category == Some(choice.category)
  {
    match choice
    case AutoChoice => NewRow(content, None, Auto)
    case Fixed(c) => NewRow(content, Some(c), Manual)
  }

  /** What the classify endpoint did: it threw, answered with an error
      status, or answered with a category. */
  datatype ClassifyOutcome = ClassifyThrew | ClassifyRefused | Classified(category: Category)

  /** `prev.map(note => note.id === id ? { ...note, category } : note)` */
  function SetCategory(notes: seq<Note>, id: string, c: Category): (r: seq<Note>)
    ensures |r| == |notes|
    ensures forall i :: 0 <= i < |notes| && notes[i].id != id ==> r[i] == notes[i]
    ensures forall i :: 0 <= i < |notes| && notes[i].id == id ==> r[i] == notes[i].(category := Some(c))
  {
    seq(|notes|, i requires 0 <= i < |notes| => if notes[i].id == id then notes[i].(category := Some(c)) else notes[i])
  }

  /** The effect of sending a note: the row requested, whether classify was
      called, and the list afterwards. */
  datatype InsertEffect = InsertEffect(request: NewRow, classifyCalled: bool, notes: seq<Note>)

  /** `handleNoteInsert(content, category)`. `inserted` is the row the
      database returned, or None when the insert failed. A failed insert
      leaves the list alone. A stored note is put first; only an `auto`
      note is then sent to the classifier, and only a category it answers
      with changes the list, on the notes with the new note's id. Every
      classifier failure is swallowed. */
  function HandleNoteInsert(notes: seq<Note>, content: string, choice: Choice,
                            inserted: Option<Note>, classify: ClassifyOutcome): (e: InsertEffect)
    ensures e.request == RowFor(content, choice)
    ensures inserted.None? ==> !e.classifyCalled && e.notes == notes
    ensures inserted.Some? ==> e.classifyCalled == choice.AutoChoice?
    ensures inserted.Some? && !(choice.AutoChoice? && classify.Classified?) ==> e.notes == [inserted.value] + notes
    ensures inserted.Some? && choice.AutoChoice? && classify.Classified? ==>
      e.notes == SetCategory([inserted.value] + notes, inserted.value.id, classify.category)
  {
    var request := RowFor(content, choice);
    match inserted
    case None => InsertEffect(request, false, notes)
    case Some(row) =>
      var shown := [row] + notes;
      if choice.AutoChoice? && classify.Classified? then
        InsertEffect(request, true, SetCategory(shown, row.id, classify.category))
      else InsertEffect(request, choice.AutoChoice?, shown)
  }

  /** After a stored auto note is classified, the list has one more note,
      the first one is the new note with the category the classifier
      chose, and every note with another id is as it was. */
  lemma ClassifiedNoteLeads(notes: seq<Note>, content: string, inserted: Note, c: Category)
    ensures var e := HandleNoteInsert(notes, content, AutoChoice, Some(inserted), Classified(c));
      && |e.notes| == |notes| + 1
      && e.notes[0] == inserted.(category := Some(c))
      && forall i :: 0 <= i < |notes| && notes[i].id != inserted.id ==> e.notes[i + 1] == notes[i]
  {
    var shown := [inserted] + notes;
    var e := HandleNoteInsert(notes, content, AutoChoice, Some(inserted), Classified(c));
    forall i | 0 <= i < |notes| && notes[i].id != inserted.id
      ensures e.notes[i + 1] == notes[i]
    {
      assert shown[i + 1] == notes[i];
    }
  }
}

=== FILE: classify.dfy ===
/** Classification of a new note: the structured pipeline behind the
    production endpoint (category plus metadata, task clean-up, reading
    enrichment) and the label-only variant of the edge function and the
    development server. */
module Classify {
  import opened Wrappers
  import opened Text
  import opened Categories
  import opened Notes
  import opened Http
  import opened Schemas
  import opened SupabaseUtils
  import opened LlmClient

  /** The request body; a missing field is the empty string. */
  datatype ClassifyRequest = ClassifyRequest(noteId: string, content: string)

  /** The model's reply text as `JSON.parse` sees it: not JSON at all,
      the JSON `null` (whose members cannot be read), or any other JSON
      value, whose category, metadata and cleaned_content members may each
      be absent; a number, string or array reads as all three absent. */
  datatype ModelReply =
    | NotJson(raw: string)
    | JsonNull
    | JsonReply(category: Option<string>, metadata: Option<Metadata>, cleanedContent: Option<string>)

  datatype Classification = Classification(category: Category, metadata: Metadata)

  /** The label a bare-text reply stands for: trimmed, lower-cased and
      checked against the allow-list. */
  function LabelOf(raw: string): (c: Category)
    ensures Lower(Trim(raw)) in ValidCategories ==> Name(c) == Lower(Trim(raw))
    ensures Lower(Trim(raw)) !in ValidCategories ==> c == Misc
  {
    Coerce(Lower(Trim(raw)))
  }

  /** The metadata object the reply supplies before any post-processing. */
  function BaseMetadata(reply: ModelReply): Metadata {
    match reply
    case JsonReply(_, m, _) => m.GetOr(map[])
    case _ => map[]
  }

  /** `result.cleaned_content || body.content` */
  function CleanedContent(content: string, reply: ModelReply): (s: string)
    ensures reply.JsonReply? && reply.cleanedContent.Some? && reply.cleanedContent.value != [] ==> s == reply.cleanedContent.value
    ensures !(reply.JsonReply? && reply.cleanedContent.Some? && reply.cleanedContent.value != []) ==> s == content
  {
    match reply
    case JsonReply(_, _, cc) => if cc.Some? && cc.value != [] then cc.value else content
    case _ => content
  }

  /** The keys post-processing may write. */
  const DerivedKeys: set<string> := {"cleaned_content", "title", "summary"}

  /** Everything after the model call: validate the category, take the
      metadata (or an empty object), store a changed task text as
      cleaned_content, and let the reading enhancer fill in title and
      summary for a reading note with a link. Reading the category of a
      `null` reply throws, so such a reply never gets here. */
  function Postprocess(content: string, reply: ModelReply, enhancer: Option<Enhancement>): (c: Classification)
    requires !reply.JsonNull?
    ensures reply.NotJson? ==> c == Classification(LabelOf(reply.raw), map[])
    ensures reply.JsonReply? ==> c.category == Coerce(reply.category.GetOr(""))
    ensures forall k :: k !in DerivedKeys ==>
      (k in c.metadata <==> k in BaseMetadata(reply)) && (k in c.metadata ==> c.metadata[k] == BaseMetadata(reply)[k])
    ensures c.category == Task && CleanedContent(content, reply) != content ==>
      "cleaned_content" in c.metadata && c.metadata["cleaned_content"] == Str(CleanedContent(content, reply))
    ensures !(c.category == Task && CleanedContent(content, reply) != content) ==>
      && ("cleaned_content" in c.metadata <==> "cleaned_content" in BaseMetadata(reply))
      && ("cleaned_content" in c.metadata ==> c.metadata["cleaned_content"] == BaseMetadata(reply)["cleaned_content"])
    ensures c.category == Reading && HasTruthy(BaseMetadata(reply), "link") && enhancer.Some? ==>
      && "title" in c.metadata && c.metadata["title"] == Str(enhancer.value.title)
      && "summary" in c.metadata && c.metadata["summary"] == Str(enhancer.value.summary)
    ensures !(c.category == Reading && HasTruthy(BaseMetadata(reply), "link") && enhancer.Some?) ==>
      forall k :: k in {"title", "summary"} ==>
        (k in c.metadata <==> k in BaseMetadata(reply)) && (k in c.metadata ==> c.metadata[k] == BaseMetadata(reply)[k])
  {
    var category := Coerce(ReplyCategory(reply));
    var base := BaseMetadata(reply);
    var withCleaned := RecordCleaned(category, base, content, CleanedContent(content, reply));
    assert HasTruthy(withCleaned, "link") == HasTruthy(base, "link");
    Classification(category, Enrich(category, withCleaned, enhancer))
  }

  /** The category a reply names: a bare-text reply's recognised label, or
      the JSON reply's category member, empty when absent. */
  function ReplyCategory(reply: ModelReply): (name: string)
    requires !reply.JsonNull?
    ensures reply.NotJson? ==> Coerce(name) == LabelOf(reply.raw)
    ensures reply.JsonReply? ==> name == reply.category.GetOr("")
  {
    match reply
    case NotJson(raw) => NameParseRoundTrip(LabelOf(raw), raw); Name(LabelOf(raw))
    case JsonReply(cat, _, _) => cat.GetOr("")
  }

  /** A task whose text the model changed keeps the new text as
      cleaned_content; nothing else is touched. */
  function RecordCleaned(category: Category, base: Metadata, content: string, cleaned: string): (m: Metadata)
    ensures forall k :: k != "cleaned_content" ==> (k in m <==> k in base) && (k in m ==> m[k] == base[k])
    ensures category == Task && cleaned != content ==> "cleaned_content" in m && m["cleaned_content"] == Str(cleaned)
    ensures !(category == Task && cleaned != content) ==> m == base
  {
    if category == Task && cleaned != content then base["cleaned_content" := Str(cleaned)] else base
  }

  /** A reading note with a link takes title and summary from the
      enhancer when it answered; nothing else is touched. */
  function Enrich(category: Category, m: Metadata, enhancer: Option<Enhancement>): (e: Metadata)
    ensures forall k :: k != "title" && k != "summary" ==> (k in e <==> k in m) && (k in e ==> e[k] == m[k])
    ensures category == Reading && HasTruthy(m, "link") && enhancer.Some? ==>
      && "title" in e && e["title"] == Str(enhancer.value.title)
      && "summary" in e && e["summary"] == Str(enhancer.value.summary)
    ensures !(category == Reading && HasTruthy(m, "link") && enhancer.Some?) ==> e == m
  {
    if category == Reading && HasTruthy(m, "link") && enhancer.Some? then
      m["title" := Str(enhancer.value.title)]["summary" := Str(enhancer.value.summary)]
    else m
  }

  /** The enhancer is consulted only for a reading note whose metadata has
      a link: for every other outcome its answer makes no difference. */
  lemma EnhancerOnlyForReadingLinks(content: string, reply: ModelReply, e1: Option<Enhancement>, e2: Option<Enhancement>)
    requires !reply.JsonNull?
    requires !(Postprocess(content, reply, e1).category == Reading && HasTruthy(BaseMetadata(reply), "link"))
    ensures Postprocess(content, reply, e1) == Postprocess(content, reply, e2)
  {
  }

  /** A reply that follows the classification schema yields metadata that
      still follows it: post-processing adds only declared string fields. */
  lemma PostprocessKeepsSchema(content: string, reply: ModelReply, enhancer: Option<Enhancement>)
    requires !reply.JsonNull?
    requires reply.JsonReply? && reply.metadata.Some? ==> Conforms(reply.metadata.value, ClassificationMetadataSchema)
    ensures Conforms(Postprocess(content, reply, enhancer).metadata, ClassificationMetadataSchema)
  {
    var c := Postprocess(content, reply, enhancer);
    forall k | k in c.metadata
      ensures k in ClassificationMetadataSchema.properties && c.metadata[k].Str?
    {
      if k !in DerivedKeys {
        assert k in BaseMetadata(reply);
      }
    }
  }

  lemma TrimmedIdea()
    ensures Trim(" Idea\n") == "Idea"
  {
    var s := " Idea\n";
    assert s[1..5] == "Idea" && s[..1] == " " && s[5..] == "\n";
    PaddedAt(s, "Idea", 1);
    TrimOfPadded(s, "Idea");
  }

  lemma LoweredIdea()
    ensures Lower("Idea") == "idea"
  {
    var low := Lower("Idea");
    assert low[0] == 'i' && low[1] == 'd' && low[2] == 'e' && low[3] == 'a';
  }

  /** A bare label with stray whitespace and capitals is still recognised. */
  lemma BareLabelReply()
    ensures Postprocess("Build a habit tracker", NotJson(" Idea\n"), None) == Classification(Idea, map[])
  {
    TrimmedIdea();
    LoweredIdea();
    assert LabelOf(" Idea\n") == Idea;
  }

  /** A task whose due date the model removed keeps the cleaned text in its
      metadata next to the extracted date. */
  lemma TaskWithDueDate()
    ensures Postprocess("Fix the login bug due tomorrow",
                        JsonReply(Some("task"), Some(map["due_date" := Str("2024-12-26")]), Some("Fix the login bug")), None)
         == Classification(Task, map["due_date" := Str("2024-12-26"), "cleaned_content" := Str("Fix the login bug")])
  {
  }

  /** The production handler. Only POST is served; an unreadable body, a
      failed model call, a `null` reply or a failed write end in a 500 and a missing field
      in a 400, all without writing; otherwise the category and metadata
      are written to the note and returned exactly as written. */
  function ClassifyEndpoint(verb: string, body: Option<ClassifyRequest>, call: Result<ModelReply, LlmError>,
                            enhancer: Option<Enhancement>, db: Store, writeFails: bool): (r: (Response<Classification>, Store))
    ensures verb != "POST" ==> r == (Error(405, MethodNotAllowed), db)
    ensures verb == "POST" && body.Some? && (body.value.noteId == [] || body.value.content == []) ==>
      r == (Error(400, "Missing note_id or content"), db)
    ensures r.0.status != 200 ==> r.1 == db
    ensures verb == "POST" && body.Some? && body.value.noteId != [] && body.value.content != [] && call.Success? && call.value.JsonNull? ==>
      r == (Error(500, InternalServerError), db)
    ensures r.0.status == 200 <==>
      verb == "POST" && body.Some? && body.value.noteId != [] && body.value.content != [] && call.Success? && !call.value.JsonNull? && !writeFails
    ensures r.0.status == 200 ==> r.0 == Ok(Postprocess(body.value.content, call.value, enhancer))
    ensures r.0.status == 200 ==> r.1.Keys == db.Keys && forall k :: k in db && k != body.value.noteId ==> r.1[k] == db[k]
    ensures r.0.status == 200 && body.value.noteId in db ==>
      r.1[body.value.noteId].category == Some(r.0.body.value.category)
      && r.1[body.value.noteId].metadata == r.0.body.value.metadata
      && r.1[body.value.noteId].content == db[body.value.noteId].content
  {
    if verb != "POST" then (Error(405, MethodNotAllowed), db)
    else match body
      case None => (Error(500, InternalServerError), db)
      case Some(req) =>
        if req.noteId == [] || req.content == [] then (Error(400, "Missing note_id or content"), db)
        else match call
          case Failure(_) => (Error(500, InternalServerError), db)
          case Success(JsonNull) => (Error(500, InternalServerError), db)
          case Success(reply) =>
            var c := Postprocess(req.content, reply, enhancer);
            match UpdateNoteMetadata(db, req.noteId, Patch(Some(c.category), Some(c.metadata), None), writeFails)
            case Failure(_) => (Error(500, InternalServerError), db)
            case Success(db') => (Ok(c), db')
  }

  /** The label-only classifier of the edge function and the development
      server, after the method check. reply is the label text, or None
      when the model call did not answer OK. Only the category column is
      written. */
  function ClassifyLabel(req: ClassifyRequest, reply: Option<string>, db: Store, writeFails: bool): (r: (Response<Category>, Store))
    ensures req.noteId == [] || req.content == [] ==> r == (Error(400, "Missing note_id or content"), db)
    ensures r.0.status != 200 ==> r.1 == db
    ensures r.0.status == 200 <==> req.noteId != [] && req.content != [] && reply.Some? && !writeFails
    ensures r.0.status == 200 ==> r.0 == Ok(LabelOf(reply.value))
    ensures r.0.status == 200 ==> r.1.Keys == db.Keys && forall k :: k in db && k != req.noteId ==> r.1[k] == db[k]
    ensures r.0.status == 200 && req.noteId in db ==>
      r.1[req.noteId] == db[req.noteId].(category := Some(LabelOf(reply.value)))
  {
    if req.noteId == [] || req.content == [] then (Error(400, "Missing note_id or content"), db)
    else match reply
      case None => (Error(500, InternalServerError), db)
      case Some(text) =>
        var c := LabelOf(text);
        if writeFails then (Error(500, InternalServerError), db)
        else (Ok(c), UpdateWhere(db, req.noteId, Patch(Some(c), None, None), false))
  }

  /** The edge function: POST only, and an unreadable body is a 500. */
  function EdgeClassify(verb: string, body: Option<ClassifyRequest>, reply: Option<string>, db: Store, writeFails: bool): (r: (Response<Category>, Store))
    ensures verb != "POST" ==> r == (Error(405, MethodNotAllowed), db)
    ensures verb == "POST" && body.None? ==> r == (Error(500, InternalServerError), db)
    ensures verb == "POST" && body.Some? ==> r == ClassifyLabel(body.value, reply, db, writeFails)
  {
    if verb != "POST" then (Error(405, MethodNotAllowed), db)
    else match body
      case None => (Error(500, InternalServerError), db)
      case Some(req) => ClassifyLabel(req, reply, db, writeFails)
  }

  /** The two classifiers agree on a bare-label reply: the production
      handler and the label-only classifier both succeed, answer the same
      category and store it in the note. */
  lemma LabelVariantsAgree(req: ClassifyRequest, raw: string, e: Option<Enhancement>, db: Store)
    requires req.noteId != [] && req.content != []
    ensures ClassifyEndpoint("POST", Some(req), Success(NotJson(raw)), e, db, false).0.IsOk()
    ensures ClassifyLabel(req, Some(raw), db, false).0.IsOk()
    ensures ClassifyLabel(req, Some(raw), db, false).0.body.value
         == ClassifyEndpoint("POST", Some(req), Success(NotJson(raw)), e, db, false).0.body.value.category
    ensures req.noteId in db ==>
      ClassifyLabel(req, Some(raw), db, false).1[req.noteId].category
      == ClassifyEndpoint("POST", Some(req), Success(NotJson(raw)), e, db, false).1[req.noteId].category
  {
    var full := ClassifyEndpoint("POST", Some(req), Success(NotJson(raw)), e, db, false);
    assert full.0 == Ok(Postprocess(req.content, NotJson(raw), e));
  }
}

=== FILE: composer.dfy ===
/** The message composer: the category menu, and when typed text is sent
    and what is sent with it. */
module Composer {
  import opened Wrappers
  import opened Text
  import opened Categories

  /** A menu entry: let the classifier decide, or a fixed category. */
  datatype Choice = AutoChoice | Fixed(category: Category)

  /** The value a choice sends along with the text. */
  function Value(c: Choice): string {
    match c
    case AutoChoice => "auto"
    case Fixed(cat) => Name(cat)
  }

  /** The menu, in order; the first entry is selected at the start. */
  const Options: seq<Choice> := [AutoChoice, Fixed(Task), Fixed(Idea), Fixed(Journal), Fixed(Meeting), Fixed(Reading), Fixed(Misc)]

  /** The menu offers `auto` followed by the allowed categories, each once,
      and starts on `auto`. */
  lemma OptionsAreAutoThenCategories()
    ensures |Options| == 7 && Options[0] == AutoChoice
    ensures forall i :: 1 <= i < |Options| ==> Value(Options[i]) == ValidCategories[i - 1]
    ensures forall c :: c in Options
    ensures forall i, j :: 0 <= i < j < |Options| ==> Value(Options[i]) != Value(Options[j])
  {
    forall c ensures c in Options {
      match c
      case AutoChoice => assert Options[0] == c;
      case Fixed(cat) =>
        match cat
        case Task => assert Options[1] == c;
        case Idea => assert Options[2] == c;
        case Journal => assert Options[3] == c;
        case Meeting => assert Options[4] == c;
        case Reading => assert Options[5] == c;
        case Misc => assert Options[6] == c;
    }
  }

  /** `validateNote(content)`: there is something besides whitespace. */
  predicate ValidNote(content: string) {
    |Trim(content)| > 0
  }

  lemma ValidNoteMeansNotBlank(content: string)
    ensures ValidNote(content) <==> !AllWhitespace(content)
  {
  }

  /** The cases the application's unit test lists. */
  lemma ValidNoteExamples()
    ensures ValidNote("Valid note")
    ensures !ValidNote("   ")
    ensures !ValidNote("")
    ensures ValidNote("  Valid note  ")
  {
    assert !AllWhitespace("Valid note") by { assert !IsWhitespace("Valid note"[0]); }
    assert AllWhitespace("   ");
    assert !AllWhitespace("  Valid note  ") by { assert !IsWhitespace("  Valid note  "[2]); }
  }

  /** What the composer holds: the typed text, the selected menu entry and
      whether the menu is open. */
  datatype ComposerState = ComposerState(content: string, selected: Choice, menuOpen: bool)

  const Initial := ComposerState("", AutoChoice, false)

  /** `handleSubmit()`: blank text sends nothing and changes nothing;
      otherwise the trimmed text is sent with the selected value, the text
      is cleared and the menu closed. */
  function Submit(s: ComposerState): (r: (Option<(string, string)>, ComposerState))
    ensures r.0.Some? <==> ValidNote(s.content)
    ensures r.0.None? ==> r.1 == s
    ensures r.0.Some? ==> r.0.value == (Trim(s.content), Value(s.selected))
    ensures r.0.Some? ==> r.1 == ComposerState("", s.selected, false)
    ensures r.0.Some? ==> !AllWhitespace(r.0.value.0)
  {
    if !ValidNote(s.content) then (None, s)
    else (Some((Trim(s.content), Value(s.selected))), s.(content := "", menuOpen := false))
  }

  /** A submitted message goes out once: submitting again sends nothing. */
  lemma SubmitSendsOnce(s: ComposerState)
    requires Submit(s).0.Some?
    ensures Submit(Submit(s).1).0.None?
  {
  }

  /** The text that goes out is itself a valid note, and is its own trim. */
  lemma SentTextIsClean(s: ComposerState)
    requires Submit(s).0.Some?
    ensures ValidNote(Submit(s).0.value.0) && Trim(Submit(s).0.value.0) == Submit(s).0.value.0
  {
    var t := Trim(s.content);
    TrimUntouched(t);
  }

  /** `handleKeyDown(e)`: Ctrl or Meta with Enter submits; any other key
      leaves everything alone. */
  function KeyDown(s: ComposerState, ctrl: bool, meta: bool, key: string): (r: (Option<(string, string)>, ComposerState))
    ensures (ctrl || meta) && key == "Enter" ==> r == Submit(s)
    ensures !((ctrl || meta) && key == "Enter") ==> r == (None, s)
  {
    if (ctrl || meta) && key == "Enter" then Submit(s) else (None, s)
  }
}

=== FILE: cost_tracking.dfy ===
/** Token estimation, pricing and the fail-soft cost log behind every
    model call. Prices are exact rationals here; the application computes
    them in floating point. */
module CostTracking {
  import opened Text
  import opened Numbers

  const Model: string := "gpt-4o"

  /** Dollars per input and per output token. */
  const InputPrice: real := 0.0025 / 1000.0
  const OutputPrice: real := 0.01 / 1000.0

  /** `Math.ceil(text.length / 4)`: the fewest tokens that cover the text
      at four UTF-16 code units per token. */
  function CalculateTokens(text: string): (t: nat)
    ensures 4 * t >= Utf16Length(text)
    ensures 4 * (t - 1) < Utf16Length(text)
    ensures t == 0 <==> |text| == 0
  {
    CeilDiv(Utf16Length(text), 4)
  }

  /** A longer text never estimates to fewer tokens; in particular
      appending text never lowers the estimate. */
  lemma TokensMonotone(a: string, b: string)
    ensures Utf16Length(a) <= Utf16Length(b) ==> CalculateTokens(a) <= CalculateTokens(b)
    ensures CalculateTokens(a) <= CalculateTokens(a + b)
  {
    Utf16Append(a, b);
  }

  /** The price of one call: never negative and zero only for an empty
      call. */
  function CalculateCost(inputTokens: nat, outputTokens: nat): (c: real)
    ensures c >= 0.0
    ensures c == 0.0 <==> inputTokens == 0 && outputTokens == 0
  {
    inputTokens as real * InputPrice + outputTokens as real * OutputPrice
  }

  /** Pricing is additive over calls, a thousand input tokens cost
      $0.0025 and a thousand output tokens $0.01; so an output token costs
      four input tokens. */
  lemma CostAdditive(i1: nat, o1: nat, i2: nat, o2: nat, n: nat)
    ensures CalculateCost(i1 + i2, o1 + o2) == CalculateCost(i1, o1) + CalculateCost(i2, o2)
    ensures CalculateCost(1000, 0) == 0.0025 && CalculateCost(0, 1000) == 0.01
    ensures CalculateCost(0, n) == CalculateCost(4 * n, 0)
  {
  }

  /** A row of `llm_costs`. */
  datatype CostRecord = CostRecord(endpoint: string, model: string, inputTokens: nat, outputTokens: nat, costUsd: real)

  /** How the insert into `llm_costs` went. */
  datatype InsertOutcome = Inserted | InsertError(code: string, message: string) | InsertThrew

  /** The error the application reads as "the table has not been created". */
  predicate IsMissingTable(code: string, message: string) {
    code == "PGRST116" || Contains(message, "does not exist")
  }

  /** What the logger reports on the console. */
  datatype Diagnostic = Quiet | Warning | ErrorLogged

  /** `logCost`: never fails. With both environment variables present and
      a successful insert the record is appended; in every other case the
      table is unchanged and only a diagnostic is printed, an error one
      only for an insert error other than the missing table. */
  function LogCost(envPresent: bool, outcome: InsertOutcome, table: seq<CostRecord>, rec: CostRecord): (r: (seq<CostRecord>, Diagnostic))
    ensures envPresent && outcome.Inserted? ==> r.0 == table + [rec] && r.1 == Quiet
    ensures !(envPresent && outcome.Inserted?) ==> r.0 == table
    ensures r.1 == ErrorLogged <==> envPresent && outcome.InsertError? && !IsMissingTable(outcome.code, outcome.message)
  {
    if !envPresent then (table, Warning)
    else match outcome
      case Inserted => (table + [rec], Quiet)
      case InsertError(code, message) =>
        if IsMissingTable(code, message) then (table, Warning) else (table, ErrorLogged)
      case InsertThrew => (table, Warning)
  }

  /** `calculateAndLogCost`: the record handed to the detached logger,
      priced from the estimated token counts of both texts: a dollar buys
      400000 input tokens or 100000 output tokens. */
  function CalculateAndLogCost(endpoint: string, inputText: string, outputText: string): (rec: CostRecord)
    ensures rec.endpoint == endpoint && rec.model == Model
    ensures 4 * rec.inputTokens >= Utf16Length(inputText) > 4 * (rec.inputTokens - 1)
    ensures 4 * rec.outputTokens >= Utf16Length(outputText) > 4 * (rec.outputTokens - 1)
    ensures rec.costUsd == CalculateCost(rec.inputTokens, rec.outputTokens)
    ensures rec.costUsd * 400000.0 == rec.inputTokens as real + 4.0 * rec.outputTokens as real
    ensures rec.costUsd == 0.0 <==> inputText == [] && outputText == []
  {
    var i := CalculateTokens(inputText);
    var o := CalculateTokens(outputText);
    CostRecord(endpoint, Model, i, o, CalculateCost(i, o))
  }
}

=== FILE: enhance_metadata.dfy ===
/** The edge function that enhances a note's metadata by category: related
    idea or meeting detection with a title fallback, and link and excerpt
    detection for reading notes. */
module EnhanceMetadata {
  import opened Wrappers
  import opened Seqs
  import opened Text
  import opened Categories
  import opened Notes
  import opened Http
  import opened Urls

  datatype EnhanceRequest = EnhanceRequest(noteId: string, content: string, category: string)

  /** How a model call went: it threw (the whole request fails), it was
      answered with a non-ok status, or it was answered and the reply
      content did (Some) or did not (None) parse as a JSON object. */
  datatype AiCall = Threw | NotOk | Answered(parsed: Option<Metadata>)

  /** The parsed reply, when there is one. */
  function ParsedReply(call: AiCall): Option<Metadata> {
    if call.Answered? then call.parsed else None
  }

  // ----- idea -----

  /** Title of an idea with no related idea found: its first four words,
      with an ellipsis when there were more. */
  function IdeaFallback(content: string): (m: Metadata)
    ensures m.Keys == {"idea_title", "related_idea_id"} && m["related_idea_id"] == Null
    ensures m["idea_title"] == Str(WordPreview(content, 4))
    ensures |Words(content)| <= 4 ==> m["idea_title"] == Str(content)
  {
    WordPreviewOfShortText(content, 4);
    map["idea_title" := Str(WordPreview(content, 4)), "related_idea_id" := Null]
  }

  /** Idea enhancement: the model is consulted only when some idea already
      exists; its parsed answer wins, anything else falls back. */
  function EnhanceIdea(content: string, ideasExist: bool, call: AiCall): (r: Option<Metadata>)
    ensures call.Threw? && ideasExist <==> r.None?
    ensures r.Some? && ideasExist && ParsedReply(call).Some? ==> r.value == ParsedReply(call).value
    ensures r.Some? && !(ideasExist && ParsedReply(call).Some?) ==> r.value == IdeaFallback(content)
  {
    if ideasExist && call.Threw? then None
    else if ideasExist && ParsedReply(call).Some? then ParsedReply(call)
    else Some(IdeaFallback(content))
  }

  // ----- meeting -----

  /** Title of a new meeting: its trimmed first sentence when that is
      non-empty and shorter than 60 UTF-16 code units, otherwise its first five
      words followed by an ellipsis. */
  function MeetingTitle(content: string): (t: string)
    ensures var f := Trim(FirstSentence(content));
      (f != [] && Utf16Length(f) < 60 ==> t == f) && (!(f != [] && Utf16Length(f) < 60) ==> t == FirstWords(content, 5) + Ellipsis)
    ensures Utf16Length(t) < 60 || (|t| >= 3 && t[|t| - 3..] == Ellipsis)
  {
    var f := Trim(FirstSentence(content));
    if f != [] && Utf16Length(f) < 60 then f else FirstWords(content, 5) + Ellipsis
  }

  function MeetingFallback(content: string): (m: Metadata)
    ensures m.Keys == {"meeting_title", "related_meeting_id"} && m["related_meeting_id"] == Null
    ensures m["meeting_title"] == Str(MeetingTitle(content))
  {
    map["meeting_title" := Str(MeetingTitle(content)), "related_meeting_id" := Null]
  }

  /** Meeting enhancement, shaped like the idea one. */
  function EnhanceMeeting(content: string, meetingsExist: bool, call: AiCall): (r: Option<Metadata>)
    ensures call.Threw? && meetingsExist <==> r.None?
    ensures r.Some? && meetingsExist && ParsedReply(call).Some? ==> r.value == ParsedReply(call).value
    ensures r.Some? && !(meetingsExist && ParsedReply(call).Some?) ==> r.value == MeetingFallback(content)
  {
    if meetingsExist && call.Threw? then None
    else if meetingsExist && ParsedReply(call).Some? then ParsedReply(call)
    else Some(MeetingFallback(content))
  }

  // ----- reading -----

  /** Metadata of a reading note the model did not describe: the first URL
      (or null), excerpt exactly when there is no URL, and the first five
      words followed by an ellipsis as title. */
  function ReadingFallback(content: string): (m: Metadata)
    ensures m.Keys == {"link", "excerpt", "title"}
    ensures m["excerpt"] == Bool(FirstUrl(content).None?)
    ensures FirstUrl(content).Some? ==> m["link"] == Str(FirstUrl(content).value)
    ensures FirstUrl(content).None? ==> m["link"] == Null
    ensures m["title"] == Str(FirstWords(content, 5) + Ellipsis)
  {
    var link := if FirstUrl(content).Some? then Str(FirstUrl(content).value) else Null;
    map["link" := link, "excerpt" := Bool(FirstUrl(content).None?), "title" := Str(FirstWords(content, 5) + Ellipsis)]
  }

  /** `{ ...result, link: links?.[0] || result.link }`: a URL found in the
      note overrides the model's link; without one the model's answer
      stands as it is. */
  function WithFoundLink(content: string, result: Metadata): (m: Metadata)
    ensures FirstUrl(content).Some? ==> m.Keys == result.Keys + {"link"} && m["link"] == Str(FirstUrl(content).value)
    ensures FirstUrl(content).None? ==> m == result
    ensures forall k :: k in result && k != "link" ==> k in m && m[k] == result[k]
  {
    match FirstUrl(content)
    case Some(url) => result["link" := Str(url)]
    case None => result
  }

  /** Reading enhancement: the model is always consulted. */
  function EnhanceReading(content: string, call: AiCall): (r: Option<Metadata>)
    ensures r.None? <==> call.Threw?
    ensures r.Some? && ParsedReply(call).Some? ==> r.value == WithFoundLink(content, ParsedReply(call).value)
    ensures r.Some? && ParsedReply(call).None? ==> r.value == ReadingFallback(content)
  {
    match call
    case Threw => None
    case _ =>
      match ParsedReply(call)
      case Some(result) => Some(WithFoundLink(content, result))
      case None => Some(ReadingFallback(content))
  }

  /** Whether the notes table holds a note of category c, deleted or not. */
  predicate AnyOfCategory(notes: Store, c: Category) {
    exists id :: id in notes && notes[id].category == Some(c)
  }

  /** The enhancement for a category name; other names get an empty object. */
  function Enhancement(req: EnhanceRequest, notes: Store, call: AiCall): (r: Option<Metadata>)
    ensures req.category !in {"idea", "meeting", "reading"} ==> r == Some(map[])
  {
    if req.category == "idea" then EnhanceIdea(req.content, AnyOfCategory(notes, Idea), call)
    else if req.category == "meeting" then EnhanceMeeting(req.content, AnyOfCategory(notes, Meeting), call)
    else if req.category == "reading" then EnhanceReading(req.content, call)
    else Some(map[])
  }

  /** The endpoint. The note's metadata column is replaced wholesale by the
      enhancement, which is also the answer; a thrown call or a failed
      write is a 500 that writes nothing. */
  function EnhanceEndpoint(verb: string, body: Option<EnhanceRequest>, call: AiCall, notes: Store, writeFails: bool): (r: (Response<Metadata>, Store))
    ensures verb != "POST" ==> r == (Error(405, MethodNotAllowed), notes)
    ensures verb == "POST" && body.None? ==> r == (Error(500, InternalServerError), notes)
    ensures verb == "POST" && body.Some? && (body.value.noteId == [] || body.value.content == [] || body.value.category == []) ==>
      r == (Error(400, "Missing required fields"), notes)
    ensures r.0.status != 200 ==> r.1 == notes
    ensures r.0.status == 200 ==>
      (body.Some? && !writeFails && r.0.body.Payload?
       && Enhancement(body.value, notes, call) == Some(r.0.body.value)
       && r.1 == UpdateWhere(notes, body.value.noteId, MetadataPatch(r.0.body.value), false))
  {
    if verb != "POST" then (Error(405, MethodNotAllowed), notes)
    else match body
      case None => (Error(500, InternalServerError), notes)
      case Some(req) =>
        if req.noteId == [] || req.content == [] || req.category == [] then (Error(400, "Missing required fields"), notes)
        else match Enhancement(req, notes, call)
          case None => (Error(500, InternalServerError), notes)
          case Some(m) =>
            if writeFails then (Error(500, InternalServerError), notes)
            else (Ok(m), UpdateWhere(notes, req.noteId, MetadataPatch(m), false))
  }

  /** A first-of-its-kind idea never waits on the model: its outcome does not
      depend on the call. */
  lemma FirstIdeaIgnoresModel(content: string, c1: AiCall, c2: AiCall)
    ensures EnhanceIdea(content, false, c1) == EnhanceIdea(content, false, c2) == Some(IdeaFallback(content))
  {
  }

  /** A reading note that is a bare link and that the model could not
      describe is recorded as a link, not as an excerpt. */
  lemma BareLinkReading(url: string, call: AiCall)
    requires StartsWith(url, "https://") && |url| > 8
    requires forall k :: 0 <= k < |url| ==> !IsWhitespace(url[k])
    requires call.NotOk?
    ensures EnhanceReading(url, call) == Some(map["link" := Str(url), "excerpt" := Bool(false), "title" := Str(FirstWords(url, 5) + Ellipsis)])
  {
    UrlAfterPlainText("", url);
    assert "" + url == url;
  }
}

=== FILE: firebase_auth.dfy ===
/** Bearer-token authentication against Firebase: the Authorization header
    parse of section 2.1 of RFC 6750 (with a case-sensitive "Bearer "
    prefix), the single-account email check, and the normalisation of
    every verification failure to one message. */
module FirebaseAuth {
  import opened Wrappers
  import opened Seqs
  import opened Text

  const BearerPrefix: string := "Bearer "
  const DefaultAllowedEmail: string := "rajatvijay5@gmail.com"
  const MissingHeader: string := "Missing or invalid authorization header"
  const InvalidToken: string := "Invalid authentication token"
  const UnauthorizedEmail: string := "Unauthorized email address"

  /** The token of an Authorization header: what follows "Bearer ". */
  function GetAuthHeader(header: Option<string>): (r: Result<string, string>)
    ensures r.Failure? <==> header.None? || !StartsWith(header.value, BearerPrefix)
    ensures r.Failure? ==> r.error == MissingHeader
    ensures r.Success? ==> header.value == BearerPrefix + r.value
  {
    match header
    case None => Failure(MissingHeader)
    case Some(h) =>
      if h == [] || !StartsWith(h, BearerPrefix) then Failure(MissingHeader)
      else
        assert h == h[..7] + h[7..];
        Success(h[7..])
  }

  /** Building the header from a token and parsing it gives the token back. */
  lemma BearerRoundTrip(token: string)
    ensures GetAuthHeader(Some(BearerPrefix + token)) == Success(token)
  {
    var h := BearerPrefix + token;
    assert h[..7] == BearerPrefix;
    assert h[7..] == token;
  }

  /** What the Firebase SDK reports for a token it accepts. */
  datatype DecodedToken = DecodedToken(uid: string, email: string, emailVerified: bool)

  datatype User = User(uid: string, email: string, emailVerified: bool)

  /** `process.env.ALLOWED_EMAIL || default` */
  function AllowedEmail(configured: Option<string>): (e: string)
    ensures configured.Some? && configured.value != [] ==> e == configured.value
    ensures !(configured.Some? && configured.value != []) ==> e == DefaultAllowedEmail
  {
    if configured.Some? && configured.value != [] then configured.value else DefaultAllowedEmail
  }

  /** Token verification. The SDK's verdict is the `decoded` argument (None
      when it rejects the token); an accepted token for another account is
      refused, and every refusal carries the same message. */
  function VerifyToken(decoded: Option<DecodedToken>, configured: Option<string>): (r: Result<User, string>)
    ensures r.Success? <==> decoded.Some? && decoded.value.email == AllowedEmail(configured)
    ensures r.Failure? ==> r.error == InvalidToken
    ensures r.Success? ==> r.value == User(decoded.value.uid, decoded.value.email, decoded.value.emailVerified)
  {
    match InnerVerify(decoded, configured)
    case Success(u) => Success(u)
    case Failure(_) => Failure(InvalidToken)
  }

  /** The check inside the try block, before the catch rewrites its error. */
  function InnerVerify(decoded: Option<DecodedToken>, configured: Option<string>): (r: Result<User, string>)
    ensures decoded.Some? && decoded.value.email != AllowedEmail(configured) ==> r == Failure(UnauthorizedEmail)
  {
    match decoded
    case None => Failure("Token rejected")
    case Some(d) =>
      if d.email != AllowedEmail(configured) then Failure(UnauthorizedEmail)
      else Success(User(d.uid, d.email, d.emailVerified))
  }

  /** `authenticateRequest`: header parse, then verification of the token.
      `decode` stands for the SDK. */
  function Authenticate(header: Option<string>, decode: string -> Option<DecodedToken>, configured: Option<string>): (r: Result<User, string>)
    ensures GetAuthHeader(header).Failure? ==> r == Failure(MissingHeader)
    ensures GetAuthHeader(header).Success? ==> r == VerifyToken(decode(GetAuthHeader(header).value), configured)
  {
    match GetAuthHeader(header)
    case Failure(e) => Failure(e)
    case Success(token) => VerifyToken(decode(token), configured)
  }

  /** The names of the missing Firebase service-account settings, in the
      order project_id, client_email, private_key. */
  function MissingFirebaseVars(projectId: string, clientEmail: string, privateKey: string): (r: seq<string>)
    ensures "project_id" in r <==> projectId == []
    ensures "client_email" in r <==> clientEmail == []
    ensures "private_key" in r <==> privateKey == []
    ensures |r| <= 3
  {
    (if projectId == [] then ["project_id"] else [])
    + (if clientEmail == [] then ["client_email"] else [])
    + (if privateKey == [] then ["private_key"] else [])
  }

  /** Module initialisation: fails, naming exactly the missing settings,
      unless all three are present. */
  function InitFirebase(projectId: string, clientEmail: string, privateKey: string): (r: Result<(), string>)
    ensures r.Success? <==> projectId != [] && clientEmail != [] && privateKey != []
    ensures r.Failure? ==>
      r.error == "Missing required Firebase environment variables: " + Join(MissingFirebaseVars(projectId, clientEmail, privateKey), ", ")
  {
    var missing := MissingFirebaseVars(projectId, clientEmail, privateKey);
    if |missing| > 0 then Failure("Missing required Firebase environment variables: " + Join(missing, ", "))
    else Success(())
  }
}

=== FILE: grouping.dfy ===
/** Grouping a list by a key, as the meetings and journal views do with
    `reduce` into an object of arrays and the cost summary does with a
    `Map`: groups appear in order of each key's first occurrence and each
    group keeps its members in list order. */
module Grouping {

  datatype Group<K, T> = Group(key: K, members: seq<T>)

  /** `xs.filter(x => key(x) == k)` */
  function Members<T, K(==,!new)>(xs: seq<T>, key: T -> K, k: K): (r: seq<T>)
    ensures |r| <= |xs|
  {
    if |xs| == 0 then []
    else Members(xs[..|xs| - 1], key, k) + (if key(xs[|xs| - 1]) == k then [xs[|xs| - 1]] else [])
  }

  /** The distinct keys in order of first occurrence. */
  function Keys<T, K(==,!new)>(xs: seq<T>, key: T -> K): (r: seq<K>)
    ensures forall i, j :: 0 <= i < j < |r| ==> r[i] != r[j]
    ensures forall k :: k in r <==> exists i :: 0 <= i < |xs| && key(xs[i]) == k
  {
    if |xs| == 0 then []
    else
      var init := xs[..|xs| - 1];
      var ks := Keys(init, key);
      assert forall i :: 0 <= i < |init| ==> init[i] == xs[i];
      if key(xs[|xs| - 1]) in ks then ks else ks + [key(xs[|xs| - 1])]
  }

  /** Index of the group keyed k, or |gs| when there is none. */
  function GroupIndex<K(==,!new), T>(gs: seq<Group<K, T>>, k: K): (i: nat)
    ensures i <= |gs|
    ensures i < |gs| ==> gs[i].key == k
    ensures forall j :: 0 <= j < i ==> gs[j].key != k
  {
    if |gs| == 0 then 0
    else if gs[|gs| - 1].key == k && GroupIndex(gs[..|gs| - 1], k) == |gs| - 1 then |gs| - 1
    else if GroupIndex(gs[..|gs| - 1], k) < |gs| - 1 then GroupIndex(gs[..|gs| - 1], k)
    else |gs|
  }

  /** One step of the reduce: append x to its key's group, or open a new
      group at the end. */
  function Place<K(==,!new), T>(gs: seq<Group<K, T>>, k: K, x: T): (r: seq<Group<K, T>>)
    ensures |r| == |gs| || |r| == |gs| + 1
  {
    var i := GroupIndex(gs, k);
    if i < |gs| then gs[i := Group(k, gs[i].members + [x])] else gs + [Group(k, [x])]
  }

  /** The reduce over the whole list. */
  function GroupBy<T, K(==,!new)>(xs: seq<T>, key: T -> K): seq<Group<K, T>> {
    if |xs| == 0 then []
    else Place(GroupBy(xs[..|xs| - 1], key), key(xs[|xs| - 1]), xs[|xs| - 1])
  }

  /** The groups are exactly the distinct keys in first-occurrence order,
      each holding the list's elements with that key in list order. */
  lemma {:induction false} GroupBySpec<T, K(!new)>(xs: seq<T>, key: T -> K)
    ensures |GroupBy(xs, key)| == |Keys(xs, key)|
    ensures forall i :: 0 <= i < |GroupBy(xs, key)| ==>
      GroupBy(xs, key)[i] == Group(Keys(xs, key)[i], Members(xs, key, Keys(xs, key)[i]))
  {
    if |xs| > 0 {
      var init := xs[..|xs| - 1];
      var x := xs[|xs| - 1];
      GroupBySpec(init, key);
      var gs := GroupBy(init, key);
      var ks := Keys(init, key);
      var i := GroupIndex(gs, key(x));
      if i < |gs| {
        assert ks[i] == key(x);
        assert key(x) in ks;
      } else {
        assert key(x) !in ks;
        MembersOfAbsentKey(init, key, key(x));
      }
    }
  }

  /** Each element with key k is a member of k's group and nothing else is. */
  lemma {:induction false} MembersSpec<T, K(!new)>(xs: seq<T>, key: T -> K, k: K)
    ensures forall y :: y in Members(xs, key, k) ==> y in xs && key(y) == k
    ensures forall i :: 0 <= i < |xs| && key(xs[i]) == k ==> xs[i] in Members(xs, key, k)
  {
    if |xs| > 0 {
      var init := xs[..|xs| - 1];
      MembersSpec(init, key, k);
      assert forall i :: 0 <= i < |init| ==> init[i] == xs[i];
    }
  }

  /** A key that never occurs has no members. */
  lemma {:induction false} MembersOfAbsentKey<T, K(!new)>(xs: seq<T>, key: T -> K, k: K)
    requires k !in Keys(xs, key)
    ensures Members(xs, key, k) == []
  {
    if |xs| > 0 {
      var init := xs[..|xs| - 1];
      assert forall i :: 0 <= i < |init| ==> init[i] == xs[i];
      MembersOfAbsentKey(init, key, k);
    }
  }

  /** GroupBy partitions the list: the keys are distinct, no group is
      empty, every member of a group carries its key, every element is in
      the group of its key, and the group sizes add up to the length. */
  lemma GroupByIsPartition<T, K(!new)>(xs: seq<T>, key: T -> K)
    ensures var gs := GroupBy(xs, key);
      && TotalSize(gs) == |xs|
      && (forall i, j :: 0 <= i < j < |gs| ==> gs[i].key != gs[j].key)
      && (forall i :: 0 <= i < |gs| ==> |gs[i].members| > 0)
      && (forall i, y :: 0 <= i < |gs| && y in gs[i].members ==> y in xs && key(y) == gs[i].key)
      && (forall x :: x in xs ==> exists i :: 0 <= i < |gs| && gs[i].key == key(x) && x in gs[i].members)
  {
    var gs := GroupBy(xs, key);
    var ks := Keys(xs, key);
    GroupByPartitions(xs, key);
    GroupBySpec(xs, key);
    forall i | 0 <= i < |gs|
      ensures |gs[i].members| > 0
      ensures forall y :: y in gs[i].members ==> y in xs && key(y) == gs[i].key
    {
      MembersSpec(xs, key, ks[i]);
      assert ks[i] in ks;
      var j :| 0 <= j < |xs| && key(xs[j]) == ks[i];
      assert xs[j] in gs[i].members;
    }
    forall x | x in xs
      ensures exists i :: 0 <= i < |gs| && gs[i].key == key(x) && x in gs[i].members
    {
      var j :| 0 <= j < |xs| && xs[j] == x;
      assert key(x) in ks;
      var i :| 0 <= i < |ks| && ks[i] == key(x);
      MembersSpec(xs, key, key(x));
      assert gs[i].key == key(x) && x in gs[i].members;
    }
  }

  /** Total number of members over the groups. */
  function TotalSize<K, T>(gs: seq<Group<K, T>>): nat {
    if |gs| == 0 then 0 else TotalSize(gs[..|gs| - 1]) + |gs[|gs| - 1].members|
  }

  lemma {:induction false} TotalSizeUpdate<K, T>(gs: seq<Group<K, T>>, i: nat, g: Group<K, T>)
    requires i < |gs|
    ensures TotalSize(gs[i := g]) == TotalSize(gs) - |gs[i].members| + |g.members|
  {
    var n := |gs| - 1;
    if i < n {
      TotalSizeUpdate(gs[..n], i, g);
      assert gs[i := g][..n] == gs[..n][i := g];
    } else {
      assert gs[i := g][..n] == gs[..n];
    }
  }

  /** Grouping loses and duplicates nothing: the group sizes add up to the
      length of the list. */
  lemma {:induction false} GroupByPartitions<T, K(!new)>(xs: seq<T>, key: T -> K)
    ensures TotalSize(GroupBy(xs, key)) == |xs|
  {
    if |xs| > 0 {
      var init := xs[..|xs| - 1];
      var x := xs[|xs| - 1];
      GroupByPartitions(init, key);
      var gs := GroupBy(init, key);
      var i := GroupIndex(gs, key(x));
      if i < |gs| {
        TotalSizeUpdate(gs, i, Group(key(x), gs[i].members + [x]));
      } else {
        assert (gs + [Group(key(x), [x])])[..|gs|] == gs;
      }
    }
  }

  /** The summed weight of a list. */
  function SumOver<T>(xs: seq<T>, w: T -> real): real {
    if |xs| == 0 then 0.0 else SumOver(xs[..|xs| - 1], w) + w(xs[|xs| - 1])
  }

  /** Summing is additive over concatenation. */
  lemma {:induction false} SumOverAppend<T>(xs: seq<T>, ys: seq<T>, w: T -> real)
    ensures SumOver(xs + ys, w) == SumOver(xs, w) + SumOver(ys, w)
  {
    if |ys| == 0 {
      assert xs + ys == xs;
    } else {
      var n := |ys| - 1;
      assert (xs + ys)[..|xs + ys| - 1] == xs + ys[..n];
      SumOverAppend(xs, ys[..n], w);
    }
  }

  /** The summed weight of each group, added up over the groups. */
  function GroupsSum<K, T>(gs: seq<Group<K, T>>, w: T -> real): real {
    if |gs| == 0 then 0.0 else GroupsSum(gs[..|gs| - 1], w) + SumOver(gs[|gs| - 1].members, w)
  }

  lemma {:induction false} GroupsSumUpdate<K, T>(gs: seq<Group<K, T>>, i: nat, g: Group<K, T>, w: T -> real)
    requires i < |gs|
    ensures GroupsSum(gs[i := g], w) == GroupsSum(gs, w) - SumOver(gs[i].members, w) + SumOver(g.members, w)
  {
    var n := |gs| - 1;
    if i < n {
      GroupsSumUpdate(gs[..n], i, g, w);
      assert gs[i := g][..n] == gs[..n][i := g];
    } else {
      assert gs[i := g][..n] == gs[..n];
    }
  }

  /** Grouping preserves the total weight. */
  lemma {:induction false} GroupByPreservesSum<T, K(!new)>(xs: seq<T>, key: T -> K, w: T -> real)
    ensures GroupsSum(GroupBy(xs, key), w) == SumOver(xs, w)
  {
    if |xs| > 0 {
      var init := xs[..|xs| - 1];
      var x := xs[|xs| - 1];
      GroupByPreservesSum(init, key, w);
      PlaceAddsWeight(GroupBy(init, key), key(x), x, w);
    }
  }

  /** One step of the reduce adds the placed element's weight. */
  lemma PlaceAddsWeight<K(!new), T>(gs: seq<Group<K, T>>, k: K, x: T, w: T -> real)
    ensures GroupsSum(Place(gs, k, x), w) == GroupsSum(gs, w) + w(x)
  {
    var i := GroupIndex(gs, k);
    if i < |gs| {
      var m := gs[i].members + [x];
      assert m[..|m| - 1] == gs[i].members;
      GroupsSumUpdate(gs, i, Group(k, m), w);
    } else {
      assert (gs + [Group(k, [x])])[..|gs|] == gs;
      assert [x][..0] == [];
      assert SumOver([x], w) == w(x);
    }
  }
}

=== FILE: health.dfy ===
/** The health endpoint: a probe per backing service, an overall status
    derived from the two, and the status code that reports it. */
module Health {
  import opened Wrappers

  /** Overall states, best first; a service itself is only ever Healthy or
      Unhealthy. */
  datatype Status = Healthy | Degraded | Unhealthy

  /** Rank in the lattice: Healthy 2, Degraded 1, Unhealthy 0. */
  function Rank(s: Status): nat {
    match s
    case Healthy => 2
    case Degraded => 1
    case Unhealthy => 0
  }

  /** How a probe went: it threw, or it was answered, well or not. */
  datatype Probe = Threw | Answered(ok: bool)

  /** A service is healthy only when it is configured and its probe was
      answered well. */
  function ServiceStatus(configured: bool, probe: Probe): (s: Status)
    ensures s != Degraded
    ensures s == Healthy <==> configured && probe == Answered(true)
  {
    if configured && probe.Answered? && probe.ok then Healthy else Unhealthy
  }

  /** The overall status: healthy when both services are, unhealthy when the
      database is not, degraded when only the model service is down. */
  function Overall(database: Status, openai: Status): (s: Status)
    requires database != Degraded && openai != Degraded
    ensures s == Healthy <==> database == Healthy && openai == Healthy
    ensures database == Unhealthy ==> s == Unhealthy
    ensures database == Healthy && openai == Unhealthy ==> s == Degraded
  {
    match (database, openai)
    case (Unhealthy, _) => Unhealthy
    case (_, Unhealthy) => Degraded
    case _ => Healthy
  }

  /** A service recovering never makes the overall status worse. */
  lemma OverallMonotone(d1: Status, o1: Status, d2: Status, o2: Status)
    requires d1 != Degraded && o1 != Degraded && d2 != Degraded && o2 != Degraded
    requires Rank(d1) <= Rank(d2) && Rank(o1) <= Rank(o2)
    ensures Rank(Overall(d1, o1)) <= Rank(Overall(d2, o2))
  {
  }

  /** 200 for healthy or degraded, 503 for unhealthy. */
  function StatusCode(s: Status): (code: nat)
    ensures code == 503 <==> s == Unhealthy
    ensures code != 503 ==> code == 200
  {
    match s
    case Healthy => 200
    case Degraded => 200
    case Unhealthy => 503
  }

  datatype Report = Report(status: Status, version: string, database: Status, openai: Status, uptime: int)

  const NoCache: string := "no-cache, no-store, must-revalidate"

  /** The answer: status code, Cache-Control header and body. */
  datatype HealthResponse = HealthResponse(code: nat, cacheControl: string, report: Report)

  /** `VERCEL_GIT_COMMIT_SHA || 'development'` */
  function Version(sha: Option<string>): string {
    if sha.Some? && sha.value != [] then sha.value else "development"
  }

  /** The handler. `dbConfigured` and `aiConfigured` say whether the
      database URL and key, and the model key, are set; `reportFails` stands
      for an exception while assembling the report, which reports both
      services unhealthy. The no-cache header is sent either way. */
  function Check(dbConfigured: bool, dbProbe: Probe, aiConfigured: bool, aiProbe: Probe,
                 sha: Option<string>, start: int, end: int, reportFails: bool): (r: HealthResponse)
    ensures r.cacheControl == NoCache
    ensures r.code == StatusCode(r.report.status)
    ensures r.report.database != Degraded && r.report.openai != Degraded
    ensures r.report.status == Overall(r.report.database, r.report.openai)
    ensures reportFails ==> r.report.database == Unhealthy && r.report.openai == Unhealthy && r.code == 503
    ensures !reportFails ==>
      r.report.database == ServiceStatus(dbConfigured, dbProbe) && r.report.openai == ServiceStatus(aiConfigured, aiProbe)
    ensures r.report.version == Version(sha) && r.report.uptime == end - start
  {
    if reportFails then
      HealthResponse(503, NoCache, Report(Unhealthy, Version(sha), Unhealthy, Unhealthy, end - start))
    else
      var database := ServiceStatus(dbConfigured, dbProbe);
      var openai := ServiceStatus(aiConfigured, aiProbe);
      var overall := Overall(database, openai);
      HealthResponse(StatusCode(overall), NoCache, Report(overall, Version(sha), database, openai, end - start))
  }

  /** Without the database configured the endpoint always answers 503,
      whatever the probes do. */
  lemma UnconfiguredDatabaseIsUnavailable(dbProbe: Probe, aiConfigured: bool, aiProbe: Probe,
                                          sha: Option<string>, start: int, end: int, reportFails: bool)
    ensures Check(false, dbProbe, aiConfigured, aiProbe, sha, start, end, reportFails).code == 503
  {
  }
}

=== FILE: http.dfy ===
/** The shape of an HTTP answer as the handlers produce it: a status code
    and either a success payload or an error message. */
module Http {

  datatype Body<+T> = Payload(value: T) | Message(text: string)

  datatype Response<+T> = Response(status: nat, body: Body<T>) {
    predicate IsOk() {
      status == 200 && body.Payload?
    }
  }

  const MethodNotAllowed: string := "Method not allowed"
  const InternalServerError: string := "Internal server error"

  function Ok<T>(v: T): Response<T> {
    Response(200, Payload(v))
  }

  function Error<T>(status: nat, text: string): Response<T> {
    Response(status, Message(text))
  }
}

=== FILE: ideas_list.dfy ===
/** The idea list view's title and summary. Deletion is `ListEdits`. */
module IdeasList {
  import opened Wrappers
  import opened Text
  import opened Notes

  const UntitledIdea: string := "Untitled Idea"
  const SummaryLength: nat := 100

  /** `getIdeaTitle(note)`: the stored title, else a fixed placeholder, so
      an idea card never has a blank title. */
  function IdeaTitle(n: Note): (r: string)
    ensures r != []
    ensures TextField(n.metadata, "title").Some? ==> n.metadata["title"] == Str(r)
    ensures TextField(n.metadata, "title").None? ==> r == UntitledIdea
  {
    TextField(n.metadata, "title").GetOr(UntitledIdea)
  }

  /** `getIdeaSummary(note)`: the stored summary, else the first 100
      UTF-16 code units of the note with an ellipsis only when something
      was cut. */
  function IdeaSummary(n: Note): (r: string)
    ensures TextField(n.metadata, "summary").Some? ==> n.metadata["summary"] == Str(r)
    ensures TextField(n.metadata, "summary").None? && Utf16Length(n.content) <= SummaryLength ==> r == n.content
    ensures TextField(n.metadata, "summary").None? && InBmp(n.content) && |n.content| > SummaryLength ==>
      r == n.content[..SummaryLength] + Ellipsis
  {
    TruncateBmp(n.content, SummaryLength);
    TextField(n.metadata, "summary").GetOr(Truncate(n.content, SummaryLength))
  }

  /** Without a stored summary the summary never runs past 103 code units
      and is either the whole note or a prefix of it with the ellipsis. */
  lemma FallbackSummaryIsShort(n: Note)
    requires TextField(n.metadata, "summary").None?
    ensures Utf16Length(IdeaSummary(n)) <= SummaryLength + Utf16Length(Ellipsis)
    ensures IdeaSummary(n) == n.content
         || (|IdeaSummary(n)| >= 3 && StartsWith(n.content, IdeaSummary(n)[..|IdeaSummary(n)| - 3]))
  {
    var r := IdeaSummary(n);
    if Utf16Length(n.content) > SummaryLength {
      assert r == r[..|r| - 3] + Ellipsis;
      Utf16Append(r[..|r| - 3], Ellipsis);
    }
  }
}

=== FILE: journal_list.dfy ===
/** The journal view: entries are gathered by the calendar day they were
    written, days are shown newest first with a two-line summary, and a
    day's entries are listed oldest first. */
module JournalList {
  import opened Seqs
  import opened Text
  import opened Notes
  import opened Ordering
  import opened Grouping

  /** The entries of each calendar day; `dayOf` turns a timestamp into the
      viewer's local day. Every entry is in exactly the group of its day,
      no day is empty or listed twice, and the group sizes add up to the
      number of entries. */
  function Days(notes: seq<Note>, dayOf: int -> int): (gs: seq<Group<int, Note>>)
    ensures TotalSize(gs) == |notes|
    ensures forall i, j :: 0 <= i < j < |gs| ==> gs[i].key != gs[j].key
    ensures forall i :: 0 <= i < |gs| ==> |gs[i].members| > 0
    ensures forall i, n :: 0 <= i < |gs| && n in gs[i].members ==> n in notes && dayOf(n.createdAt) == gs[i].key
    ensures forall n :: n in notes ==> exists i :: 0 <= i < |gs| && gs[i].key == dayOf(n.createdAt) && n in gs[i].members
  {
    GroupByIsPartition(notes, (n: Note) => dayOf(n.createdAt));
    GroupBy(notes, (n: Note) => dayOf(n.createdAt))
  }

  function Day(g: Group<int, Note>): int {
    g.key
  }

  /** The days in display order, newest first; each day appears once. */
  function OrderedDays(notes: seq<Note>, dayOf: int -> int): (r: seq<Group<int, Note>>)
    ensures multiset(r) == multiset(Days(notes, dayOf))
    ensures forall i, j :: 0 <= i < j < |r| ==> r[i].key > r[j].key
  {
    var gs := Days(notes, dayOf);
    var r := SortDesc(gs, Day);
    forall i, j | 0 <= i < j < |r|
      ensures r[i].key > r[j].key
    {
      DistinctAfterSort(gs, r, i, j);
    }
    r
  }

  /** Two positions of a sorted copy of groups with distinct keys hold
      different keys. */
  lemma DistinctAfterSort(gs: seq<Group<int, Note>>, r: seq<Group<int, Note>>, i: nat, j: nat)
    requires forall a, b :: 0 <= a < b < |gs| ==> gs[a].key != gs[b].key
    requires multiset(r) == multiset(gs)
    requires i < j < |r|
    ensures r[i].key != r[j].key
  {
    assert r[i] in multiset(gs) && r[j] in multiset(gs);
    var a :| 0 <= a < |gs| && gs[a] == r[i];
    var b :| 0 <= b < |gs| && gs[b] == r[j];
    if a == b {
      assert multiset(r)[r[i]] >= multiset{r[i], r[j]}[r[i]] by {
        assert multiset{r[i], r[j]} <= multiset(r) by {
          assert r == r[..i] + [r[i]] + r[i + 1..j] + [r[j]] + r[j + 1..];
        }
      }
      MultiplicityOne(gs, a);
    }
  }

  /** In a list with distinct keys each group occurs once. */
  lemma MultiplicityOne(gs: seq<Group<int, Note>>, a: nat)
    requires forall x, y :: 0 <= x < y < |gs| ==> gs[x].key != gs[y].key
    requires a < |gs|
    ensures multiset(gs)[gs[a]] == 1
  {
    assert gs == gs[..a] + [gs[a]] + gs[a + 1..];
    var init := gs[..a];
    assert gs[a] !in init by {
      forall x | 0 <= x < |init| ensures init[x] != gs[a] { assert init[x] == gs[x]; }
    }
    var rest := gs[a + 1..];
    assert gs[a] !in rest by {
      forall x | 0 <= x < |rest| ensures rest[x] != gs[a] { assert rest[x] == gs[a + 1 + x]; }
    }
  }

  /** A day's entries, oldest first. */
  function Entries(members: seq<Note>): (r: seq<Note>)
    ensures multiset(r) == multiset(members)
    ensures forall i, j :: 0 <= i < j < |r| ==> CreatedAt(r[i]) <= CreatedAt(r[j])
  {
    var r := SortDesc(members, (n: Note) => -n.createdAt);
    assert forall i, j :: 0 <= i < j < |r| ==> -r[i].createdAt >= -r[j].createdAt;
    r
  }

  /** The two lines under a day's heading. */
  datatype Summary = Summary(firstLine: string, secondLine: string)

  const FirstLineWords: nat := 8
  const SecondLineEnd: nat := 16
  const EntryWords: nat := 6

  /** Total of the space-separated word counts of the entries. */
  function TotalWords(notes: seq<Note>): (w: nat)
    ensures w >= |notes|
  {
    if |notes| == 0 then 0 else |Words(notes[0].content)| + TotalWords(notes[1..])
  }

  /** `generateSummary(dayNotes)`. One entry: its first eight words, then
      words eight to sixteen on the second line, each with an ellipsis
      when more follow. Several entries: the entry and word counts, then
      the start of the first entry. */
  function DaySummary(dayNotes: seq<Note>): (s: Summary)
    requires |dayNotes| > 0
    ensures |dayNotes| == 1 && |Words(dayNotes[0].content)| <= FirstLineWords ==>
      s == Summary(dayNotes[0].content, "")
    ensures |dayNotes| == 1 && |Words(dayNotes[0].content)| > FirstLineWords ==>
      s.firstLine == FirstWords(dayNotes[0].content, FirstLineWords) + Ellipsis
    ensures |dayNotes| == 1 && |Words(dayNotes[0].content)| > FirstLineWords ==>
      s.secondLine == Join(Slice(Words(dayNotes[0].content), FirstLineWords, SecondLineEnd), " ")
                      + (if |Words(dayNotes[0].content)| > SecondLineEnd then Ellipsis else "")
    ensures |dayNotes| > 1 ==>
      s == Summary(NatToString(|dayNotes|) + " entries • " + NatToString(TotalWords(dayNotes)) + " words",
                   FirstWords(dayNotes[0].content, EntryWords) + Ellipsis)
  {
    if |dayNotes| == 1 then
      var c := dayNotes[0].content;
      var w := Words(c);
      WordPreviewOfShortText(c, FirstLineWords);
      var second := if |w| > FirstLineWords
        then Join(Slice(w, FirstLineWords, SecondLineEnd), " ") + (if |w| > SecondLineEnd then Ellipsis else "")
        else "";
      Summary(WordPreview(c, FirstLineWords), second)
    else
      Summary(NatToString(|dayNotes|) + " entries • " + NatToString(TotalWords(dayNotes)) + " words",
              FirstWords(dayNotes[0].content, EntryWords) + Ellipsis)
  }

  /** A single entry of nine to sixteen words is split across the two
      lines without losing anything: the first line without its ellipsis,
      a space and the second line give the entry back. */
  lemma TwoLinesGiveTheEntryBack(n: Note)
    requires FirstLineWords < |Words(n.content)| <= SecondLineEnd
    ensures var s := DaySummary([n]);
      s.firstLine[..|s.firstLine| - |Ellipsis|] + " " + s.secondLine == n.content
  {
    var c := n.content;
    var w := Words(c);
    var s := DaySummary([n]);
    assert s.firstLine == FirstWords(c, FirstLineWords) + Ellipsis;
    assert s.firstLine[..|s.firstLine| - |Ellipsis|] == Join(w[..FirstLineWords], " ");
    assert Slice(w, FirstLineWords, SecondLineEnd) == w[FirstLineWords..];
    assert s.secondLine == Join(w[FirstLineWords..], " ");
    assert w == w[..FirstLineWords] + w[FirstLineWords..];
    JoinAppend(w[..FirstLineWords], w[FirstLineWords..], " ");
    SplitJoin(c, ' ');
    assert [' '] == " ";
  }
}

=== FILE: list_edits.dfy ===
/** The local list edits the task and idea views hand to the delete
    operation: removing a note by id at once, and putting it back, newest
    first, when the server refuses. */
module ListEdits {
  import opened Wrappers
  import opened Seqs
  import opened Notes
  import opened Ordering
  import opened NoteOperations

  /** No two positions hold notes with the same id. */
  predicate IdsUnique(xs: seq<Note>) {
    forall i, j :: 0 <= i < |xs| && 0 <= j < |xs| && xs[i].id == xs[j].id ==> i == j
  }

  /** `notes.find(note => note.id === id)`: the first note with that id. */
  function FindById(xs: seq<Note>, id: string): (r: Option<Note>)
    ensures r.None? <==> forall i :: 0 <= i < |xs| ==> xs[i].id != id
    ensures r.Some? ==> exists k :: 0 <= k < |xs| && xs[k] == r.value && r.value.id == id
                                    && forall j :: 0 <= j < k ==> xs[j].id != id
  {
    if |xs| == 0 then None
    else if xs[0].id == id then Some(xs[0])
    else
      var r := FindById(xs[1..], id);
      assert forall i :: 0 < i < |xs| ==> xs[i] == xs[1..][i - 1];
      if r.Some? then
        var k :| 0 <= k < |xs[1..]| && xs[1..][k] == r.value && r.value.id == id
                 && forall j :: 0 <= j < k ==> xs[1..][j].id != id;
        assert xs[k + 1] == r.value;
        r
      else r
  }

  /** The optimistic update: `prev.filter(note => note.id !== id)`. */
  function RemoveId(xs: seq<Note>, id: string): (r: seq<Note>)
    ensures forall n :: n in r <==> n in xs && n.id != id
  {
    Filter(xs, (n: Note) => n.id != id)
  }

  /** The rollback: when the original note was found, append it and sort
      newest first; otherwise leave the list alone. */
  function Restore(xs: seq<Note>, original: Option<Note>): (r: seq<Note>)
    ensures original.None? ==> r == xs
    ensures original.Some? ==> multiset(r) == multiset(xs) + multiset{original.value}
    ensures original.Some? ==> Descending(r, CreatedAt)
  {
    if original.Some? then SortDesc(xs + [original.value], CreatedAt) else xs
  }

  /** Filtering out an id no note carries changes nothing. */
  lemma {:induction false} RemoveAbsent(xs: seq<Note>, id: string)
    requires forall i :: 0 <= i < |xs| ==> xs[i].id != id
    ensures RemoveId(xs, id) == xs
  {
    if |xs| > 0 {
      RemoveAbsent(xs[1..], id);
      assert xs == [xs[0]] + xs[1..];
    }
  }

  /** With unique ids, removing the id drops exactly the one note at k. */
  lemma {:induction false} RemoveOne(xs: seq<Note>, id: string, k: nat)
    requires IdsUnique(xs) && k < |xs| && xs[k].id == id
    ensures multiset(RemoveId(xs, id)) + multiset{xs[k]} == multiset(xs)
  {
    assert xs == [xs[0]] + xs[1..];
    if k == 0 {
      RemoveAbsent(xs[1..], id);
    } else {
      assert xs[k] == xs[1..][k - 1];
      assert IdsUnique(xs[1..]) by {
        forall i, j | 0 <= i < |xs[1..]| && 0 <= j < |xs[1..]| && xs[1..][i].id == xs[1..][j].id
          ensures i == j
        {
          assert xs[i + 1] == xs[1..][i] && xs[j + 1] == xs[1..][j];
        }
      }
      RemoveOne(xs[1..], id, k - 1);
    }
  }

  /** A delete that the server refuses and the rollback then undoes gives
      back the list the view showed, provided that list was newest first
      with distinct creation times and distinct ids. */
  lemma DeleteThenRollback(xs: seq<Note>, id: string)
    requires Descending(xs, CreatedAt) && RanksDistinct(xs, CreatedAt) && IdsUnique(xs)
    ensures Restore(RemoveId(xs, id), FindById(xs, id)) == xs
  {
    var original := FindById(xs, id);
    if original.None? {
      RemoveAbsent(xs, id);
    } else {
      var k :| 0 <= k < |xs| && xs[k] == original.value && original.value.id == id;
      RemoveOne(xs, id, k);
      var r := Restore(RemoveId(xs, id), original);
      SortedUnique(xs, r, CreatedAt);
    }
  }

  /** `handleDeleteNote(id)` after the user confirms: the note found by id
      is kept for the rollback, the deletion removes it from the view at
      once, and a refused request puts it back. The parent's
      `onNoteDeleted` fires exactly when `d.result` holds. */
  function HandleDelete(ops: OpsState, view: seq<Note>, id: string, outcome: DeleteOutcome): (d: Deletion<seq<Note>>)
    ensures d.viewInFlight == RemoveId(view, id)
    ensures !Failed(outcome) ==> d.view == RemoveId(view, id)
    ensures Failed(outcome) ==> d.view == Restore(RemoveId(view, id), FindById(view, id))
    ensures d.result ==> !Failed(outcome) && outcome.success
    ensures !IsDeleting(d.settled, id)
  {
    var original := FindById(view, id);
    DeleteNote(ops, view, id, Some((v: seq<Note>) => RemoveId(v, id)),
               Some((v: seq<Note>) => Restore(v, original)), outcome)
  }

  /** A refused delete leaves a newest-first list with distinct ids and
      creation times exactly as it was, and does not notify the parent. */
  lemma RefusedDeleteRestoresView(ops: OpsState, view: seq<Note>, id: string, outcome: DeleteOutcome)
    requires Failed(outcome)
    requires Descending(view, CreatedAt) && RanksDistinct(view, CreatedAt) && IdsUnique(view)
    ensures HandleDelete(ops, view, id, outcome).view == view
    ensures !HandleDelete(ops, view, id, outcome).result
  {
    DeleteThenRollback(view, id);
  }
}

=== FILE: llm_client.dfy ===
/** The guarded chat-completion call every language-model feature goes
    through: input limits, content sanitising, the mapping of HTTP
    failures to fixed error messages, the reading-content enhancer and the
    per-category extraction prompts. */
module LlmClient {
  import opened Wrappers
  import opened Seqs
  import opened Text
  import opened Schemas
  import opened CostTracking

  const MaxInputLength: nat := 50000
  const MaxTokens: nat := 4000
  const RequestTimeoutMs: nat := 30000
  const ApiKeyPrefix: string := "sk-"

  datatype Message = Message(role: string, content: string)

  /** The errors the call throws, each with a fixed message. */
  datatype LlmError =
    | InvalidApiKey
    | InvalidMessages
    | InputTooLarge(length: nat)
    | AuthenticationFailed
    | RateLimitExceeded
    | ServiceUnavailable
    | RequestFailed
    | RequestTimeout
    | NetworkFailure

  function ErrorMessage(e: LlmError): string {
    match e
    case InvalidApiKey => "Invalid or missing OpenAI API key"
    case InvalidMessages => "Invalid messages array"
    case InputTooLarge(n) => "Input too large: " + NatToString(n) + " characters (max: 50000)"
    case AuthenticationFailed => "OpenAI authentication failed"
    case RateLimitExceeded => "OpenAI rate limit exceeded"
    case ServiceUnavailable => "OpenAI service unavailable"
    case RequestFailed => "OpenAI API request failed"
    case RequestTimeout => "OpenAI request timeout"
    case NetworkFailure => "fetch failed"
  }

  /** The requested completion budget, capped at MaxTokens. */
  function ClampTokens(n: int): (r: int)
    ensures r <= MaxTokens
    ensures r == n <==> n <= MaxTokens
    ensures r != n ==> r == MaxTokens
  {
    if n > MaxTokens then MaxTokens else n
  }

  /** The summed `.length` of all message contents, in UTF-16 code units. */
  function TotalInputLength(msgs: seq<Message>): nat {
    if |msgs| == 0 then 0 else TotalInputLength(msgs[..|msgs| - 1]) + Utf16Length(msgs[|msgs| - 1].content)
  }

  /** The characters of the class `[\x00-\x08\x0B\x0C\x0E-\x1F\x7F-\x84\x86-\x9F]`. */
  predicate IsControl(c: char) {
    || c <= '\U{8}' || c == '\U{B}' || c == '\U{C}' || ('\U{E}' <= c <= '\U{1F}')
    || ('\U{7F}' <= c <= '\U{84}') || ('\U{86}' <= c <= '\U{9F}')
  }

  /** `s.replace(/\s+/g, ' ')`: every run of whitespace becomes one space. */
  function CollapseWhitespace(s: string): (r: string)
    ensures forall i :: 0 <= i < |r| && IsWhitespace(r[i]) ==> r[i] == ' '
    ensures forall i :: 0 <= i < |r| - 1 ==> !(IsWhitespace(r[i]) && IsWhitespace(r[i + 1]))
    ensures r == [] <==> s == []
    ensures r != [] ==> (IsWhitespace(r[0]) <==> IsWhitespace(s[0]))
    ensures forall c :: c in r && c != ' ' ==> c in s
    decreases |s|
  {
    if |s| == 0 then ""
    else if IsWhitespace(s[0]) then
      var rest := TrimStart(s);
      [' '] + CollapseWhitespace(rest)
    else
      [s[0]] + CollapseWhitespace(s[1..])
  }

  /** `s.replace(<control class>, '')` */
  function RemoveControl(s: string): (r: string)
    ensures forall c :: c in r ==> c in s && !IsControl(c)
    ensures forall c :: c in s && !IsControl(c) ==> c in r
  {
    Filter(s, c => !IsControl(c))
  }

  /** `sanitizeContent`. The four pattern replacements that neutralise
      script tags, `javascript:` and `data:text/html` URLs and inline
      event handlers are the parameter scrub. Whatever scrub does, the
      result holds no listed control character, its only whitespace is the
      plain space, and it neither starts nor ends with whitespace. */
  function Sanitize(content: string, scrub: string -> string): (r: string)
    ensures content == [] ==> r == []
    ensures forall c :: c in r ==> !IsControl(c)
    ensures forall c :: c in r && IsWhitespace(c) ==> c == ' '
    ensures r == [] || (!IsWhitespace(r[0]) && !IsWhitespace(r[|r| - 1]))
  {
    if content == [] then ""
    else
      var collapsed := CollapseWhitespace(scrub(Utf16Prefix(content, MaxInputLength)));
      var kept := RemoveControl(collapsed);
      assert forall c :: c in kept && IsWhitespace(c) ==> c == ' ' by {
        forall c | c in kept && IsWhitespace(c)
          ensures c == ' '
        {
          var i :| 0 <= i < |collapsed| && collapsed[i] == c;
        }
      }
      Trim(kept)
  }

  /** Text already in sanitised form: within the length limit, no control
      characters, whitespace only as single inner spaces. */
  predicate IsClean(s: string) {
    && Utf16Length(s) <= MaxInputLength
    && (forall i :: 0 <= i < |s| ==> !IsControl(s[i]))
    && (forall i :: 0 <= i < |s| && IsWhitespace(s[i]) ==> s[i] == ' ')
    && (forall i :: 0 <= i < |s| - 1 ==> !(IsWhitespace(s[i]) && IsWhitespace(s[i + 1])))
    && (s == [] || (!IsWhitespace(s[0]) && !IsWhitespace(s[|s| - 1])))
  }

  lemma {:induction false} CollapseClean(s: string)
    requires forall i :: 0 <= i < |s| && IsWhitespace(s[i]) ==> s[i] == ' '
    requires forall i :: 0 <= i < |s| - 1 ==> !(IsWhitespace(s[i]) && IsWhitespace(s[i + 1]))
    ensures CollapseWhitespace(s) == s
    decreases |s|
  {
    if |s| > 0 {
      var t := s[1..];
      assert CollapseWhitespace(t) == t by {
        assert forall i :: 0 <= i < |t| ==> t[i] == s[i + 1];
        CollapseClean(t);
      }
      if IsWhitespace(s[0]) {
        assert TrimStart(s) == t by {
          if |s| > 1 {
            assert !IsWhitespace(s[1]);
            assert TrimStart(t) == t;
          }
        }
        assert s[0] == ' ';
        assert CollapseWhitespace(s) == [' '] + CollapseWhitespace(t);
      } else {
        assert CollapseWhitespace(s) == [s[0]] + CollapseWhitespace(t);
      }
      assert s == [s[0]] + t;
    }
  }

  lemma {:induction false} FilterKeepsAll<T>(xs: seq<T>, p: T -> bool)
    requires forall i :: 0 <= i < |xs| ==> p(xs[i])
    ensures Filter(xs, p) == xs
  {
    if |xs| > 0 {
      FilterKeepsAll(xs[1..], p);
      assert xs == [xs[0]] + xs[1..];
    }
  }

  /** Sanitising clean text with no pattern to neutralise is the identity. */
  lemma SanitizeClean(s: string)
    requires IsClean(s)
    ensures Sanitize(s, x => x) == s
  {
    if s != [] {
      CollapseClean(s);
      FilterKeepsAll(s, c => !IsControl(c));
    }
  }

  /** `response.ok` */
  predicate IsOkStatus(status: int) {
    200 <= status <= 299
  }

  /** The fixed error thrown for a non-OK status. */
  function StatusError(status: int): (e: LlmError)
    requires !IsOkStatus(status)
    ensures e in {AuthenticationFailed, RateLimitExceeded, ServiceUnavailable, RequestFailed}
    ensures e == AuthenticationFailed <==> status == 401
    ensures e == RateLimitExceeded <==> status == 429
    ensures e == ServiceUnavailable <==> status >= 500
  {
    if status == 401 then AuthenticationFailed
    else if status == 429 then RateLimitExceeded
    else if status >= 500 then ServiceUnavailable
    else RequestFailed
  }

  /** The schema a structured request carries. */
  datatype SchemaRef = ObjectRef(schema: ObjectSchema) | ClassificationRef

  /** What the network did with the request: an HTTP answer with the reply
      text, the 30-second abort firing, or a failure to connect. */
  datatype Transport = Answered(status: int, content: string) | TimedOut | Unreachable

  /** The JSON body the call posts. */
  datatype OutgoingRequest = OutgoingRequest(
    model: string,
    messages: seq<Message>,
    maxTokens: int,
    temperature: int,
    responseFormat: Option<SchemaRef>)

  datatype CallReply = CallReply(request: OutgoingRequest, content: string, cost: CostRecord)

  /** The checks made before anything is sent: the key, a non-empty
      message list, and the total length. None means the request goes out. */
  function Guard(apiKey: string, messages: seq<Message>): (r: Option<LlmError>)
    ensures !StartsWith(apiKey, ApiKeyPrefix) ==> r == Some(InvalidApiKey)
    ensures StartsWith(apiKey, ApiKeyPrefix) && messages == [] ==> r == Some(InvalidMessages)
    ensures r.None? <==> StartsWith(apiKey, ApiKeyPrefix) && messages != [] && TotalInputLength(messages) <= MaxInputLength
  {
    if !StartsWith(apiKey, ApiKeyPrefix) then Some(InvalidApiKey)
    else if messages == [] then Some(InvalidMessages)
    else if TotalInputLength(messages) > MaxInputLength then Some(InputTooLarge(TotalInputLength(messages)))
    else None
  }

  function SanitizeAll(messages: seq<Message>, scrub: string -> string): (r: seq<Message>)
    ensures |r| == |messages|
    ensures forall i :: 0 <= i < |r| ==> r[i] == Message(messages[i].role, Sanitize(messages[i].content, scrub))
  {
    seq(|messages|, i requires 0 <= i < |messages| => Message(messages[i].role, Sanitize(messages[i].content, scrub)))
  }

  function Contents(messages: seq<Message>): seq<string> {
    seq(|messages|, i requires 0 <= i < |messages| => messages[i].content)
  }

  /** `callOpenAI`. A request is sent only when the guard passes; it holds
      the sanitised messages with their roles and the capped token budget.
      A non-OK answer, the timeout and a connection failure each become
      their error, and a reply carries the cost record of the call, priced
      on the sanitised input joined with spaces and on the reply text. */
  function CallOpenAI(apiKey: string, messages: seq<Message>, schema: Option<SchemaRef>, maxTokens: int,
                      endpoint: string, scrub: string -> string, transport: Transport): (r: Result<CallReply, LlmError>)
    ensures Guard(apiKey, messages).Some? ==> r == Failure(Guard(apiKey, messages).value)
    ensures r.Success? ==> transport.Answered? && IsOkStatus(transport.status) && r.value.content == transport.content
    ensures r.Success? ==> TotalInputLength(messages) <= MaxInputLength
    ensures r.Success? ==> var q := r.value.request;
      && q.model == Model && q.temperature == 0 && q.responseFormat == schema
      && q.maxTokens == ClampTokens(maxTokens) && q.maxTokens <= MaxTokens
      && q.messages == SanitizeAll(messages, scrub)
    ensures r.Success? ==> var c := r.value.cost;
      && c.endpoint == endpoint && c.model == Model
      && c.inputTokens == CalculateTokens(Join(Contents(r.value.request.messages), " "))
      && c.outputTokens == CalculateTokens(r.value.content)
      && c.costUsd == CalculateCost(c.inputTokens, c.outputTokens)
    ensures Guard(apiKey, messages).None? && transport.Answered? && IsOkStatus(transport.status) ==> r.Success?
    ensures Guard(apiKey, messages).None? && transport.Answered? && !IsOkStatus(transport.status)
      ==> r == Failure(StatusError(transport.status))
    ensures Guard(apiKey, messages).None? && transport.TimedOut? ==> r == Failure(RequestTimeout)
    ensures Guard(apiKey, messages).None? && transport.Unreachable? ==> r == Failure(NetworkFailure)
  {
    match Guard(apiKey, messages)
    case Some(e) => Failure(e)
    case None =>
      var sent := SanitizeAll(messages, scrub);
      var request := OutgoingRequest(Model, sent, ClampTokens(maxTokens), 0, schema);
      match transport
      case TimedOut => Failure(RequestTimeout)
      case Unreachable => Failure(NetworkFailure)
      case Answered(status, content) =>
        if !IsOkStatus(status) then Failure(StatusError(status))
        else Success(CallReply(request, content, CalculateAndLogCost(endpoint, Join(Contents(sent), " "), content)))
  }

  /** A rejected request never reaches the network: the outcome is the
      same whatever the transport would have done. */
  lemma RejectedCallIgnoresTransport(apiKey: string, messages: seq<Message>, schema: Option<SchemaRef>, maxTokens: int,
                                     endpoint: string, scrub: string -> string, t1: Transport, t2: Transport)
    requires Guard(apiKey, messages).Some?
    ensures CallOpenAI(apiKey, messages, schema, maxTokens, endpoint, scrub, t1)
         == CallOpenAI(apiKey, messages, schema, maxTokens, endpoint, scrub, t2)
  {
  }

  /** The title and summary the reading enhancer returns. */
  datatype Enhancement = Enhancement(title: string, summary: string)

  const EnhanceSystemHead: string := "You are tasked with extracting title and summary for reading content. First, try to fetch information about the URL: "
  const EnhanceSystemTail: string := ". If you cannot access the URL, generate a reasonable title and summary based on the URL structure and any context provided by the user."
  const EnhanceUserHead: string := "Please extract title and summary for this reading content: \""
  const EnhanceUserMiddle: string := "\"\n\nURL: "

  lemma TotalOfPair(a: Message, b: Message)
    ensures TotalInputLength([a, b]) == Utf16Length(a.content) + Utf16Length(b.content)
  {
    assert [a, b][..1] == [a];
    assert [a][..0] == [];
    assert TotalInputLength([a]) == TotalInputLength([]) + Utf16Length(a.content);
  }

  /** The system message of the reading enhancer. */
  function EnhanceSystem(link: string): string {
    EnhanceSystemHead + link + EnhanceSystemTail
  }

  /** The user message of the reading enhancer. */
  function EnhanceUser(content: string, link: string): string {
    EnhanceUserHead + content + EnhanceUserMiddle + link
  }

  /** The middle of three parts is contained in, and no longer than,
      their concatenation. */
  lemma MiddleOfThree(a: string, b: string, c: string)
    ensures Contains(a + b + c, b) && Utf16Length(a + b + c) >= Utf16Length(b)
  {
    ContainsParts(a, b, c);
    Utf16Append(a, b);
    Utf16Append(a + b, c);
  }

  /** The second and fourth of four parts are contained in their
      concatenation, whose length covers both. */
  lemma EvenOfFour(a: string, b: string, c: string, d: string)
    ensures Contains(a + b + c + d, b) && Contains(a + b + c + d, d)
    ensures Utf16Length(a + b + c + d) >= Utf16Length(b) + Utf16Length(d)
  {
    var s := a + b + c + d;
    assert s == (a + b) + (c + d);
    assert Contains(s, b) by { ContainsParts(a, b, c + d); }
    assert Contains(s, d) by { ContainsParts(a + b, c, d); }
    assert Utf16Length(s) >= Utf16Length(b) + Utf16Length(d) by {
      Utf16Append(a + b, c + d);
      Utf16Append(a, b);
      Utf16Append(c, d);
    }
  }

  /** The system message quotes the link; the user message quotes the note
      and the link; together they are at least as long as the note and
      the link twice. */
  lemma EnhanceTexts(content: string, link: string)
    ensures Contains(EnhanceSystem(link), link)
    ensures Contains(EnhanceUser(content, link), content) && Contains(EnhanceUser(content, link), link)
    ensures Utf16Length(EnhanceSystem(link)) + Utf16Length(EnhanceUser(content, link)) >= Utf16Length(content) + 2 * Utf16Length(link)
  {
    MiddleOfThree(EnhanceSystemHead, link, EnhanceSystemTail);
    EvenOfFour(EnhanceUserHead, content, EnhanceUserMiddle, link);
  }

  /** The two messages the enhancer sends about a reading note and its
      link: the link goes into both, the note only into the second. */
  function EnhanceMessages(content: string, link: string): (r: seq<Message>)
    ensures |r| == 2 && r[0].role == "system" && r[1].role == "user"
    ensures Contains(r[0].content, link) && Contains(r[1].content, content) && Contains(r[1].content, link)
    ensures TotalInputLength(r) >= Utf16Length(content) + 2 * Utf16Length(link)
  {
    EnhanceTexts(content, link);
    TotalOfPair(Message("system", EnhanceSystem(link)), Message("user", EnhanceUser(content, link)));
    [Message("system", EnhanceSystem(link)), Message("user", EnhanceUser(content, link))]
  }

  /** `enhanceReadingContent`: the enhancement for a reading note, or None
      whenever the call fails or its reply does not parse; it never throws.
      parse stands for `JSON.parse` of the reply text. */
  function EnhanceReadingContent(apiKey: string, content: string, link: string, scrub: string -> string,
                                 transport: Transport, parse: string -> Option<Enhancement>): (r: Option<Enhancement>)
    ensures r.Some? ==> CallOpenAI(apiKey, EnhanceMessages(content, link), Some(ObjectRef(EnhanceSchema)), 150,
                                   "enhance-reading", scrub, transport).Success?
    ensures Utf16Length(content) + 2 * Utf16Length(link) > MaxInputLength ==> r.None?
    ensures r.Some? ==> transport.Answered? && IsOkStatus(transport.status) && r == parse(transport.content)
    ensures var c := CallOpenAI(apiKey, EnhanceMessages(content, link), Some(ObjectRef(EnhanceSchema)), 150,
                                "enhance-reading", scrub, transport);
      c.Success? ==> r == parse(c.value.content)
  {
    match CallOpenAI(apiKey, EnhanceMessages(content, link), Some(ObjectRef(EnhanceSchema)), 150, "enhance-reading", scrub, transport)
    case Failure(_) => None
    case Success(reply) => parse(reply.content)
  }

  /** The enhancer answers exactly when its request passes the guard, the
      model answers with an OK status and the reply text parses; the answer
      is then that parse. */
  lemma EnhancementIsParsedReply(apiKey: string, content: string, link: string, scrub: string -> string,
                                 transport: Transport, parse: string -> Option<Enhancement>)
    ensures EnhanceReadingContent(apiKey, content, link, scrub, transport, parse).Some? <==>
      && Guard(apiKey, EnhanceMessages(content, link)).None?
      && transport.Answered? && IsOkStatus(transport.status) && parse(transport.content).Some?
    ensures EnhanceReadingContent(apiKey, content, link, scrub, transport, parse).Some? ==>
      EnhanceReadingContent(apiKey, content, link, scrub, transport, parse) == parse(transport.content)
  {
    var c := CallOpenAI(apiKey, EnhanceMessages(content, link), Some(ObjectRef(EnhanceSchema)), 150, "enhance-reading", scrub, transport);
    if c.Success? {
      assert Guard(apiKey, EnhanceMessages(content, link)).None?;
    }
  }

  /** `buildCategoryPrompt`, with the current ISO date as today. */
  function BuildCategoryPrompt(category: string, today: string): (r: string)
    ensures category in {"task", "meeting"} ==> Contains(r, today)
  {
    if category == "task" then
      PromptAround(TaskPromptHead, today, TaskPromptTail)
    else if category == "meeting" then
      PromptAround(MeetingPromptHead, today, ".")
    else if category == "idea" then IdeaPrompt
    else if category == "reading" then ReadingPrompt
    else DefaultPrompt
  }

  const TaskPromptHead: string := "Extract due date from phrases like: \"due tomorrow\", \"due next week\", \"by Friday\", \"deadline Monday\", \"needs to be done by [date]\", \"complete by [date]\", specific dates like \"January 15\", \"15th\", \"next Tuesday\". Convert relative dates to ISO format (YYYY-MM-DD). Today is "
  const TaskPromptTail: string := ". Remove all due date references from the content to create a clean task description."
  const MeetingPromptHead: string := "Extract meeting title, date (ISO format YYYY-MM-DD), and time (24-hour format HH:MM) if present. Convert relative dates to ISO format. Today is "
  const IdeaPrompt: string := "Extract a short descriptive title and brief 1-2 sentence summary."
  const ReadingPrompt: string := "Extract link if URL found. If no link found, extract title and summary."
  const DefaultPrompt: string := "Extract any relevant metadata fields that are clearly present in the content."

  /** head + today + tail, which contains today. */
  function PromptAround(head: string, today: string, tail: string): (r: string)
    ensures Contains(r, today)
  {
    var r := head + today + tail;
    assert StartsWith(r[|head|..], today) by {
      assert r[|head|..][..|today|] == today;
    }
    r
  }

  /** Only the task and meeting prompts mention the date: every other
      category, including names outside the allow-list, gets a prompt that
      does not depend on it, and unknown names get the generic prompt. */
  lemma PromptDateIndependence(category: string, d1: string, d2: string)
    requires category !in {"task", "meeting"}
    ensures BuildCategoryPrompt(category, d1) == BuildCategoryPrompt(category, d2)
    ensures category !in {"idea", "reading"} ==> BuildCategoryPrompt(category, d1) == DefaultPrompt
  {
  }
}

=== FILE: llm_costs.dfy ===
/** The cost summary endpoint: totals over the last thirty days of the
    cost log and a per-day breakdown of the most recent seven days.
    Dates are day numbers; amounts are exact rationals. */
module LlmCosts {
  import opened Wrappers
  import opened Seqs
  import opened Http
  import opened Ordering
  import opened Grouping
  import CostTracking

  const LookbackDays: int := 30
  const BreakdownDays: nat := 7

  /** The selected columns of one `llm_costs` row. */
  datatype CostRow = CostRow(date: int, costUsd: Option<real>, endpoint: string)

  function RowDate(r: CostRow): int {
    r.date
  }

  /** `Number(entry.cost_usd || 0)` */
  function RowCost(r: CostRow): real {
    r.costUsd.GetOr(0.0)
  }

  datatype DayTotal = DayTotal(cost: real, requests: nat)

  datatype DailyCost = DailyCost(date: int, cost: real, requests: nat)

  function DayDate(e: DailyCost): int {
    e.date
  }

  datatype CostSummary = CostSummary(totalCost: real, totalRequests: nat, dailyBreakdown: seq<DailyCost>)

  const ZeroSummary := CostSummary(0.0, 0, [])

  /** What the rows dated d add up to. */
  function DaySpec(rows: seq<CostRow>, d: int): DayTotal {
    DayTotal(SumOver(Members(rows, RowDate, d), RowCost), |Members(rows, RowDate, d)|)
  }

  /** The `forEach` that fills `dailyMap`: one entry per date present,
      holding the summed cost and the number of rows of that date. */
  method BuildDailyMap(rows: seq<CostRow>) returns (daily: map<int, DayTotal>)
    ensures forall d :: d in daily <==> d in Keys(rows, RowDate)
    ensures forall d :: d in daily ==> daily[d] == DaySpec(rows, d)
  {
    daily := map[];
    var i := 0;
    while i < |rows|
      invariant 0 <= i <= |rows|
      invariant Tallies(daily, rows[..i])
    {
      AddRowAt(rows, i, daily);
      daily := Add(daily, rows[i]);
      i := i + 1;
    }
    assert rows[..|rows|] == rows;
  }

  /** The map holds exactly the dates of `rows`, each with its totals. */
  ghost predicate Tallies(daily: map<int, DayTotal>, rows: seq<CostRow>) {
    && (forall d :: d in daily <==> d in Keys(rows, RowDate))
    && (forall d :: d in daily ==> daily[d] == DaySpec(rows, d))
  }

  /** One step of the `forEach`: the row's date gets its cost and one more
      request, starting from zero when the date is new. */
  function Add(daily: map<int, DayTotal>, r: CostRow): map<int, DayTotal> {
    var existing := if r.date in daily then daily[r.date] else DayTotal(0.0, 0);
    daily[r.date := DayTotal(existing.cost + RowCost(r), existing.requests + 1)]
  }

  /** The step taken at position i of the rows. */
  lemma AddRowAt(rows: seq<CostRow>, i: nat, daily: map<int, DayTotal>)
    requires i < |rows| && Tallies(daily, rows[..i])
    ensures Tallies(Add(daily, rows[i]), rows[..i + 1])
  {
    assert rows[..i + 1] == rows[..i] + [rows[i]];
    AddRow(rows[..i], rows[i], daily);
  }

  /** A map that holds the totals of `pre`, after the step for r, holds the
      totals of `pre + [r]`. */
  lemma AddRow(pre: seq<CostRow>, r: CostRow, daily: map<int, DayTotal>)
    requires Tallies(daily, pre)
    ensures Tallies(Add(daily, r), pre + [r])
  {
    var next := Add(daily, r);
    var post := pre + [r];
    DayStep(pre, r);
    if r.date !in daily {
      MembersOfAbsentKey(pre, RowDate, r.date);
      assert DaySpec(pre, r.date) == DayTotal(0.0, 0);
    }
    assert next[r.date] == DaySpec(post, r.date);
    forall d | d != r.date
      ensures d in next <==> d in Keys(post, RowDate)
      ensures d in next ==> next[d] == DaySpec(post, d)
    {
    }
  }

  /** Appending a row changes only its own date's totals, by its cost and
      one request. */
  lemma DayStep(pre: seq<CostRow>, r: CostRow)
    ensures forall d :: d in Keys(pre + [r], RowDate) <==> d in Keys(pre, RowDate) || d == r.date
    ensures forall d :: d != r.date ==> DaySpec(pre + [r], d) == DaySpec(pre, d)
    ensures DaySpec(pre + [r], r.date)
         == DayTotal(DaySpec(pre, r.date).cost + RowCost(r), DaySpec(pre, r.date).requests + 1)
  {
    var post := pre + [r];
    assert post[..|post| - 1] == pre;
    var m := Members(pre, RowDate, r.date);
    assert (m + [r])[..|m|] == m;
    forall d | d != r.date
      ensures DaySpec(post, d) == DaySpec(pre, d)
    {
      assert Members(post, RowDate, d) == Members(pre, RowDate, d) + [];
      assert Members(pre, RowDate, d) + [] == Members(pre, RowDate, d);
    }
  }

  /** One breakdown entry per date, in first-occurrence order. */
  function Days(rows: seq<CostRow>): (ds: seq<DailyCost>)
    ensures |ds| == |Keys(rows, RowDate)|
    ensures forall i :: 0 <= i < |ds| ==>
      ds[i] == DailyCost(Keys(rows, RowDate)[i], DaySpec(rows, Keys(rows, RowDate)[i]).cost,
                         DaySpec(rows, Keys(rows, RowDate)[i]).requests)
  {
    var gs := GroupBy(rows, RowDate);
    GroupBySpec(rows, RowDate);
    seq(|gs|, i requires 0 <= i < |gs| => DailyCost(gs[i].key, SumOver(gs[i].members, RowCost), |gs[i].members|))
  }

  /** The summary of the selected rows: totals over every row, and the
      seven most recent days, newest first, each with its own totals. */
  function Summarize(rows: seq<CostRow>): (s: CostSummary)
    ensures s.totalRequests == |rows|
    ensures s.totalCost == SumOver(rows, RowCost)
    ensures |s.dailyBreakdown| == Min(BreakdownDays, |Keys(rows, RowDate)|)
    ensures Descending(s.dailyBreakdown, DayDate)
    ensures forall e :: e in s.dailyBreakdown ==>
      e.date in Keys(rows, RowDate) && e.cost == DaySpec(rows, e.date).cost && e.requests == DaySpec(rows, e.date).requests
    ensures forall d :: d in Keys(rows, RowDate) && (forall e :: e in s.dailyBreakdown ==> e.date != d) ==>
      |s.dailyBreakdown| == BreakdownDays && d <= s.dailyBreakdown[BreakdownDays - 1].date
  {
    var days := Days(rows);
    var sorted := SortDesc(days, DayDate);
    var top := Take(sorted, BreakdownDays);
    SummarizeFacts(rows, days, sorted, top);
    CostSummary(SumOver(rows, RowCost), |rows|, top)
  }

  lemma SummarizeFacts(rows: seq<CostRow>, days: seq<DailyCost>, sorted: seq<DailyCost>, top: seq<DailyCost>)
    requires days == Days(rows) && sorted == SortDesc(days, DayDate) && top == Take(sorted, BreakdownDays)
    ensures Descending(top, DayDate)
    ensures forall e :: e in top ==>
      e.date in Keys(rows, RowDate) && e.cost == DaySpec(rows, e.date).cost && e.requests == DaySpec(rows, e.date).requests
    ensures forall d :: d in Keys(rows, RowDate) && (forall e :: e in top ==> e.date != d) ==>
      |top| == BreakdownDays && d <= top[BreakdownDays - 1].date
  {
    assert Descending(top, DayDate) by {
      DescendingPrefix(sorted, DayDate, |top|);
    }
    assert forall e :: e in top ==>
      e.date in Keys(rows, RowDate) && e.cost == DaySpec(rows, e.date).cost && e.requests == DaySpec(rows, e.date).requests
    by {
      TopEntriesAreDays(rows, days, sorted, top);
    }
    forall d | d in Keys(rows, RowDate) && (forall e :: e in top ==> e.date != d)
      ensures |top| == BreakdownDays && d <= top[BreakdownDays - 1].date
    {
      OmittedDayIsOlder(rows, days, sorted, top, d);
    }
  }

  lemma TopEntriesAreDays(rows: seq<CostRow>, days: seq<DailyCost>, sorted: seq<DailyCost>, top: seq<DailyCost>)
    requires days == Days(rows) && sorted == SortDesc(days, DayDate) && top == Take(sorted, BreakdownDays)
    ensures forall e :: e in top ==>
      e.date in Keys(rows, RowDate) && e.cost == DaySpec(rows, e.date).cost && e.requests == DaySpec(rows, e.date).requests
  {
    forall e | e in top
      ensures e.date in Keys(rows, RowDate) && e.cost == DaySpec(rows, e.date).cost && e.requests == DaySpec(rows, e.date).requests
    {
      assert e in sorted;
      assert e in multiset(days);
      var i :| 0 <= i < |days| && days[i] == e;
    }
  }

  lemma OmittedDayIsOlder(rows: seq<CostRow>, days: seq<DailyCost>, sorted: seq<DailyCost>, top: seq<DailyCost>, d: int)
    requires days == Days(rows) && sorted == SortDesc(days, DayDate) && top == Take(sorted, BreakdownDays)
    requires d in Keys(rows, RowDate) && forall e :: e in top ==> e.date != d
    ensures |top| == BreakdownDays && d <= top[BreakdownDays - 1].date
  {
    var ks := Keys(rows, RowDate);
    var i :| 0 <= i < |ks| && ks[i] == d;
    assert days[i].date == d;
    assert days[i] in multiset(sorted);
    var j :| 0 <= j < |sorted| && sorted[j] == days[i];
    assert j >= |top|;
    assert |top| == BreakdownDays;
    assert top[BreakdownDays - 1] == sorted[BreakdownDays - 1];
    assert DayDate(sorted[BreakdownDays - 1]) >= DayDate(sorted[j]);
  }

  /** The summed cost of a breakdown list. */
  function CostOf(ds: seq<DailyCost>): real {
    if |ds| == 0 then 0.0 else CostOf(ds[..|ds| - 1]) + ds[|ds| - 1].cost
  }

  /** The summed request count of a breakdown list. */
  function RequestsOf(ds: seq<DailyCost>): nat {
    if |ds| == 0 then 0 else RequestsOf(ds[..|ds| - 1]) + ds[|ds| - 1].requests
  }

  lemma {:induction false} DaysMatchGroups(gs: seq<Group<int, CostRow>>, ds: seq<DailyCost>)
    requires |ds| == |gs|
    requires forall i :: 0 <= i < |gs| ==> ds[i] == DailyCost(gs[i].key, SumOver(gs[i].members, RowCost), |gs[i].members|)
    ensures CostOf(ds) == GroupsSum(gs, RowCost)
    ensures RequestsOf(ds) == TotalSize(gs)
  {
    if |gs| > 0 {
      DaysMatchGroups(gs[..|gs| - 1], ds[..|ds| - 1]);
    }
  }

  /** Before the seven-day cut, the daily entries add up to the totals:
      every row is counted on exactly one day. */
  lemma DailyTotalsAddUp(rows: seq<CostRow>)
    ensures RequestsOf(Days(rows)) == Summarize(rows).totalRequests
    ensures CostOf(Days(rows)) == Summarize(rows).totalCost
  {
    var gs := GroupBy(rows, RowDate);
    GroupBySpec(rows, RowDate);
    DaysMatchGroups(gs, Days(rows));
    GroupByPartitions(rows, RowDate);
    GroupByPreservesSum(rows, RowDate, RowCost);
  }

  /** The answer of the cost query. */
  datatype CostQuery = CostRows(table: seq<CostRow>) | NoRows | CostQueryError(code: string, message: string)

  /** The handler inside the authentication wrapper. Non-GET is refused;
      missing database settings and a missing table give the all-zero
      summary; any other query error is thrown and reaches the client as
      a 500; otherwise the rows dated within the last thirty days are
      summarised. */
  function CostsEndpoint(verb: string, envPresent: bool, query: CostQuery, today: int): (r: Response<CostSummary>)
    ensures verb != "GET" ==> r == Error(405, MethodNotAllowed)
    ensures verb == "GET" && !envPresent ==> r == Ok(ZeroSummary)
    ensures verb == "GET" && envPresent && query.CostQueryError? ==>
      r == (if CostTracking.IsMissingTable(query.code, query.message) then Ok(ZeroSummary) else Error(500, InternalServerError))
    ensures r.status == 200 ==> r.body.Payload? && |r.body.value.dailyBreakdown| <= BreakdownDays
    ensures verb == "GET" && envPresent && query.CostRows? ==>
      r == Ok(Summarize(Filter(query.table, (row: CostRow) => row.date >= today - LookbackDays)))
  {
    if verb != "GET" then Error(405, MethodNotAllowed)
    else if !envPresent then Ok(ZeroSummary)
    else match query
      case CostQueryError(code, message) =>
        if CostTracking.IsMissingTable(code, message) then Ok(ZeroSummary) else Error(500, InternalServerError)
      case NoRows => Ok(Summarize([]))
      case CostRows(table) => Ok(Summarize(Filter(table, (row: CostRow) => row.date >= today - LookbackDays)))
  }

  /** An empty cost log summarises to the all-zero summary, the same answer
      as a missing table. */
  lemma EmptyLogIsZero()
    ensures Summarize([]) == ZeroSummary
  {
  }
}

=== FILE: meetings_list.dfy ===
/** The meetings view: notes are gathered into meetings, each meeting gets
    a title and a date and time from its first note, meetings are shown
    newest first and the notes of one meeting oldest first. */
module MeetingsList {
  import opened Wrappers
  import opened Seqs
  import opened Text
  import opened Notes
  import opened Ordering
  import opened Grouping
  import MetadataActions
  import Schemas

  /** The meeting a note belongs to: its `related_meeting_id` when it has
      one, otherwise a meeting of its own named by its id. */
  function MeetingKey(n: Note): (k: string)
    ensures TextField(n.metadata, "related_meeting_id").Some? ==> Str(k) == n.metadata["related_meeting_id"]
    ensures TextField(n.metadata, "related_meeting_id").None? ==> k == n.id
  {
    TextField(n.metadata, "related_meeting_id").GetOr(n.id)
  }

  /** The `reduce` into meetings: no meeting is empty, no two share a
      key, every note of a meeting carries its key, every note is in the
      meeting of its key, and the meeting sizes add up to the note count. */
  function Meetings(notes: seq<Note>): (gs: seq<Group<string, Note>>)
    ensures TotalSize(gs) == |notes|
    ensures forall i, j :: 0 <= i < j < |gs| ==> gs[i].key != gs[j].key
    ensures NonEmpty(gs)
    ensures forall i, n :: 0 <= i < |gs| && n in gs[i].members ==> n in notes && MeetingKey(n) == gs[i].key
    ensures forall n :: n in notes ==> exists i :: 0 <= i < |gs| && gs[i].key == MeetingKey(n) && n in gs[i].members
  {
    GroupByIsPartition(notes, MeetingKey);
    GroupBy(notes, MeetingKey)
  }

  /** Some note's meeting key is the name of a member every plain object
      inherits. */
  predicate InheritedKey(notes: seq<Note>) {
    exists i :: 0 <= i < |notes| && MeetingKey(notes[i]) in Schemas.ObjectPrototypeMembers
  }

  /** The `reduce` as written. Its accumulator is a plain object, so for a
      key naming an inherited `Object.prototype` member `acc[meetingId]` is
      that member, truthy and without `push`, and the call throws: the list
      fails to render. Otherwise it is the grouping Meetings describes. */
  function MeetingsAsWritten(notes: seq<Note>): (r: Option<seq<Group<string, Note>>>)
    ensures r.None? <==> exists n :: n in notes && MeetingKey(n) in Schemas.ObjectPrototypeMembers
    ensures r.Some? ==> r.value == Meetings(notes)
  {
    if InheritedKey(notes) then None else Some(Meetings(notes))
  }

  /** A meeting note whose related_meeting_id is "constructor" makes the
      list as written fail, where Meetings puts it in a meeting of its own. */
  lemma InheritedMeetingIdBreaksList(n: Note)
    requires "related_meeting_id" in n.metadata && n.metadata["related_meeting_id"] == Str("constructor")
    ensures MeetingsAsWritten([n]).None?
    ensures Meetings([n]) == [Group("constructor", [n])]
  {
    assert MeetingKey(n) == "constructor";
    assert MeetingKey([n][0]) in Schemas.ObjectPrototypeMembers;
    assert [n][..0] == [];
    assert GroupBy([n], MeetingKey) == Place(GroupBy([], MeetingKey), "constructor", n);
    var none: seq<Group<string, Note>> := [];
    assert GroupIndex(none, "constructor") == 0;
  }

  /** When a meeting's first note was created; meetings are never empty,
      so the fallback is never used. */
  function Started(g: Group<string, Note>): int {
    if |g.members| > 0 then CreatedAt(g.members[0]) else 0
  }

  /** No meeting is empty. */
  predicate NonEmpty(gs: seq<Group<string, Note>>) {
    forall i :: 0 <= i < |gs| ==> |gs[i].members| > 0
  }

  /** The meetings in display order: newest first note first. */
  function OrderedMeetings(notes: seq<Note>): (r: seq<Group<string, Note>>)
    ensures multiset(r) == multiset(Meetings(notes))
    ensures NonEmpty(r)
    ensures forall i, j :: 0 <= i < j < |r| ==> CreatedAt(r[i].members[0]) >= CreatedAt(r[j].members[0])
  {
    var gs := Meetings(notes);
    SortedMeetings(gs);
    SortDesc(gs, Started)
  }

  /** Sorting keeps every meeting, so none of the sorted ones is empty. */
  lemma SortedMeetings(gs: seq<Group<string, Note>>)
    requires NonEmpty(gs)
    ensures NonEmpty(SortDesc(gs, Started))
  {
    var r := SortDesc(gs, Started);
    forall i | 0 <= i < |r|
      ensures |r[i].members| > 0
    {
      assert r[i] in multiset(gs);
    }
  }

  /** Earlier notes rank higher, so sorting by it puts the oldest first. */
  function Earliness(n: Note): int {
    -n.createdAt
  }

  /** The notes of one meeting, oldest first, as the meeting dialog lists
      them. */
  function Transcript(members: seq<Note>): (r: seq<Note>)
    ensures multiset(r) == multiset(members)
    ensures forall i, j :: 0 <= i < j < |r| ==> CreatedAt(r[i]) <= CreatedAt(r[j])
  {
    var r := SortDesc(members, Earliness);
    assert forall i, j :: 0 <= i < j < |r| ==> Earliness(r[i]) >= Earliness(r[j]);
    r
  }

  /** A first sentence is a title when it is longer than 5 and shorter than
      60 UTF-16 code units. */
  predicate UsableSentence(f: string) {
    5 < Utf16Length(f) < 60
  }

  /** `getMeetingTitle(notes)` of a meeting whose first note is `first`:
      the stored `meeting_title`, then the trimmed first sentence of usable
      length, then the first four words. */
  function Title(first: Note): (t: string)
    ensures TextField(first.metadata, "meeting_title").Some? ==> Str(t) == first.metadata["meeting_title"]
    ensures TextField(first.metadata, "meeting_title").None? ==>
      t == (if UsableSentence(Trim(FirstSentence(first.content))) then Trim(FirstSentence(first.content))
            else WordPreview(first.content, 4))
  {
    if TextField(first.metadata, "meeting_title").Some? then TextField(first.metadata, "meeting_title").value
    else if UsableSentence(Trim(FirstSentence(first.content))) then Trim(FirstSentence(first.content))
    else WordPreview(first.content, 4)
  }

  /** When a meeting took place: the stored date and time, or, when either
      is missing, the first note's creation time. */
  datatype When = Stated(date: string, time: string) | AtCreation(createdAt: int)

  /** `getMeetingDateTime(notes)` of a meeting whose first note is `first`. */
  function MeetingWhen(first: Note): (w: When)
    ensures w.Stated? <==> TextField(first.metadata, "meeting_date").Some? && TextField(first.metadata, "meeting_time").Some?
    ensures w.Stated? ==> Str(w.date) == first.metadata["meeting_date"] && Str(w.time) == first.metadata["meeting_time"]
    ensures w.AtCreation? ==> w.createdAt == first.createdAt
  {
    match (TextField(first.metadata, "meeting_date"), TextField(first.metadata, "meeting_time"))
    case (Some(d), Some(t)) => Stated(d, t)
    case _ => AtCreation(first.createdAt)
  }

  /** The meeting edit stores `title`, `date` and `time`, while this view
      reads `meeting_title`, `meeting_date` and `meeting_time`: an edited
      meeting shows the same title and time as before the edit. */
  lemma EditIsNotShown(first: Note, title: string, date: string, time: string)
    ensures var edited := first.(metadata := MetadataActions.MeetingFields(first.metadata, title, date, time));
      Title(edited) == Title(first) && MeetingWhen(edited) == MeetingWhen(first)
  {
    var m := MetadataActions.MeetingFields(first.metadata, title, date, time);
    assert "meeting_title" !in {"title", "date", "time"};
    assert "meeting_date" !in {"title", "date", "time"};
    assert "meeting_time" !in {"title", "date", "time"};
    assert TextField(m, "meeting_title") == TextField(first.metadata, "meeting_title");
    assert TextField(m, "meeting_date") == TextField(first.metadata, "meeting_date");
    assert TextField(m, "meeting_time") == TextField(first.metadata, "meeting_time");
  }
}

=== FILE: metadata_actions.dfy ===
/** The metadata endpoint's six actions (extract, update, update_meeting,
    task_completion, task_due_date, soft_delete), the dispatcher that
    selects one by the body's `action`, and the single-purpose endpoints
    that perform the same actions. */
module MetadataActions {
  import opened Wrappers
  import opened Seqs
  import opened Categories
  import opened Notes
  import opened Http
  import opened Schemas
  import opened SupabaseUtils
  import opened LlmClient

  /** The two tables the actions touch: notes, and the ids of the notes
      marked complete in `task_completions`. */
  datatype Db = Db(notes: Store, completions: set<string>)

  /** The success payloads: extracted metadata, `{ success: true }`, or
      `{ success: true, updated_count }`. */
  datatype ActionResult = MetadataResult(metadata: Metadata) | Done | UpdatedCount(count: nat)

  // ----- extract -----

  datatype ExtractRequest = ExtractRequest(noteId: string, content: string, category: string)

  /** The model reply as `JSON.parse` sees it. */
  datatype ExtractReply = Unparseable | Parsed(metadata: Metadata)

  /** The reading-link test: the dispatcher asks for a string, the
      single-purpose endpoint for a truthy value. */
  datatype LinkGuard = LinkIsString | LinkIsTruthy

  predicate HasLink(m: Metadata, guard: LinkGuard) {
    match guard
    case LinkIsString => "link" in m && m["link"].Str?
    case LinkIsTruthy => HasTruthy(m, "link")
  }

  /** The system prompt of the extraction call. */
  function ExtractPrompt(category: string, today: string): string {
    "Extract metadata for a " + category + " note. " + BuildCategoryPrompt(category, today)
  }

  /** The metadata an extraction produces from a reply: the parsed object
      (an empty one when the reply does not parse), with title and summary
      replaced by the enhancer's for a reading note with a link. */
  function ExtractedMetadata(category: string, reply: ExtractReply, guard: LinkGuard, enhancer: Option<Enhancement>): (m: Metadata)
    ensures reply.Unparseable? && category != "reading" ==> m == map[]
    ensures forall k :: k !in {"title", "summary"} ==>
      (k in m <==> reply.Parsed? && k in reply.metadata) && (k in m ==> m[k] == reply.metadata[k])
    ensures category == "reading" && reply.Parsed? && HasLink(reply.metadata, guard) && enhancer.Some? ==>
      m == reply.metadata["title" := Str(enhancer.value.title)]["summary" := Str(enhancer.value.summary)]
    ensures !(category == "reading" && reply.Parsed? && HasLink(reply.metadata, guard) && enhancer.Some?) ==>
      m == (if reply.Parsed? then reply.metadata else map[])
  {
    var base := if reply.Parsed? then reply.metadata else map[];
    if category == "reading" && HasLink(base, guard) && enhancer.Some? then
      base["title" := Str(enhancer.value.title)]["summary" := Str(enhancer.value.summary)]
    else base
  }

  /** The extract action. Journal and misc notes get empty metadata without
      a model call or a write; a name with no schema of its own is refused;
      a failed call or write is a 500 without a write; otherwise the
      metadata column is replaced by exactly what is returned. */
  function Extract(req: ExtractRequest, call: Result<ExtractReply, LlmError>, guard: LinkGuard,
                   enhancer: Option<Enhancement>, notes: Store, writeFails: bool): (r: (Response<ActionResult>, Store))
    ensures req.noteId == [] || req.content == [] || req.category == [] ==>
      r == (Error(400, "Missing note_id, content, or category"), notes)
    ensures req.noteId != [] && req.content != [] && req.category in {"journal", "misc"} ==>
      r == (Ok(MetadataResult(map[])), notes)
    ensures (req.noteId != [] && req.content != [] && req.category != [] && req.category !in {"journal", "misc"}
             && LookupSchema(req.category).None?) ==>
      r == (Error(400, "Invalid category"), notes)
    ensures r.0.status != 200 ==> r.1 == notes
    ensures r.0.status == 200 && req.category !in {"journal", "misc"} ==>
      call.Success? && !writeFails && LookupSchema(req.category).Some?
      && r.0 == Ok(MetadataResult(ExtractedMetadata(req.category, call.value, guard, enhancer)))
      && r.1 == UpdateWhere(notes, req.noteId, MetadataPatch(r.0.body.value.metadata), false)
  {
    ExtractGuarded(req, LookupSchema(req.category).Some?, call, guard, enhancer, notes, writeFails)
  }

  /** The steps of the extract action, given whether the schema guard lets
      the category through. */
  function ExtractGuarded(req: ExtractRequest, schemaFound: bool, call: Result<ExtractReply, LlmError>, guard: LinkGuard,
                          enhancer: Option<Enhancement>, notes: Store, writeFails: bool): (r: (Response<ActionResult>, Store))
  {
    if req.noteId == [] || req.content == [] || req.category == [] then
      (Error(400, "Missing note_id, content, or category"), notes)
    else if req.category == "journal" || req.category == "misc" then
      (Ok(MetadataResult(map[])), notes)
    else if !schemaFound then
      (Error(400, "Invalid category"), notes)
    else match call
      case Failure(_) => (Error(500, InternalServerError), notes)
      case Success(reply) =>
        var m := ExtractedMetadata(req.category, reply, guard, enhancer);
        match UpdateNoteMetadata(notes, req.noteId, MetadataPatch(m), writeFails)
        case Failure(_) => (Error(500, InternalServerError), notes)
        case Success(notes') => (Ok(MetadataResult(m)), notes')
  }

  /** The extract action with the schema table read as written: any name
      the lookup does not leave undefined passes the guard. It agrees with
      Extract on every category that is not an inherited member name; for
      such a name a successful call and write store the model's reply as
      the note's metadata and answer 200, where Extract answers 400. The
      model call then carries no usable schema, which only the call
      outcome, a parameter here, can reflect. */
  function ExtractAsWritten(req: ExtractRequest, call: Result<ExtractReply, LlmError>, guard: LinkGuard,
                            enhancer: Option<Enhancement>, notes: Store, writeFails: bool): (r: (Response<ActionResult>, Store))
    ensures req.category !in ObjectPrototypeMembers ==> r == Extract(req, call, guard, enhancer, notes, writeFails)
    ensures req.noteId != [] && req.content != [] && req.category in ObjectPrototypeMembers && call.Success? && !writeFails ==>
      && r.0 == Ok(MetadataResult(ExtractedMetadata(req.category, call.value, guard, enhancer)))
      && Extract(req, call, guard, enhancer, notes, writeFails) == (Error(400, "Invalid category"), notes)
  {
    assert req.category in ObjectPrototypeMembers ==> req.category !in {"journal", "misc"} && LookupSchema(req.category).None?;
    ExtractGuarded(req, !LookupSchemaAsWritten(req.category).Undefined?, call, guard, enhancer, notes, writeFails)
  }

  /** What an extraction stores is what it returns, and it touches nothing
      but the note's metadata column. */
  lemma ExtractStoresWhatItReturns(req: ExtractRequest, call: Result<ExtractReply, LlmError>, guard: LinkGuard,
                                   enhancer: Option<Enhancement>, notes: Store, writeFails: bool)
    requires req.noteId in notes
    requires Extract(req, call, guard, enhancer, notes, writeFails).0.status == 200
    requires req.category !in {"journal", "misc"}
    ensures var (resp, notes') := Extract(req, call, guard, enhancer, notes, writeFails);
      notes'[req.noteId] == notes[req.noteId].(metadata := resp.body.value.metadata)
  {
  }

  // ----- update -----

  /** The `metadata` member of an update body. */
  datatype MetadataArg = NoMetadata | NotAnObject | ObjectArg(metadata: Metadata)

  /** The update action: replaces the note's metadata column wholesale. */
  function Update(noteId: string, arg: MetadataArg, notes: Store, writeFails: bool): (r: (Response<ActionResult>, Store))
    ensures noteId == [] ==> r == (Error(400, "Missing note_id"), notes)
    ensures noteId != [] && !arg.ObjectArg? ==> r == (Error(400, "Missing or invalid metadata"), notes)
    ensures r.0.status != 200 ==> r.1 == notes
    ensures r.0.status == 200 <==> noteId != [] && arg.ObjectArg? && !writeFails
    ensures r.0.status == 200 ==>
      (r.0 == Ok(Done) && r.1.Keys == notes.Keys
       && (forall k :: k in notes && k != noteId ==> r.1[k] == notes[k])
       && (noteId in notes ==> r.1[noteId] == notes[noteId].(metadata := arg.metadata)))
  {
    if noteId == [] then (Error(400, "Missing note_id"), notes)
    else if !arg.ObjectArg? then (Error(400, "Missing or invalid metadata"), notes)
    else match UpdateNoteMetadata(notes, noteId, MetadataPatch(arg.metadata), writeFails)
      case Failure(_) => (Error(500, InternalServerError), notes)
      case Success(notes') => (Ok(Done), notes')
  }

  // ----- update_meeting -----

  /** How the fetch and the write for one id went. */
  datatype StepFault = NoFault | FetchFault | UpdateFault

  /** The fault for the i-th id; ids past the end of faults meet none. */
  function FaultAt(faults: seq<StepFault>, i: nat): StepFault {
    if i < |faults| then faults[i] else NoFault
  }

  /** `{ ...metadata, title, date, time }` */
  function MeetingFields(m: Metadata, title: string, date: string, time: string): (r: Metadata)
    ensures r.Keys == m.Keys + {"title", "date", "time"}
    ensures r["title"] == Str(title) && r["date"] == Str(date) && r["time"] == Str(time)
    ensures forall k :: k in m && k !in {"title", "date", "time"} ==> r[k] == m[k]
  {
    m["title" := Str(title)]["date" := Str(date)]["time" := Str(time)]
  }

  /** Merging the same fields twice is merging them once. */
  lemma MeetingFieldsIdempotent(m: Metadata, title: string, date: string, time: string)
    ensures MeetingFields(MeetingFields(m, title, date, time), title, date, time) == MeetingFields(m, title, date, time)
  {
  }

  /** Whether the i-th id gets updated: its fetch finds the note (a live one
      when onlyLive) and neither step fails. */
  predicate StepSucceeds(ids: seq<string>, faults: seq<StepFault>, notes: Store, onlyLive: bool, i: nat)
    requires i < |ids|
  {
    ids[i] in notes && (!onlyLive || IsLive(notes[ids[i]])) && FaultAt(faults, i) == NoFault
  }

  /** How many of the first n ids get updated. */
  function SucceededAmong(ids: seq<string>, faults: seq<StepFault>, notes: Store, onlyLive: bool, n: nat): (c: nat)
    requires n <= |ids|
    ensures c <= n
  {
    if n == 0 then 0
    else SucceededAmong(ids, faults, notes, onlyLive, n - 1) + (if StepSucceeds(ids, faults, notes, onlyLive, n - 1) then 1 else 0)
  }

  /** Whether some of the first n ids that name k get updated. */
  predicate TouchedAmong(ids: seq<string>, faults: seq<StepFault>, notes: Store, onlyLive: bool, n: nat, k: string)
    requires n <= |ids|
  {
    exists j :: 0 <= j < n && ids[j] == k && StepSucceeds(ids, faults, notes, onlyLive, j)
  }

  /** The notes after the update_meeting loop: every note that some id
      naming it got through carries the three meeting fields over its
      previous metadata; every other note is as it was. */
  function MeetingStore(ids: seq<string>, title: string, date: string, time: string,
                        faults: seq<StepFault>, onlyLive: bool, notes: Store): (r: Store)
  {
    map k | k in notes ::
      if TouchedAmong(ids, faults, notes, onlyLive, |ids|, k)
      then notes[k].(metadata := MeetingFields(notes[k].metadata, title, date, time))
      else notes[k]
  }

  /** The update_meeting loop: for each id, fetch the note (only a live one
      when onlyLive), merge title, date and time into its metadata and
      write it back; a failed fetch or write skips the id. The count is
      the number of ids that went through, every updated note carries the
      three fields over its previous metadata, and no other note or
      column changes. */
  method UpdateMeeting(ids: seq<string>, title: string, date: string, time: string,
                       faults: seq<StepFault>, onlyLive: bool, notes: Store) returns (count: nat, notes': Store)
    ensures count == SucceededAmong(ids, faults, notes, onlyLive, |ids|)
    ensures count <= |ids|
    ensures notes' == MeetingStore(ids, title, date, time, faults, onlyLive, notes)
    ensures notes'.Keys == notes.Keys
    ensures forall k :: k in notes ==>
      notes'[k] == if TouchedAmong(ids, faults, notes, onlyLive, |ids|, k)
                   then notes[k].(metadata := MeetingFields(notes[k].metadata, title, date, time))
                   else notes[k]
  {
    count := 0;
    notes' := notes;
    var i := 0;
    while i < |ids|
      invariant 0 <= i <= |ids|
      invariant count == SucceededAmong(ids, faults, notes, onlyLive, i)
      invariant notes'.Keys == notes.Keys
      invariant forall k :: k in notes ==>
        notes'[k] == if TouchedAmong(ids, faults, notes, onlyLive, i, k)
                     then notes[k].(metadata := MeetingFields(notes[k].metadata, title, date, time))
                     else notes[k]
    {
      var id := ids[i];
      if id in notes' && (!onlyLive || IsLive(notes'[id])) && FaultAt(faults, i) != FetchFault {
        var merged := MeetingFields(notes'[id].metadata, title, date, time);
        if FaultAt(faults, i) != UpdateFault {
          MeetingFieldsIdempotent(notes[id].metadata, title, date, time);
          notes' := notes'[id := notes'[id].(metadata := merged)];
          count := count + 1;
        }
      }
      TouchedStep(ids, faults, notes, onlyLive, i);
      i := i + 1;
    }
    IsMeetingStore(ids, title, date, time, faults, onlyLive, notes, notes');
  }

  lemma IsMeetingStore(ids: seq<string>, title: string, date: string, time: string,
                       faults: seq<StepFault>, onlyLive: bool, notes: Store, notes': Store)
    requires notes'.Keys == notes.Keys
    requires forall k :: k in notes ==>
      notes'[k] == if TouchedAmong(ids, faults, notes, onlyLive, |ids|, k)
                   then notes[k].(metadata := MeetingFields(notes[k].metadata, title, date, time))
                   else notes[k]
    ensures notes' == MeetingStore(ids, title, date, time, faults, onlyLive, notes)
  {
  }

  /** One more id touches k exactly when the earlier ids did or the new one
      names k and goes through. */
  lemma TouchedStep(ids: seq<string>, faults: seq<StepFault>, notes: Store, onlyLive: bool, n: nat)
    requires n < |ids|
    ensures forall k :: TouchedAmong(ids, faults, notes, onlyLive, n + 1, k) <==>
      TouchedAmong(ids, faults, notes, onlyLive, n, k) || (k == ids[n] && StepSucceeds(ids, faults, notes, onlyLive, n))
  {
    forall k
      ensures TouchedAmong(ids, faults, notes, onlyLive, n + 1, k) ==>
        TouchedAmong(ids, faults, notes, onlyLive, n, k) || (k == ids[n] && StepSucceeds(ids, faults, notes, onlyLive, n))
    {
      if TouchedAmong(ids, faults, notes, onlyLive, n + 1, k) {
        var j :| 0 <= j < n + 1 && ids[j] == k && StepSucceeds(ids, faults, notes, onlyLive, j);
        if j < n {
          assert TouchedAmong(ids, faults, notes, onlyLive, n, k);
        }
      }
    }
  }

  // ----- task_completion -----

  /** The task_completion action: completed inserts the id (a duplicate
      insert is ignored), otherwise the id's completion is deleted; any
      other database error is a 500 and changes nothing. */
  function TaskCompletion(noteId: string, completed: bool, completions: set<string>, dbFails: bool): (r: (Response<ActionResult>, set<string>))
    ensures noteId == [] ==> r == (Error(400, "Missing note_id"), completions)
    ensures r.0.status != 200 ==> r.1 == completions
    ensures r.0.status == 200 <==> noteId != [] && !dbFails
    ensures r.0.status == 200 ==> r.0 == Ok(Done) && (noteId in r.1 <==> completed) && r.1 - {noteId} == completions - {noteId}
  {
    if noteId == [] then (Error(400, "Missing note_id"), completions)
    else if dbFails then (Error(500, InternalServerError), completions)
    else if completed then (Ok(Done), completions + {noteId})
    else (Ok(Done), completions - {noteId})
  }

  /** Marking twice is marking once, and marking then unmarking restores a
      task that was not complete. */
  lemma TaskCompletionIdempotent(noteId: string, completed: bool, s: set<string>)
    requires noteId != []
    ensures var s1 := TaskCompletion(noteId, completed, s, false).1;
      TaskCompletion(noteId, completed, s1, false).1 == s1
    ensures noteId !in s ==> TaskCompletion(noteId, false, TaskCompletion(noteId, true, s, false).1, false).1 == s
  {
  }

  // ----- task_due_date -----

  /** The task_due_date action: fetch the note (a live one when onlyLive),
      merge due_date into its metadata and write it back. A failed fetch,
      including a missing note, or a failed write is a 500. */
  function TaskDueDate(noteId: string, dueDate: string, notes: Store, onlyLive: bool, fetchFails: bool, writeFails: bool): (r: (Response<ActionResult>, Store))
    ensures noteId == [] || dueDate == [] ==> r == (Error(400, "Missing note_id or due_date"), notes)
    ensures r.0.status != 200 ==> r.1 == notes
    ensures r.0.status == 200 <==>
      noteId != [] && dueDate != [] && noteId in notes && (!onlyLive || IsLive(notes[noteId])) && !fetchFails && !writeFails
    ensures r.0.status == 200 ==>
      (r.0 == Ok(Done) && r.1.Keys == notes.Keys
       && (forall k :: k in notes && k != noteId ==> r.1[k] == notes[k])
       && r.1[noteId] == notes[noteId].(metadata := notes[noteId].metadata["due_date" := Str(dueDate)]))
  {
    if noteId == [] || dueDate == [] then (Error(400, "Missing note_id or due_date"), notes)
    else if noteId !in notes || (onlyLive && !IsLive(notes[noteId])) || fetchFails then (Error(500, InternalServerError), notes)
    else if writeFails then (Error(500, InternalServerError), notes)
    else (Ok(Done), notes[noteId := notes[noteId].(metadata := notes[noteId].metadata["due_date" := Str(dueDate)])])
  }

  // ----- soft_delete -----

  /** The soft_delete action: stamps deleted_at on the note if it is still
      live; an already deleted or missing note is left as it is and the
      answer is still success. */
  function SoftDelete(noteId: string, notes: Store, now: int, writeFails: bool): (r: (Response<ActionResult>, Store))
    ensures noteId == [] ==> r == (Error(400, "Missing note_id"), notes)
    ensures r.0.status != 200 ==> r.1 == notes
    ensures r.0.status == 200 <==> noteId != [] && !writeFails
    ensures r.0.status == 200 ==>
      (r.0 == Ok(Done) && r.1.Keys == notes.Keys
       && (forall k :: k in notes && k != noteId ==> r.1[k] == notes[k])
       && (noteId in notes && IsLive(notes[noteId]) ==> r.1[noteId] == notes[noteId].(deletedAt := Some(now)))
       && (noteId in notes && !IsLive(notes[noteId]) ==> r.1[noteId] == notes[noteId]))
  {
    if noteId == [] then (Error(400, "Missing note_id"), notes)
    else if writeFails then (Error(500, InternalServerError), notes)
    else (Ok(Done), UpdateWhere(notes, noteId, Patch(None, None, Some(now)), true))
  }

  /** Deleting again later keeps the first deletion time. */
  lemma SoftDeleteKeepsFirstStamp(noteId: string, notes: Store, t1: int, t2: int)
    requires noteId != []
    ensures var once := SoftDelete(noteId, notes, t1, false).1;
      SoftDelete(noteId, once, t2, false).1 == once
  {
  }

  // ----- dispatcher -----

  /** The body of a metadata request, by its `action`. `Unreadable` is a
      body that is absent or not JSON: reading its action throws. */
  datatype ActionBody =
    | Unreadable
    | NoAction
    | ExtractAction(extract: ExtractRequest)
    | UpdateAction(updateId: string, metadata: MetadataArg)
    | UpdateMeetingAction(noteIds: Option<seq<string>>, title: string, date: string, time: string)
    | TaskCompletionAction(completionId: string, completed: bool)
    | TaskDueDateAction(dueId: string, dueDate: string)
    | SoftDeleteAction(deleteId: string)
    | UnknownAction(name: string)

  /** What the outside world does during one request: the extraction call
      and enhancer, whether reads and writes fail, the per-id faults of
      update_meeting, and the clock. */
  datatype Oracles = Oracles(
    extractCall: Result<ExtractReply, LlmError>,
    enhancer: Option<Enhancement>,
    fetchFails: bool,
    writeFails: bool,
    faults: seq<StepFault>,
    now: int)

  /** The update_meeting validation: a non-empty id array and all three
      fields. */
  function MeetingRequestError(noteIds: Option<seq<string>>, title: string, date: string, time: string): (e: Option<string>)
    ensures e.None? <==> noteIds.Some? && noteIds.value != [] && title != [] && date != [] && time != []
  {
    if noteIds.None? || noteIds.value == [] then Some("Missing or invalid note_ids array")
    else if title == [] || date == [] || time == [] then Some("Missing title, date, or time")
    else None
  }

  /** The dispatcher. Only POST is served; an unreadable body ends in the
      catch-all 500; a missing or unknown action is a 400. Every failed request leaves both tables unchanged, and no
      action but task_completion touches the completions. */
  method HandleMetadata(verb: string, body: ActionBody, o: Oracles, db: Db) returns (resp: Response<ActionResult>, db': Db)
    ensures verb != "POST" ==> resp == Error(405, MethodNotAllowed)
    ensures verb == "POST" && body.Unreadable? ==> resp == Error(500, InternalServerError) && db' == db
    ensures verb == "POST" && body.NoAction? ==> resp == Error(400, "Missing action")
    ensures verb == "POST" && body.UnknownAction? ==> resp == Error(400, "Invalid action")
    ensures resp.status != 200 ==> db' == db
    ensures !body.TaskCompletionAction? ==> db'.completions == db.completions
    ensures body.TaskCompletionAction? ==> db'.notes == db.notes
    ensures verb == "POST" && body.ExtractAction? ==>
      (resp, db'.notes) == Extract(body.extract, o.extractCall, LinkIsString, o.enhancer, db.notes, o.writeFails)
    ensures verb == "POST" && body.UpdateAction? ==>
      (resp, db'.notes) == Update(body.updateId, body.metadata, db.notes, o.writeFails)
    ensures verb == "POST" && body.UpdateMeetingAction? && MeetingRequestError(body.noteIds, body.title, body.date, body.time).Some? ==>
      resp == Error(400, MeetingRequestError(body.noteIds, body.title, body.date, body.time).value)
    ensures verb == "POST" && body.UpdateMeetingAction? && MeetingRequestError(body.noteIds, body.title, body.date, body.time).None? ==>
      && resp == Ok(UpdatedCount(SucceededAmong(body.noteIds.value, o.faults, db.notes, true, |body.noteIds.value|)))
      && db'.notes == MeetingStore(body.noteIds.value, body.title, body.date, body.time, o.faults, true, db.notes)
    ensures verb == "POST" && body.TaskCompletionAction? ==>
      (resp, db'.completions) == TaskCompletion(body.completionId, body.completed, db.completions, o.writeFails)
    ensures verb == "POST" && body.TaskDueDateAction? ==>
      (resp, db'.notes) == TaskDueDate(body.dueId, body.dueDate, db.notes, true, o.fetchFails, o.writeFails)
    ensures verb == "POST" && body.SoftDeleteAction? ==>
      (resp, db'.notes) == SoftDelete(body.deleteId, db.notes, o.now, o.writeFails)
  {
    db' := db;
    if verb != "POST" {
      resp := Error(405, MethodNotAllowed);
      return;
    }
    match body {
      case Unreadable =>
        resp := Error(500, InternalServerError);
      case NoAction =>
        resp := Error(400, "Missing action");
      case UnknownAction(_) =>
        resp := Error(400, "Invalid action");
      case ExtractAction(req) =>
        var r := Extract(req, o.extractCall, LinkIsString, o.enhancer, db.notes, o.writeFails);
        resp := r.0;
        db' := db.(notes := r.1);
      case UpdateAction(id, arg) =>
        var r := Update(id, arg, db.notes, o.writeFails);
        resp := r.0;
        db' := db.(notes := r.1);
      case UpdateMeetingAction(ids, title, date, time) =>
        var e := MeetingRequestError(ids, title, date, time);
        if e.Some? {
          resp := Error(400, e.value);
        } else {
          var count, notes' := UpdateMeeting(ids.value, title, date, time, o.faults, true, db.notes);
          resp := Ok(UpdatedCount(count));
          db' := db.(notes := notes');
        }
      case TaskCompletionAction(id, completed) =>
        var r := TaskCompletion(id, completed, db.completions, o.writeFails);
        resp := r.0;
        db' := db.(completions := r.1);
      case TaskDueDateAction(id, due) =>
        var r := TaskDueDate(id, due, db.notes, true, o.fetchFails, o.writeFails);
        resp := r.0;
        db' := db.(notes := r.1);
      case SoftDeleteAction(id) =>
        var r := SoftDelete(id, db.notes, o.now, o.writeFails);
        resp := r.0;
        db' := db.(notes := r.1);
    }
  }

  // ----- single-purpose endpoints -----

  /** The shared frame of the single-purpose endpoints: POST only, and a
      body that does not parse is a 500; otherwise the action's answer. */
  function Endpoint<T>(verb: string, body: Option<T>, action: T -> (Response<ActionResult>, Db), db: Db): (r: (Response<ActionResult>, Db))
    ensures verb != "POST" ==> r == (Error(405, MethodNotAllowed), db)
    ensures verb == "POST" && body.None? ==> r == (Error(500, InternalServerError), db)
    ensures verb == "POST" && body.Some? ==> r == action(body.value)
  {
    if verb != "POST" then (Error(405, MethodNotAllowed), db)
    else match body
      case None => (Error(500, InternalServerError), db)
      case Some(b) => action(b)
  }

  /** The stand-alone extraction endpoint, which tests the link for
      truthiness instead of for a string. */
  function ExtractEndpoint(verb: string, body: Option<ExtractRequest>, call: Result<ExtractReply, LlmError>,
                           enhancer: Option<Enhancement>, db: Db, writeFails: bool): (r: (Response<ActionResult>, Db))
    ensures r.0.status != 200 ==> r.1 == db
    ensures verb == "POST" && body.Some? ==>
      (r.0, r.1.notes) == Extract(body.value, call, LinkIsTruthy, enhancer, db.notes, writeFails) && r.1.completions == db.completions
  {
    Endpoint(verb, body, (req: ExtractRequest) =>
      var x := Extract(req, call, LinkIsTruthy, enhancer, db.notes, writeFails); (x.0, db.(notes := x.1)), db)
  }

  /** The two link tests disagree on exactly two values: an empty string,
      which only the dispatcher hands to the enhancer, and `true`, which
      only the stand-alone endpoint does. */
  lemma LinkGuardsDiffer(m: Metadata)
    ensures HasLink(m, LinkIsString) != HasLink(m, LinkIsTruthy) <==>
      "link" in m && (m["link"] == Str("") || m["link"] == Bool(true))
  {
  }

  datatype UpdateRequest = UpdateRequest(noteId: string, metadata: MetadataArg)

  /** The stand-alone metadata replacement endpoint. */
  function UpdateEndpoint(verb: string, body: Option<UpdateRequest>, db: Db, writeFails: bool): (r: (Response<ActionResult>, Db))
    ensures r.0.status != 200 ==> r.1 == db
    ensures verb == "POST" && body.Some? ==>
      (r.0, r.1.notes) == Update(body.value.noteId, body.value.metadata, db.notes, writeFails) && r.1.completions == db.completions
  {
    Endpoint(verb, body, (req: UpdateRequest) =>
      var x := Update(req.noteId, req.metadata, db.notes, writeFails); (x.0, db.(notes := x.1)), db)
  }

  datatype CompletionRequest = CompletionRequest(noteId: string, completed: bool)

  /** The stand-alone task completion endpoint. */
  function TaskCompletionEndpoint(verb: string, body: Option<CompletionRequest>, db: Db, dbFails: bool): (r: (Response<ActionResult>, Db))
    ensures r.0.status != 200 ==> r.1 == db
    ensures r.1.notes == db.notes
    ensures verb == "POST" && body.Some? ==>
      (r.0, r.1.completions) == TaskCompletion(body.value.noteId, body.value.completed, db.completions, dbFails)
  {
    Endpoint(verb, body, (req: CompletionRequest) =>
      var x := TaskCompletion(req.noteId, req.completed, db.completions, dbFails); (x.0, db.(completions := x.1)), db)
  }

  datatype DueDateRequest = DueDateRequest(noteId: string, dueDate: string)

  /** The edge due-date endpoint, whose fetch does not skip deleted notes. */
  function TaskDueDateEndpoint(verb: string, body: Option<DueDateRequest>, db: Db, fetchFails: bool, writeFails: bool): (r: (Response<ActionResult>, Db))
    ensures r.0.status != 200 ==> r.1 == db
    ensures verb == "POST" && body.Some? ==>
      (r.0, r.1.notes) == TaskDueDate(body.value.noteId, body.value.dueDate, db.notes, false, fetchFails, writeFails)
      && r.1.completions == db.completions
  {
    Endpoint(verb, body, (req: DueDateRequest) =>
      var x := TaskDueDate(req.noteId, req.dueDate, db.notes, false, fetchFails, writeFails); (x.0, db.(notes := x.1)), db)
  }

  datatype MeetingRequest = MeetingRequest(noteIds: Option<seq<string>>, title: string, date: string, time: string)

  /** The stand-alone meeting endpoint, whose fetch does not skip deleted
      notes. */
  method UpdateMeetingEndpoint(verb: string, body: Option<MeetingRequest>, faults: seq<StepFault>, db: Db)
    returns (resp: Response<ActionResult>, db': Db)
    ensures resp.status != 200 ==> db' == db
    ensures db'.completions == db.completions
    ensures verb != "POST" ==> resp == Error(405, MethodNotAllowed)
    ensures verb == "POST" && body.None? ==> resp == Error(500, InternalServerError)
    ensures verb == "POST" && body.Some? && MeetingRequestError(body.value.noteIds, body.value.title, body.value.date, body.value.time).Some? ==>
      resp == Error(400, MeetingRequestError(body.value.noteIds, body.value.title, body.value.date, body.value.time).value)
    ensures verb == "POST" && body.Some? && MeetingRequestError(body.value.noteIds, body.value.title, body.value.date, body.value.time).None? ==>
      && resp == Ok(UpdatedCount(SucceededAmong(body.value.noteIds.value, faults, db.notes, false, |body.value.noteIds.value|)))
      && db'.notes == MeetingStore(body.value.noteIds.value, body.value.title, body.value.date, body.value.time, faults, false, db.notes)
  {
    db' := db;
    if verb != "POST" {
      resp := Error(405, MethodNotAllowed);
    } else if body.None? {
      resp := Error(500, InternalServerError);
    } else {
      var req := body.value;
      var e := MeetingRequestError(req.noteIds, req.title, req.date, req.time);
      if e.Some? {
        resp := Error(400, e.value);
      } else {
        var count, notes' := UpdateMeeting(req.noteIds.value, req.title, req.date, req.time, faults, false, db.notes);
        resp := Ok(UpdatedCount(count));
        db' := db.(notes := notes');
      }
    }
  }
}

=== FILE: middleware.dfy ===
/** The security wrapper every serverless endpoint runs behind: environment
    check, a fixed-window rate limiter keyed by client and endpoint (answering
    429 as in section 4 of RFC 6585), request size, method and content
    validation, bearer authentication, and the mapping of failures to
    status codes. */
module Middleware {
  import opened Wrappers
  import opened Seqs
  import opened Text
  import opened Numbers
  import opened Notes
  import opened Http
  import opened FirebaseAuth

  const MaxRequestSize: int := 1024 * 1024
  const MaxContentLength: nat := 50000
  const WindowMs: int := 60 * 1000
  /** How long past its window an entry survives the periodic cleanup. */
  const CleanupGraceMs: int := 60000
  const CleanupIntervalMs: int := 5 * 60 * 1000

  // ----- rate limiting -----

  /** Requests per minute for an endpoint URL; unlisted URLs get 100. */
  function RateLimit(endpoint: string): (n: nat)
    ensures n in {30, 60, 120, 10, 100}
    ensures endpoint !in {"/api/classify", "/api/search", "/api/metadata", "/api/llm-costs"} ==> n == 100
  {
    if endpoint == "/api/classify" then 30
    else if endpoint == "/api/search" then 60
    else if endpoint == "/api/metadata" then 120
    else if endpoint == "/api/llm-costs" then 10
    else 100
  }

  /** One client's window on one endpoint. */
  datatype Entry = Entry(requests: nat, resetTime: int)

  type Limiter = map<string, Entry>

  /** `${clientIP}:${endpoint}` */
  function Key(ip: string, endpoint: string): string {
    ip + ":" + endpoint
  }

  /** The X-RateLimit-* headers of a counted request. */
  datatype RateHeaders = RateHeaders(limit: nat, remaining: int, reset: int)

  /** A request opening a new window, counted in the current one, or
      refused with the seconds left in the window. */
  datatype Admission = Opened | Counted(headers: RateHeaders) | Limited(retryAfter: int)

  /** Whether the key's window is absent or over at `now`. */
  predicate WindowOver(store: Limiter, key: string, now: int) {
    key !in store || now > store[key].resetTime
  }

  /** One pass through the limiter. Only the request's own key changes; a
      refused request changes nothing; an admitted one leaves the count at
      or under the limit. */
  function Admit(store: Limiter, ip: string, endpoint: string, now: int): (r: (Admission, Limiter))
    ensures var key := Key(ip, endpoint);
      && (r.0.Opened? <==> WindowOver(store, key, now))
      && (r.0.Opened? ==> r.1 == store[key := Entry(1, now + WindowMs)])
      && (r.0.Limited? <==> !WindowOver(store, key, now) && store[key].requests >= RateLimit(endpoint))
      && (r.0.Limited? ==> r.1 == store && r.0.retryAfter >= 0)
      && (r.0.Counted? ==>
            && r.1 == store[key := store[key].(requests := store[key].requests + 1)]
            && r.1[key].requests <= RateLimit(endpoint)
            && r.0.headers.remaining == RateLimit(endpoint) - r.1[key].requests >= 0)
  {
    var key := Key(ip, endpoint);
    var limit := RateLimit(endpoint);
    if WindowOver(store, key, now) then
      (Opened, store[key := Entry(1, now + WindowMs)])
    else if store[key].requests >= limit then
      (Limited(CeilDiv(store[key].resetTime - now, 1000)), store)
    else
      var e := store[key].(requests := store[key].requests + 1);
      (Counted(RateHeaders(limit, limit - e.requests, CeilDiv(e.resetTime, 1000))), store[key := e])
  }

  /** A run of requests from one client to one endpoint: how many were
      admitted, and the limiter afterwards. */
  function Burst(store: Limiter, ip: string, endpoint: string, times: seq<int>): (r: (nat, Limiter))
  {
    if |times| == 0 then (0, store)
    else
      var (n, s) := Burst(store, ip, endpoint, times[..|times| - 1]);
      var (a, s') := Admit(s, ip, endpoint, times[|times| - 1]);
      (if a.Limited? then n else n + 1, s')
  }

  /** Within one window the limiter admits at most the endpoint's limit:
      starting from no entry, a non-decreasing run of requests that all fall
      within a minute of the first is admitted at most RateLimit times, and
      the entry counts exactly the admitted ones. */
  lemma {:induction false} WindowAdmitsAtMostLimit(store: Limiter, ip: string, endpoint: string, times: seq<int>)
    requires Key(ip, endpoint) !in store
    requires |times| > 0
    requires forall i :: 0 <= i < |times| ==> times[0] <= times[i] <= times[0] + WindowMs
    ensures var (n, s) := Burst(store, ip, endpoint, times);
      n <= RateLimit(endpoint) && Key(ip, endpoint) in s && s[Key(ip, endpoint)] == Entry(n, times[0] + WindowMs)
  {
    var key := Key(ip, endpoint);
    var init := times[..|times| - 1];
    if |init| == 0 {
      assert Burst(store, ip, endpoint, init) == (0, store);
    } else {
      WindowAdmitsAtMostLimit(store, ip, endpoint, init);
      var (n, s) := Burst(store, ip, endpoint, init);
      assert s[key] == Entry(n, times[0] + WindowMs);
      assert !WindowOver(s, key, times[|times| - 1]);
    }
  }

  /** The periodic cleanup: drops entries more than a minute past their
      window. */
  function Cleanup(store: Limiter, now: int): (r: Limiter)
    ensures forall k :: k in r <==> k in store && now <= store[k].resetTime + CleanupGraceMs
    ensures forall k :: k in r ==> r[k] == store[k]
  {
    map k | k in store && now <= store[k].resetTime + CleanupGraceMs :: store[k]
  }

  /** Cleanup never changes a later decision: every entry it drops would
      have been restarted anyway. */
  lemma CleanupUnobservable(store: Limiter, now: int, later: int, ip: string, endpoint: string)
    requires now <= later
    ensures Admit(Cleanup(store, now), ip, endpoint, later).0 == Admit(store, ip, endpoint, later).0
    ensures var key := Key(ip, endpoint);
      Admit(Cleanup(store, now), ip, endpoint, later).1[key] == Admit(store, ip, endpoint, later).1[key]
  {
  }

  // ----- request validation -----

  /** A parsed JSON request body. */
  datatype Json =
    | JNull
    | JBool(b: bool)
    | JNum(n: real)
    | JStr(s: string)
    | JArr(items: seq<Json>)
    | JObj(members: seq<(string, Json)>)

  predicate JsonTruthy(v: Json) {
    match v
    case JNull => false
    case JBool(b) => b
    case JNum(n) => n != 0.0
    case JStr(s) => s != []
    case _ => true
  }

  /** The member at i is the one `JSON.parse` keeps for its name: no later
      member repeats the name. */
  predicate Kept(members: seq<(string, Json)>, i: int)
    requires 0 <= i < |members|
  {
    forall j :: i < j < |members| ==> members[j].0 != members[i].0
  }

  /** A member of an object; with a repeated name the last one counts, as
      in `JSON.parse`. */
  function Member(members: seq<(string, Json)>, name: string): (r: Option<Json>)
    ensures r.Some? ==> exists i :: 0 <= i < |members| && members[i] == (name, r.value) && Kept(members, i)
    ensures r.None? <==> forall i :: 0 <= i < |members| ==> members[i].0 != name
  {
    if |members| == 0 then None
    else if members[|members| - 1].0 == name then Some(members[|members| - 1].1)
    else
      var r := Member(members[..|members| - 1], name);
      assert r.Some? ==> exists i :: 0 <= i < |members| && members[i] == (name, r.value) && Kept(members, i) by {
        if r.Some? {
          var i :| 0 <= i < |members| - 1 && members[..|members| - 1][i] == (name, r.value) && Kept(members[..|members| - 1], i);
          assert members[i] == (name, r.value);
          assert Kept(members, i);
        }
      }
      r
  }

  /** The kept member is what a lookup of its name finds. */
  lemma KeptIsFound(members: seq<(string, Json)>, i: int)
    requires 0 <= i < |members| && Kept(members, i)
    ensures Member(members, members[i].0) == Some(members[i].1)
  {
    var r := Member(members, members[i].0);
    if r.Some? {
      var k :| 0 <= k < |members| && members[k] == (members[i].0, r.value) && Kept(members, k);
      assert k == i;
    }
  }

  /** Whether some string anywhere in the value, as `JSON.parse` leaves it,
      satisfies the pattern test: a member shadowed by a later one with the
      same name is not looked at. `dangerous` stands for the four injection
      patterns. */
  predicate AnyString(v: Json, dangerous: string -> bool)
    decreases v
  {
    match v
    case JStr(s) => dangerous(s)
    case JArr(items) => exists i :: 0 <= i < |items| && AnyString(items[i], dangerous)
    case JObj(members) => exists i :: 0 <= i < |members| && Kept(members, i) && AnyString(members[i].1, dangerous)
    case _ => false
  }

  /** An object is rejected exactly when one of the values its names look
      up to is. */
  lemma AnyStringOfObject(members: seq<(string, Json)>, dangerous: string -> bool)
    ensures AnyString(JObj(members), dangerous) <==>
      exists name :: Member(members, name).Some? && AnyString(Member(members, name).value, dangerous)
  {
    if AnyString(JObj(members), dangerous) {
      var i :| 0 <= i < |members| && Kept(members, i) && AnyString(members[i].1, dangerous);
      KeptIsFound(members, i);
    }
    if exists name :: Member(members, name).Some? && AnyString(Member(members, name).value, dangerous) {
      var name :| Member(members, name).Some? && AnyString(Member(members, name).value, dangerous);
      var v := Member(members, name).value;
      var i :| 0 <= i < |members| && members[i] == (name, v) && Kept(members, i);
      assert AnyString(members[i].1, dangerous);
    }
  }

  /** A value shadowed by a later member of the same name is never
      inspected. */
  lemma ShadowedIsIgnored(name: string, bad: string, good: string, dangerous: string -> bool)
    requires dangerous(bad) && !dangerous(good)
    ensures !AnyString(JObj([(name, JStr(bad)), (name, JStr(good))]), dangerous)
  {
    var members := [(name, JStr(bad)), (name, JStr(good))];
    assert members[1].0 == members[0].0;
    assert !Kept(members, 0);
  }

  /** An error thrown inside the wrapper: a SecurityError with its status,
      an ordinary Error with its message, or a thrown non-Error value. */
  datatype Thrown = SecurityError(message: string, statusCode: nat) | Plain(message: string) | NotAnError

  /** `validatePostContent` */
  function ValidatePostContent(body: Json, dangerous: string -> bool): (r: Option<Thrown>)
    ensures r.None? <==>
      && (body.JObj? || body.JArr?)
      && !(body.JObj? && ContentTooLong(body))
      && !AnyString(body, dangerous)
    ensures !(body.JObj? || body.JArr?) ==> r == Some(SecurityError("Invalid request body", 400))
    ensures body.JObj? && ContentTooLong(body) ==> r == Some(SecurityError("Content too long", 400))
    ensures (body.JObj? || body.JArr?) && !(body.JObj? && ContentTooLong(body)) && AnyString(body, dangerous) ==>
      r == Some(SecurityError("Invalid content detected", 400))
    ensures r.Some? ==> r.value.SecurityError? && r.value.statusCode == 400
  {
    if !(body.JObj? || body.JArr?) then Some(SecurityError("Invalid request body", 400))
    else if body.JObj? && ContentTooLong(body) then Some(SecurityError("Content too long", 400))
    else if AnyString(body, dangerous) then Some(SecurityError("Invalid content detected", 400))
    else None
  }

  /** The body's `content` is a string longer than 50000 UTF-16 code units. */
  predicate ContentTooLong(body: Json)
    requires body.JObj?
  {
    var c := Member(body.members, "content");
    c.Some? && c.value.JStr? && Utf16Length(c.value.s) > MaxContentLength
  }

  const AllowedMethods: seq<string> := ["GET", "POST", "PUT", "DELETE", "PATCH"]

  /** `validateRequest`: the size limit (an unparsable length passes), the
      method list, then the content rules for a POST with a truthy body. */
  function ValidateRequest(contentLength: Option<int>, verb: string, body: Option<Json>, dangerous: string -> bool): (r: Option<Thrown>)
    ensures contentLength.Some? && contentLength.value > MaxRequestSize ==> r == Some(SecurityError("Request too large", 413))
    ensures !(contentLength.Some? && contentLength.value > MaxRequestSize) && verb !in AllowedMethods ==>
      r == Some(SecurityError(MethodNotAllowed, 405))
    ensures r.None? <==>
      && !(contentLength.Some? && contentLength.value > MaxRequestSize)
      && verb in AllowedMethods
      && (verb == "POST" && body.Some? && JsonTruthy(body.value) ==> ValidatePostContent(body.value, dangerous).None?)
    ensures r.Some? ==> r.value.SecurityError?
  {
    if contentLength.Some? && contentLength.value > MaxRequestSize then Some(SecurityError("Request too large", 413))
    else if verb !in AllowedMethods then Some(SecurityError(MethodNotAllowed, 405))
    else if verb == "POST" && body.Some? && JsonTruthy(body.value) then ValidatePostContent(body.value, dangerous)
    else None
  }

  // ----- client address and logging -----

  /** A header value that counts: a non-empty string. */
  function Present(h: Option<string>): Option<string> {
    if h.Some? && h.value != [] then h else None
  }

  /** `getClientIP`: the first of x-forwarded-for, x-real-ip and the socket
      address that is a non-empty string (else "unknown"), cut at the first
      comma and trimmed. */
  function ClientIP(forwardedFor: Option<string>, realIp: Option<string>, remote: Option<string>): (ip: string)
    ensures ',' !in ip
    ensures ip == [] || (!IsWhitespace(ip[0]) && !IsWhitespace(ip[|ip| - 1]))
    ensures Present(forwardedFor).Some? ==> ip == Trim(FirstField(forwardedFor.value, ','))
    ensures Present(forwardedFor).None? && Present(realIp).Some? ==> ip == Trim(FirstField(realIp.value, ','))
    ensures Present(forwardedFor).None? && Present(realIp).None? && Present(remote).Some? ==> ip == Trim(FirstField(remote.value, ','))
    ensures Present(forwardedFor).None? && Present(realIp).None? && Present(remote).None? ==> ip == "unknown"
  {
    var source :=
      if Present(forwardedFor).Some? then forwardedFor.value
      else if Present(realIp).Some? then realIp.value
      else if Present(remote).Some? then remote.value
      else "unknown";
    var first := FirstField(source, ',');
    TrimIsInfix(first);
    UnknownIsItsOwnIp();
    Trim(first)
  }

  lemma UnknownIsItsOwnIp()
    ensures Trim(FirstField("unknown", ',')) == "unknown"
  {
    assert ',' !in "unknown";
    TrimUntouched("unknown");
  }

  const Redacted: string := "[REDACTED]"
  const SensitiveFields: set<string> := {"password", "token", "key", "secret", "auth", "credential"}

  /** `sanitizeLogData`: the sensitive keys that are present are masked;
      no key is added or removed and nothing else changes. */
  function SanitizeLogData(data: map<string, Value>): (r: map<string, Value>)
    ensures r.Keys == data.Keys
    ensures forall k :: k in data && k in SensitiveFields ==> r[k] == Str(Redacted)
    ensures forall k :: k in data && k !in SensitiveFields ==> r[k] == data[k]
  {
    map k | k in data :: if k in SensitiveFields then Str(Redacted) else data[k]
  }

  /** Sanitising twice is sanitising once. */
  lemma SanitizeIdempotent(data: map<string, Value>)
    ensures SanitizeLogData(SanitizeLogData(data)) == SanitizeLogData(data)
  {
  }

  // ----- error mapping -----

  /** `handleSecurityError`: a SecurityError answers with its own status (400
      when it has none) and message; an error whose message mentions
      authentication or Unauthorized is a 401; anything else a 500. */
  function HandleSecurityError<T>(e: Thrown): (r: Response<T>)
    ensures e.SecurityError? ==> r == Error(if e.statusCode == 0 then 400 else e.statusCode, e.message)
    ensures e.Plain? && (Contains(e.message, "authentication") || Contains(e.message, "Unauthorized")) ==> r == Error(401, "Unauthorized")
    ensures r.status == 401 ==> !e.NotAnError? && (e.SecurityError? || Contains(e.message, "authentication") || Contains(e.message, "Unauthorized"))
    ensures !e.SecurityError? && !(e.Plain? && (Contains(e.message, "authentication") || Contains(e.message, "Unauthorized"))) ==>
      r == Error(500, InternalServerError)
  {
    match e
    case SecurityError(m, code) => Error(if code == 0 then 400 else code, m)
    case Plain(m) =>
      if Contains(m, "authentication") || Contains(m, "Unauthorized") then Error(401, "Unauthorized")
      else Error(500, InternalServerError)
    case NotAnError => Error(500, InternalServerError)
  }

  /** A missing or malformed Authorization header falls through to a 500,
      since its message mentions neither trigger word. */
  lemma MissingHeaderIsGeneric<T>()
    ensures HandleSecurityError<T>(Plain(MissingHeader)) == Error(500, InternalServerError)
  {
    MissingHeaderLacksAuthentication();
    MissingHeaderLacksUnauthorized();
  }

  /** The missing-header message has no 'c', so no "authentication". */
  lemma MissingHeaderLacksAuthentication()
    ensures !Contains(MissingHeader, "authentication")
  {
    assert 'c' in "authentication" && 'c' !in MissingHeader;
    AbsentCharExcludes(MissingHeader, "authentication", 'c');
  }

  /** The missing-header message has no 'U', so no "Unauthorized". */
  lemma MissingHeaderLacksUnauthorized()
    ensures !Contains(MissingHeader, "Unauthorized")
  {
    assert 'U' in "Unauthorized" && 'U' !in MissingHeader;
    AbsentCharExcludes(MissingHeader, "Unauthorized", 'U');
  }

  /** A rejected token is a 401. */
  lemma InvalidTokenIsUnauthorized<T>()
    ensures HandleSecurityError<T>(Plain(InvalidToken)) == Error(401, "Unauthorized")
  {
    assert InvalidToken[8..][..14] == "authentication";
    assert StartsWith(InvalidToken[8..], "authentication");
  }

  /** A text lacking some character of a word does not contain the word. */
  lemma AbsentCharExcludes(m: string, w: string, c: char)
    requires c in w && c !in m
    ensures !Contains(m, w)
  {
  }

  // ----- environment -----

  const RequiredEnv: seq<string> := ["OPENAI_KEY", "SUPABASE_URL", "SUPABASE_SERVICE_ROLE_KEY", "FIREBASE_PROJECT_ID", "FIREBASE_CLIENT_EMAIL", "FIREBASE_PRIVATE_KEY"]

  predicate EnvSet(env: map<string, string>, name: string) {
    name in env && env[name] != []
  }

  /** The required names that are unset, in declaration order. */
  function MissingEnv(env: map<string, string>): (r: seq<string>)
    ensures forall n :: n in r <==> n in RequiredEnv && !EnvSet(env, n)
  {
    Filter(RequiredEnv, (n: string) => !EnvSet(env, n))
  }

  /** `validateEnvironment`: fails naming every unset variable; otherwise
      returns the format warnings it logs. */
  function ValidateEnvironment(env: map<string, string>): (r: Result<seq<string>, string>)
    ensures r.Success? <==> forall n :: n in RequiredEnv ==> EnvSet(env, n)
    ensures r.Failure? ==> r.error == "Missing required environment variables: " + Join(MissingEnv(env), ", ")
    ensures r.Success? ==>
      && "OPENAI_KEY" in env && "SUPABASE_URL" in env && "FIREBASE_CLIENT_EMAIL" in env && "FIREBASE_PRIVATE_KEY" in env
      && r.value == FormatWarnings(env["OPENAI_KEY"], env["SUPABASE_URL"], env["FIREBASE_CLIENT_EMAIL"], env["FIREBASE_PRIVATE_KEY"])
  {
    var missing := MissingEnv(env);
    if |missing| > 0 then
      assert missing[0] in missing;
      Failure("Missing required environment variables: " + Join(missing, ", "))
    else
      AllSet(env);
      Success(FormatWarnings(env["OPENAI_KEY"], env["SUPABASE_URL"], env["FIREBASE_CLIENT_EMAIL"], env["FIREBASE_PRIVATE_KEY"]))
  }

  /** With nothing missing, every required variable, the four that are
      format-checked among them, is set. */
  lemma AllSet(env: map<string, string>)
    requires MissingEnv(env) == []
    ensures forall n :: n in RequiredEnv ==> EnvSet(env, n)
    ensures "OPENAI_KEY" in env && "SUPABASE_URL" in env && "FIREBASE_CLIENT_EMAIL" in env && "FIREBASE_PRIVATE_KEY" in env
  {
    assert RequiredEnv[0] in RequiredEnv && RequiredEnv[1] in RequiredEnv;
    assert RequiredEnv[4] in RequiredEnv && RequiredEnv[5] in RequiredEnv;
  }

  const KeyWarning := "OpenAI API key format may be invalid"
  const UrlWarning := "Supabase URL should use HTTPS"
  const EmailWarning := "Firebase client email format may be invalid"
  const PemWarning := "Firebase private key format may be invalid"

  /** The format warnings for a complete environment, in the order they are
      logged. */
  function FormatWarnings(openAiKey: string, supabaseUrl: string, clientEmail: string, privateKey: string): (w: seq<string>)
    ensures KeyWarning in w <==> !StartsWith(openAiKey, "sk-")
    ensures UrlWarning in w <==> !StartsWith(supabaseUrl, "https://")
    ensures EmailWarning in w <==> !Contains(clientEmail, "@")
    ensures PemWarning in w <==> !Contains(privateKey, "BEGIN PRIVATE KEY")
    ensures |w| <= 4
  {
    WarningsDistinct();
    WarnIf(!StartsWith(openAiKey, "sk-"), KeyWarning)
    + WarnIf(!StartsWith(supabaseUrl, "https://"), UrlWarning)
    + WarnIf(!Contains(clientEmail, "@"), EmailWarning)
    + WarnIf(!Contains(privateKey, "BEGIN PRIVATE KEY"), PemWarning)
  }

  /** The warning when its check fails, nothing otherwise. */
  function WarnIf(bad: bool, warning: string): (w: seq<string>)
    ensures bad ==> w == [warning]
    ensures !bad ==> w == []
  {
    if bad then [warning] else []
  }

  lemma WarningsDistinct()
    ensures KeyWarning != UrlWarning && KeyWarning != EmailWarning && KeyWarning != PemWarning
    ensures UrlWarning != EmailWarning && UrlWarning != PemWarning && EmailWarning != PemWarning
  {
    assert KeyWarning[0] != UrlWarning[0] && KeyWarning[0] != EmailWarning[0] && KeyWarning[0] != PemWarning[0];
    assert UrlWarning[0] != EmailWarning[0] && UrlWarning[0] != PemWarning[0];
    assert EmailWarning[9] != PemWarning[9];
  }

  // ----- the wrapper -----

  /** What the wrapper sees of a request. */
  datatype Request = Request(
    url: Option<string>,
    verb: string,
    forwardedFor: Option<string>,
    realIp: Option<string>,
    remote: Option<string>,
    userAgent: Option<string>,
    contentLength: Option<int>,
    body: Option<Json>,
    authorization: Option<string>)

  datatype SecurityContext = SecurityContext(user: User, clientIP: string, userAgent: string, timestamp: int)

  /** The answer: the response written, or the 429 the limiter wrote. */
  datatype Reply<+T> = Answered(response: Response<T>) | TooManyRequests(retryAfter: int) {
    function Status(): nat {
      if TooManyRequests? then 429 else response.status
    }
  }

  /** The verified user, when authentication succeeds. */
  function Authenticated(req: Request, decode: string -> Option<DecodedToken>, allowed: Option<string>): Result<User, string> {
    Authenticate(req.authorization, decode, allowed)
  }

  /** The part of `withAuth` after the limiter: validation, authentication,
      then the handler with the security context. A refused header is a
      500 as written, a refused token a 401, and the handler runs exactly
      when both checks pass. */
  function Guarded<T>(req: Request, ip: string, now: int, dangerous: string -> bool,
                      decode: string -> Option<DecodedToken>, allowed: Option<string>,
                      handler: SecurityContext -> Response<T>): (r: Response<T>)
    ensures ValidateRequest(req.contentLength, req.verb, req.body, dangerous).Some? ==>
      r == HandleSecurityError(ValidateRequest(req.contentLength, req.verb, req.body, dangerous).value)
    ensures ValidateRequest(req.contentLength, req.verb, req.body, dangerous).None? ==>
      && (GetAuthHeader(req.authorization).Failure? ==> r == Error(500, InternalServerError))
      && (GetAuthHeader(req.authorization).Success? && Authenticated(req, decode, allowed).Failure? ==> r == Error(401, "Unauthorized"))
      && (Authenticated(req, decode, allowed).Success? ==>
            r == handler(SecurityContext(Authenticated(req, decode, allowed).value, ip,
                                         if req.userAgent.Some? && req.userAgent.value != [] then req.userAgent.value else "unknown", now)))
  {
    match ValidateRequest(req.contentLength, req.verb, req.body, dangerous)
    case Some(e) => HandleSecurityError(e)
    case None =>
      match Authenticated(req, decode, allowed)
      case Failure(m) =>
        MissingHeaderIsGeneric<T>();
        InvalidTokenIsUnauthorized<T>();
        HandleSecurityError(Plain(m))
      case Success(user) =>
        var ua := if req.userAgent.Some? && req.userAgent.value != [] then req.userAgent.value else "unknown";
        handler(SecurityContext(user, ip, ua, now))
  }

  /** `withAuth`: the environment check, then the limiter, then the guarded
      part. Only the limiter keeps state: it is untouched when the
      environment check fails or the request is refused, and counts the
      request otherwise, whatever happens next. */
  function WithAuth<T>(env: map<string, string>, store: Limiter, req: Request, now: int,
                       dangerous: string -> bool, decode: string -> Option<DecodedToken>, allowed: Option<string>,
                       handler: SecurityContext -> Response<T>): (r: (Reply<T>, Limiter))
    ensures ValidateEnvironment(env).Failure? ==> r == (Answered(Error(500, InternalServerError)), store)
    ensures ValidateEnvironment(env).Success? ==>
      var ip := ClientIP(req.forwardedFor, req.realIp, req.remote);
      var (a, store') := Admit(store, ip, req.url.GetOr("unknown"), now);
      && (a.Limited? ==> r == (TooManyRequests(a.retryAfter), store))
      && (!a.Limited? ==> r == (Answered(Guarded(req, ip, now, dangerous, decode, allowed, handler)), store'))
  {
    match ValidateEnvironment(env)
    case Failure(m) =>
      EnvMessageIsGeneric<T>(env);
      (Answered(HandleSecurityError(Plain(m))), store)
    case Success(_) =>
      var ip := ClientIP(req.forwardedFor, req.realIp, req.remote);
      var (a, store') := Admit(store, ip, req.url.GetOr("unknown"), now);
      if a.Limited? then (TooManyRequests(a.retryAfter), store)
      else (Answered(Guarded(req, ip, now, dangerous, decode, allowed, handler)), store')
  }

  /** The environment failure message starts with a fixed text that names
      neither trigger word, so it is mapped to a 500. */
  lemma EnvMessageIsGeneric<T>(env: map<string, string>)
    ensures var m := "Missing required environment variables: " + Join(MissingEnv(env), ", ");
      HandleSecurityError<T>(Plain(m)) == Error(500, InternalServerError)
  {
    var joined := Join(MissingEnv(env), ", ");
    NoLowerHInEnvList(MissingEnv(env));
    NoLowerHAfterPrefix(joined);
    WithoutLowerHIsGeneric<T>("Missing required environment variables: " + joined);
  }

  lemma NoLowerHAfterPrefix(joined: string)
    requires 'h' !in joined
    ensures 'h' !in "Missing required environment variables: " + joined
  {
    var prefix := "Missing required environment variables: ";
    assert 'h' !in prefix;
  }

  /** Both trigger words hold a lower-case h. */
  lemma WithoutLowerHIsGeneric<T>(m: string)
    requires 'h' !in m
    ensures HandleSecurityError<T>(Plain(m)) == Error(500, InternalServerError)
  {
    AbsentCharExcludes(m, "authentication", 'h');
    AbsentCharExcludes(m, "Unauthorized", 'h');
  }

  /** No required variable name holds a lower-case h, nor does their list. */
  lemma NoLowerHInEnvList(names: seq<string>)
    requires forall n :: n in names ==> n in RequiredEnv
    ensures 'h' !in Join(names, ", ")
  {
    if 'h' in Join(names, ", ") {
      JoinChars(names, ", ", 'h');
      var k :| 0 <= k < |names| && 'h' in names[k];
      NoLowerHInEnvNames(names[k]);
    }
  }

  lemma NoLowerHInEnvNames(n: string)
    requires n in RequiredEnv
    ensures 'h' !in n
  {
  }

}

=== FILE: note_operations.dfy ===
/** The browser's delete operation: it marks the note as being deleted,
    applies the caller's optimistic change to the view at once, asks the
    server to soft-delete, undoes the change when that fails, and clears the
    mark in every outcome. The view is any state the caller passes in,
    changed by the caller's optional `optimisticUpdate` and `rollback`. */
module NoteOperations {
  import opened Wrappers

  /** The hook's state: its loading flag and the ids being deleted. */
  datatype OpsState = OpsState(loading: bool, deleting: set<string>)

  const Initial := OpsState(false, {})

  /** What the request to the metadata endpoint produced: an HTTP answer
      with its `ok` flag and the body's `success` field, or a thrown error
      (network failure or an unreadable body). */
  datatype DeleteOutcome = Answered(ok: bool, success: bool) | Threw

  /** The request failed: it threw or the status was not OK. */
  predicate Failed(o: DeleteOutcome) {
    o.Threw? || !o.ok
  }

  /** The states a deletion passes through: while the request is in flight
      and after it has settled, with the value `deleteNote` resolves to. */
  datatype Deletion<V> = Deletion(inFlight: OpsState, viewInFlight: V, settled: OpsState, view: V, result: bool)

  /** `isDeleting(id)` */
  predicate IsDeleting(s: OpsState, noteId: string) {
    noteId in s.deleting
  }

  /** Applies an optional view change. */
  function Run<V>(f: Option<V -> V>, v: V): V {
    if f.Some? then f.value(v) else v
  }

  /** `deleteNote(id, optimisticUpdate, rollback)` against one outcome. */
  function DeleteNote<V>(s: OpsState, view: V, noteId: string, optimistic: Option<V -> V>,
                         rollback: Option<V -> V>, outcome: DeleteOutcome): (d: Deletion<V>)
    ensures d.inFlight.loading && IsDeleting(d.inFlight, noteId)
    ensures forall other :: other != noteId ==> (IsDeleting(d.inFlight, other) <==> IsDeleting(s, other))
    ensures d.viewInFlight == Run(optimistic, view)
    ensures !d.settled.loading && !IsDeleting(d.settled, noteId)
    ensures forall other :: other != noteId ==> (IsDeleting(d.settled, other) <==> IsDeleting(s, other))
    ensures d.result <==> !Failed(outcome) && outcome.success
    ensures Failed(outcome) ==> d.view == Run(rollback, d.viewInFlight)
    ensures !Failed(outcome) ==> d.view == d.viewInFlight
  {
    var inFlight := OpsState(true, s.deleting + {noteId});
    var viewInFlight := Run(optimistic, view);
    var settled := OpsState(false, inFlight.deleting - {noteId});
    if Failed(outcome) then Deletion(inFlight, viewInFlight, settled, Run(rollback, viewInFlight), false)
    else Deletion(inFlight, viewInFlight, settled, viewInFlight, outcome.success)
  }

  /** When the rollback undoes the optimistic change, a failed deletion
      leaves the view exactly as it found it, and a deletion that was not
      already running leaves the hook's state as it found it too. */
  lemma FailedDeleteRestores<V>(s: OpsState, view: V, noteId: string, optimistic: V -> V,
                                rollback: V -> V, outcome: DeleteOutcome)
    requires forall v :: rollback(optimistic(v)) == v
    requires Failed(outcome) && !s.loading && !IsDeleting(s, noteId)
    ensures var d := DeleteNote(s, view, noteId, Some(optimistic), Some(rollback), outcome);
      d.view == view && d.settled == s && !d.result
  {
    var d := DeleteNote(s, view, noteId, Some(optimistic), Some(rollback), outcome);
    assert d.settled.deleting == s.deleting;
  }
}

=== FILE: notes.dfy ===
/** The `notes` table and the JSON values its `metadata` column holds. */
module Notes {
  import opened Wrappers
  import opened Categories

  /** A metadata value: the schemas only produce strings, and the model may
      return `null`; booleans appear where a client writes them. */
  datatype Value = Str(s: string) | Bool(b: bool) | Null

  type Metadata = map<string, Value>

  /** JavaScript truthiness of a metadata value. */
  predicate Truthy(v: Value) {
    match v
    case Str(s) => s != ""
    case Bool(b) => b
    case Null => false
  }

  /** `metadata.key` when it is present and truthy. */
  predicate HasTruthy(m: Metadata, key: string) {
    key in m && Truthy(m[key])
  }

  /** `metadata?.key` read as text: Some only for a non-empty string. */
  function TextField(m: Metadata, key: string): (r: Option<string>)
    ensures r.Some? <==> key in m && m[key].Str? && m[key].s != ""
    ensures r.Some? ==> m[key] == Str(r.value)
  {
    if key in m && m[key].Str? && m[key].s != "" then Some(m[key].s) else None
  }

  /** Whether a note was categorised by the classifier or by the user. */
  datatype Source = Auto | Manual

  /** One row of `notes`; `deletedAt` is None while the note is live.
      Timestamps are milliseconds since the epoch. */
  datatype Note = Note(
    id: string,
    content: string,
    category: Option<Category>,
    metadata: Metadata,
    source: Source,
    createdAt: int,
    deletedAt: Option<int>)

  /** The key every list orders by: `created_at` as a timestamp. */
  function CreatedAt(n: Note): int {
    n.createdAt
  }

  predicate IsLive(n: Note) {
    n.deletedAt.None?
  }

  /** The table, keyed by id. */
  type Store = map<string, Note>

  predicate WellKeyed(db: Store) {
    forall k :: k in db ==> db[k].id == k
  }

  /** The columns one `update` call writes; None leaves a column alone. */
  datatype Patch = Patch(category: Option<Category>, metadata: Option<Metadata>, deletedAt: Option<int>)

  /** A patch writing only the metadata column. */
  function MetadataPatch(m: Metadata): Patch {
    Patch(None, Some(m), None)
  }

  /** The row after the patch: written columns take the patch's value and
      every other column keeps its own. */
  function ApplyPatch(n: Note, p: Patch): (r: Note)
    ensures r.id == n.id && r.content == n.content && r.source == n.source && r.createdAt == n.createdAt
    ensures r.category == (if p.category.Some? then p.category else n.category)
    ensures r.metadata == p.metadata.GetOr(n.metadata)
    ensures r.deletedAt == (if p.deletedAt.Some? then p.deletedAt else n.deletedAt)
  {
    n.(category := if p.category.Some? then p.category else n.category,
       metadata := p.metadata.GetOr(n.metadata),
       deletedAt := if p.deletedAt.Some? then p.deletedAt else n.deletedAt)
  }

  /** `update(patch).eq('id', id)`, with `.is('deleted_at', null)` appended
      when onlyLive: the matching row is patched, every other row is left
      alone, and an id that matches nothing changes nothing. */
  function UpdateWhere(db: Store, id: string, p: Patch, onlyLive: bool): (r: Store)
    ensures r.Keys == db.Keys
    ensures forall k :: k in db && k != id ==> r[k] == db[k]
    ensures id in db ==> r[id] == if !onlyLive || IsLive(db[id]) then ApplyPatch(db[id], p) else db[id]
    ensures WellKeyed(db) ==> WellKeyed(r)
  {
    if id in db && (!onlyLive || IsLive(db[id])) then db[id := ApplyPatch(db[id], p)] else db
  }

  /** A patch that writes a column twice keeps only the second value, so
      re-applying the same patch changes nothing. */
  lemma UpdateIdempotent(db: Store, id: string, p: Patch)
    ensures UpdateWhere(UpdateWhere(db, id, p, false), id, p, false) == UpdateWhere(db, id, p, false)
  {
  }
}

=== FILE: numbers.dfy ===
/** Integer helpers for the places where the application calls `Math.ceil`
    on a quotient. */
module Numbers {

  /** `Math.ceil(a / b)` for a positive divisor, on any sign of a. */
  function CeilDiv(a: int, b: int): (q: int)
    requires b > 0
    ensures b * q >= a
    ensures b * (q - 1) < a
  {
    -((-a) / b)
  }

}

=== FILE: ordering.dfy ===
/** `Array.prototype.sort` with a numeric comparator `(a, b) => rank(b) - rank(a)`,
    as the lists use it to put the newest note first. */
module Ordering {
  import opened Seqs

  /** Non-increasing by rank. */
  predicate Descending<T>(xs: seq<T>, rank: T -> int) {
    forall i, j :: 0 <= i < j < |xs| ==> rank(xs[i]) >= rank(xs[j])
  }

  /** A prefix of a descending sequence is descending. */
  lemma DescendingPrefix<T>(xs: seq<T>, rank: T -> int, n: nat)
    requires n <= |xs| && Descending(xs, rank)
    ensures Descending(xs[..n], rank)
  {
    forall i, j | 0 <= i < j < n
      ensures rank(xs[..n][i]) >= rank(xs[..n][j])
    {
      assert xs[..n][i] == xs[i] && xs[..n][j] == xs[j];
    }
  }

  /** Places x after every element ranked at least as high, so that among
      equal ranks earlier elements stay first. */
  function Insert<T>(x: T, xs: seq<T>, rank: T -> int): (r: seq<T>)
    ensures |r| == |xs| + 1
    ensures multiset(r) == multiset(xs) + multiset{x}
  {
    if |xs| == 0 then [x]
    else if rank(xs[0]) >= rank(x) then
      assert xs == [xs[0]] + xs[1..];
      [xs[0]] + Insert(x, xs[1..], rank)
    else
      [x] + xs
  }

  /** Inserting into a descending list keeps it descending. */
  lemma {:induction false} InsertDescending<T>(x: T, xs: seq<T>, rank: T -> int)
    requires Descending(xs, rank)
    ensures Descending(Insert(x, xs, rank), rank)
  {
    if |xs| > 0 && rank(xs[0]) >= rank(x) {
      var tail := Insert(x, xs[1..], rank);
      InsertDescending(x, xs[1..], rank);
      var r := [xs[0]] + tail;
      assert r == Insert(x, xs, rank);
      forall j | 0 < j < |r|
        ensures rank(r[0]) >= rank(r[j])
      {
        assert r[j] == tail[j - 1];
        assert r[j] in multiset(tail);
        if r[j] != x {
          assert r[j] in multiset(xs[1..]);
          var k :| 0 <= k < |xs[1..]| && xs[1..][k] == r[j];
          assert xs[k + 1] == r[j];
        }
      }
      forall i, j | 0 <= i < j < |r|
        ensures rank(r[i]) >= rank(r[j])
      {
        if i > 0 {
          assert r[i] == tail[i - 1] && r[j] == tail[j - 1];
        }
      }
    }
  }

  /** The sorted copy: the same elements, in non-increasing rank order. */
  function SortDesc<T>(xs: seq<T>, rank: T -> int): (r: seq<T>)
    ensures |r| == |xs|
    ensures multiset(r) == multiset(xs)
    ensures Descending(r, rank)
  {
    if |xs| == 0 then []
    else
      var init := xs[..|xs| - 1];
      assert xs == init + [xs[|xs| - 1]];
      InsertDescending(xs[|xs| - 1], SortDesc(init, rank), rank);
      Insert(xs[|xs| - 1], SortDesc(init, rank), rank)
  }

  /** No two distinct elements share a rank. */
  ghost predicate RanksDistinct<T>(xs: seq<T>, rank: T -> int) {
    forall i, j :: 0 <= i < |xs| && 0 <= j < |xs| && rank(xs[i]) == rank(xs[j]) ==> xs[i] == xs[j]
  }

  lemma TailDescending<T>(a: seq<T>, rank: T -> int)
    requires Descending(a, rank) && |a| > 0
    ensures Descending(a[1..], rank)
  {
    var t := a[1..];
    forall i, j | 0 <= i < j < |t|
      ensures rank(t[i]) >= rank(t[j])
    {
      assert t[i] == a[i + 1] && t[j] == a[j + 1];
    }
  }

  lemma MultisetTail<T>(a: seq<T>)
    requires |a| > 0
    ensures multiset(a[1..]) == multiset(a) - multiset{a[0]}
  {
    assert a == [a[0]] + a[1..];
  }

  lemma HeadIsMax<T>(a: seq<T>, rank: T -> int, y: T)
    requires Descending(a, rank) && y in multiset(a)
    ensures rank(a[0]) >= rank(y)
  {
    var j :| 0 <= j < |a| && a[j] == y;
  }

  /** Two descending arrangements of the same elements with distinct ranks
      are the same sequence, so sorting an already sorted list changes
      nothing and re-sorting after putting an element back restores it. */
  lemma {:induction false} SortedUnique<T>(a: seq<T>, b: seq<T>, rank: T -> int)
    requires Descending(a, rank) && Descending(b, rank)
    requires multiset(a) == multiset(b)
    requires RanksDistinct(a, rank)
    ensures a == b
  {
    assert |a| == |multiset(a)| == |b|;
    if |a| > 0 {
      HeadIsMax(a, rank, b[0]);
      HeadIsMax(b, rank, a[0]);
      var k :| 0 <= k < |a| && a[k] == b[0];
      assert rank(a[0]) == rank(a[k]);
      assert a[0] == b[0];
      var a', b' := a[1..], b[1..];
      TailDescending(a, rank);
      TailDescending(b, rank);
      MultisetTail(a);
      MultisetTail(b);
      assert RanksDistinct(a', rank) by {
        forall i, j | 0 <= i < |a'| && 0 <= j < |a'| && rank(a'[i]) == rank(a'[j])
          ensures a'[i] == a'[j]
        {
          assert a'[i] == a[i + 1] && a'[j] == a[j + 1];
        }
      }
      SortedUnique(a', b', rank);
    }
  }

  /** Sorting a sorted list with distinct ranks gives it back. */
  lemma SortSorted<T>(xs: seq<T>, rank: T -> int)
    requires Descending(xs, rank) && RanksDistinct(xs, rank)
    ensures SortDesc(xs, rank) == xs
  {
    SortedUnique(xs, SortDesc(xs, rank), rank);
  }

  /** `xs.sort(byRankDesc).slice(0, k)`: the k highest-ranked elements,
      highest first. An element is left out only when k elements were
      kept, and then ranks no higher than any of them. */
  function TopByRank<T>(xs: seq<T>, rank: T -> int, k: nat): (r: seq<T>)
    ensures |r| == Min(k, |xs|)
    ensures Descending(r, rank)
    ensures multiset(r) <= multiset(xs)
    ensures forall x :: x in xs && x !in r ==> |r| == k
    ensures forall x, i :: x in xs && x !in r && 0 <= i < |r| ==> rank(x) <= rank(r[i])
  {
    TopFacts(xs, rank, k);
    Take(SortDesc(xs, rank), k)
  }

  lemma TopFacts<T>(xs: seq<T>, rank: T -> int, k: nat)
    ensures var r := Take(SortDesc(xs, rank), k);
      && Descending(r, rank)
      && multiset(r) <= multiset(xs)
      && (forall x :: x in xs && x !in r ==> |r| == k)
      && (forall x, i :: x in xs && x !in r && 0 <= i < |r| ==> rank(x) <= rank(r[i]))
  {
    var sorted := SortDesc(xs, rank);
    var r := Take(sorted, k);
    assert sorted == r + sorted[|r|..];
    assert multiset(sorted) == multiset(r) + multiset(sorted[|r|..]);
    forall x | x in xs && x !in r
      ensures |r| == k && forall i :: 0 <= i < |r| ==> rank(x) <= rank(r[i])
    {
      assert x in multiset(sorted);
      LeftOutRanksLower(sorted, rank, k, x);
    }
  }

  /** An element of a descending list that its first k leave out comes
      after all k of them, so none of them ranks lower. */
  lemma LeftOutRanksLower<T>(sorted: seq<T>, rank: T -> int, k: nat, x: T)
    requires Descending(sorted, rank)
    requires x in sorted && x !in Take(sorted, k)
    ensures |Take(sorted, k)| == k
    ensures forall i :: 0 <= i < k ==> rank(x) <= rank(sorted[i])
  {
    var r := Take(sorted, k);
    var j :| 0 <= j < |sorted| && sorted[j] == x;
    assert j >= |r|;
  }
}

=== FILE: reading_list.dfy ===
/** The reading list view: the link found in a note, the card's title and
    whether the card is a link or an excerpt. */
module ReadingList {
  import opened Wrappers
  import opened Text
  import opened Notes
  import opened Urls

  const PreviewLength: nat := 120
  const TitleWords: nat := 6

  /** `truncateText(text)` with its default length. */
  function Preview(text: string): (r: string)
    ensures Utf16Length(text) <= PreviewLength ==> r == text
    ensures Utf16Length(text) > PreviewLength ==>
      && |r| >= 3 && r[|r| - 3..] == Ellipsis
      && StartsWith(text, r[..|r| - 3]) && PreviewLength - 1 <= Utf16Length(r[..|r| - 3]) <= PreviewLength
    ensures InBmp(text) && |text| > PreviewLength ==> r == text[..PreviewLength] + Ellipsis
  {
    TruncateBmp(text, PreviewLength);
    Truncate(text, PreviewLength)
  }

  /** `extractLinkFromContent(content)`: the first `https?://` run of
      non-whitespace, or None. */
  function ExtractLink(content: string): (r: Option<string>)
    ensures r.None? <==> forall j :: 0 <= j <= |content| ==> !MatchesAt(content, j)
    ensures r.Some? ==> exists i :: 0 <= i <= |content| && MatchesAt(content, i) && IsUrlAt(content, i, r.value)
                                     && forall j :: 0 <= j < i ==> !MatchesAt(content, j)
  {
    match FirstUrl(content)
    case None => None
    case Some(u) =>
      var i := FirstMatchFrom(content, 0).value;
      assert MatchesAt(content, i) && IsUrlAt(content, i, u);
      Some(u)
  }

  /** The trimmed first line of the note. */
  function FirstLine(content: string): string {
    Trim(FirstField(content, '\n'))
  }

  /** The first line is a title when it is longer than 5 and shorter than
      80 UTF-16 code units. */
  predicate UsableLine(line: string) {
    5 < Utf16Length(line) < 80
  }

  /** `getItemTitle(note)`: the stored title, then the stored book title,
      then a first line of usable length, then the first six words. */
  function ItemTitle(n: Note): (r: string)
    ensures TextField(n.metadata, "title").Some? ==> Str(r) == n.metadata["title"]
    ensures TextField(n.metadata, "title").None? && TextField(n.metadata, "book_title").Some?
      ==> Str(r) == n.metadata["book_title"]
    ensures TextField(n.metadata, "title").None? && TextField(n.metadata, "book_title").None?
      ==> r == (if UsableLine(FirstLine(n.content)) then FirstLine(n.content) else WordPreview(n.content, TitleWords))
    ensures (TextField(n.metadata, "title").None? && TextField(n.metadata, "book_title").None?
             && UsableLine(FirstLine(n.content))) ==> ('\n' !in r && 5 < Utf16Length(r) < 80)
  {
    if TextField(n.metadata, "title").Some? then TextField(n.metadata, "title").value
    else if TextField(n.metadata, "book_title").Some? then TextField(n.metadata, "book_title").value
    else if UsableLine(FirstLine(n.content)) then FirstLine(n.content)
    else WordPreview(n.content, TitleWords)
  }

  /** A note without stored titles whose content is one line of usable
      length with no surrounding whitespace is its own title. */
  lemma OneLineIsItsOwnTitle(n: Note)
    requires TextField(n.metadata, "title").None? && TextField(n.metadata, "book_title").None?
    requires '\n' !in n.content && 5 < Utf16Length(n.content) < 80
    requires !IsWhitespace(n.content[0]) && !IsWhitespace(n.content[|n.content| - 1])
    ensures ItemTitle(n) == n.content
  {
    TrimUntouched(n.content);
  }

  datatype ItemType = Link | Excerpt

  /** `getItemType(note)`: a link when the note has a truthy stored link
      or its content holds a URL. */
  function TypeOf(n: Note): (r: ItemType)
    ensures r == Link <==> HasTruthy(n.metadata, "link") || ExtractLink(n.content).Some?
  {
    if HasTruthy(n.metadata, "link") || ExtractLink(n.content).Some? then Link else Excerpt
  }

  /** The link the card opens: the stored link, else the first URL. */
  function ShownLink(n: Note): (r: Option<string>)
    ensures TextField(n.metadata, "link").Some? ==> r.Some? && Str(r.value) == n.metadata["link"]
    ensures TextField(n.metadata, "link").None? ==> r == ExtractLink(n.content)
  {
    if TextField(n.metadata, "link").Some? then TextField(n.metadata, "link") else ExtractLink(n.content)
  }

  /** When the stored link, if any, is text, a card is shown as a link
      exactly when it has a link to open. */
  lemma LinkCardsHaveLinks(n: Note)
    requires "link" in n.metadata ==> !n.metadata["link"].Bool?
    ensures TypeOf(n) == Link <==> ShownLink(n).Some?
  {
  }
}

=== FILE: schemas.dfy ===
/** The JSON schemas the structured-output requests carry, and the lookup
    of a per-category schema by the category name a request supplies. */
module Schemas {
  import opened Wrappers
  import opened Categories
  import opened Notes

  /** An object schema whose properties are all of type string. */
  datatype ObjectSchema = ObjectSchema(properties: seq<string>, required: seq<string>, additionalProperties: bool)

  /** A metadata object satisfies a schema: every required key is present,
      every declared property holds a string, and no undeclared key appears
      unless additional properties are allowed. */
  predicate Conforms(m: Metadata, s: ObjectSchema) {
    && (forall k :: k in s.required ==> k in m)
    && (forall k :: k in m && k in s.properties ==> m[k].Str?)
    && (s.additionalProperties || forall k :: k in m ==> k in s.properties)
  }

  /** `enhanceSchema` */
  const EnhanceSchema := ObjectSchema(["title", "summary"], ["title", "summary"], false)

  const TaskSchema := ObjectSchema(["due_date", "cleaned_content"], [], false)
  const IdeaSchema := ObjectSchema(["title", "summary"], ["title", "summary"], false)
  const MeetingSchema := ObjectSchema(["title", "date", "time"], [], false)
  const ReadingSchema := ObjectSchema(["link", "title", "summary"], [], false)

  /** The `metadata` property of `classificationSchema`. */
  const ClassificationMetadataSchema :=
    ObjectSchema(["due_date", "title", "summary", "date", "time", "link", "cleaned_content"], [], false)

  /** `classificationSchema`: a category from the allow-list, a metadata
      object, and an optional top-level cleaned_content string. */
  datatype ClassificationSchema = ClassificationSchema(
    categoryEnum: seq<string>,
    metadata: ObjectSchema,
    properties: seq<string>,
    required: seq<string>,
    additionalProperties: bool)

  const Classification := ClassificationSchema(
    ValidCategories, ClassificationMetadataSchema,
    ["category", "metadata", "cleaned_content"], ["category", "metadata"], false)

  /** `metadataSchemas[c]` for a category: only task, idea, meeting and
      reading have one, all of them closed, and only idea's has required
      keys. */
  function MetadataSchema(c: Category): (r: Option<ObjectSchema>)
    ensures r.Some? <==> c in {Task, Idea, Meeting, Reading}
    ensures r.Some? ==> !r.value.additionalProperties
    ensures r.Some? ==> (|r.value.required| > 0 <==> c == Idea)
    ensures r.Some? ==> forall k :: k in r.value.properties ==> k in ClassificationMetadataSchema.properties
  {
    match c
    case Task => Some(TaskSchema)
    case Idea => Some(IdeaSchema)
    case Meeting => Some(MeetingSchema)
    case Reading => Some(ReadingSchema)
    case _ => None
  }

  /** The per-category schema for a request's category name, reading only
      the table's own four entries. */
  function LookupSchema(name: string): (r: Option<ObjectSchema>)
    ensures r.Some? <==> name in ["task", "idea", "meeting", "reading"]
    ensures r.Some? ==> name in ValidCategories && r == MetadataSchema(Parse(name).value)
  {
    match Parse(name)
    case Some(c) => MetadataSchema(c)
    case None => None
  }

  /** The members every plain JavaScript object inherits from
      `Object.prototype`; reading one of them by name yields a truthy
      value. */
  const ObjectPrototypeMembers: seq<string> := [
    "constructor", "hasOwnProperty", "isPrototypeOf", "propertyIsEnumerable",
    "toString", "toLocaleString", "valueOf", "__proto__",
    "__defineGetter__", "__defineSetter__", "__lookupGetter__", "__lookupSetter__"]

  /** What `metadataSchemas[name]` evaluates to on a plain object literal. */
  datatype LookupOutcome = OwnEntry(schema: ObjectSchema) | InheritedMember(name: string) | Undefined

  /** The lookup as written: an own entry, else an inherited member, else
      `undefined`. The guard that follows only rejects `undefined`. */
  function LookupSchemaAsWritten(name: string): (r: LookupOutcome)
    ensures r.OwnEntry? <==> LookupSchema(name).Some?
    ensures r.OwnEntry? ==> Some(r.schema) == LookupSchema(name)
    ensures r.InheritedMember? <==> name in ObjectPrototypeMembers
  {
    match LookupSchema(name)
    case Some(s) => OwnEntry(s)
    case None => if name in ObjectPrototypeMembers then InheritedMember(name) else Undefined
  }

  /** The guard `if (!schema)` as written lets "constructor" through although
      it names no category, while the own-entry lookup rejects it. */
  lemma InheritedNamePassesGuardAsWritten()
    ensures !LookupSchemaAsWritten("constructor").Undefined?
    ensures "constructor" !in ValidCategories
    ensures LookupSchema("constructor").None?
  {
  }

  /** Every schema the application sends is closed, and a metadata object
      conforming to any per-category schema also conforms to the
      classification schema's metadata part. */
  lemma CategorySchemasWithinClassification(c: Category, m: Metadata)
    requires MetadataSchema(c).Some? && Conforms(m, MetadataSchema(c).value)
    ensures Conforms(m, ClassificationMetadataSchema)
    ensures !EnhanceSchema.additionalProperties && !Classification.additionalProperties
  {
  }

  /** The classification schema's category is one of exactly the allowed
      names; category and metadata are required while the top-level
      cleaned_content is optional; its metadata part declares seven keys. */
  lemma ClassificationShape()
    ensures forall n :: n in Classification.categoryEnum <==> Parse(n).Some?
    ensures forall k :: k in Classification.required <==> k in {"category", "metadata"}
    ensures "cleaned_content" in Classification.properties && "cleaned_content" !in Classification.required
    ensures |ClassificationMetadataSchema.properties| == 7
  {
  }

  /** An enhancement reply fits its schema exactly when it holds a string
      title and a string summary and nothing else; the same holds of idea
      metadata. */
  lemma TitleSummaryConformance(m: Metadata)
    ensures Conforms(m, EnhanceSchema) <==> m.Keys == {"title", "summary"} && m["title"].Str? && m["summary"].Str?
    ensures Conforms(m, IdeaSchema) <==> Conforms(m, EnhanceSchema)
  {
    if Conforms(m, EnhanceSchema) {
      assert "title" in EnhanceSchema.required && "summary" in EnhanceSchema.required;
      assert "title" in m && "summary" in m;
      assert m.Keys == {"title", "summary"};
    }
  }
}

=== FILE: search.dfy ===
/** Note search: `content ILIKE '%query%'`, newest first, at most 50 rows,
    behind the three request handlers that expose it. */
module Search {
  import opened Wrappers
  import opened Seqs
  import opened Text
  import opened Notes
  import opened Http
  import opened Ordering

  const ResultLimit: nat := 50

  /** One element of a LIKE pattern: a literal character (kept lower-cased,
      since ILIKE ignores case), `_`, or `%` (which PostgREST also accepts
      written as `*`). */
  datatype Token = Lit(c: char) | AnyOne | AnyMany

  /** The pattern as the database reads it; a trailing lone backslash is
      rejected. */
  function Compile(p: string): (r: Option<seq<Token>>)
    ensures |p| == 0 ==> r == Some([])
    decreases |p|
  {
    if |p| == 0 then Some([])
    else if p[0] == '\\' then
      if |p| == 1 then None
      else match Compile(p[2..])
        case None => None
        case Some(rest) => Some([Lit(LowerChar(p[1]))] + rest)
    else
      var t := if p[0] == '%' || p[0] == '*' then AnyMany else if p[0] == '_' then AnyOne else Lit(LowerChar(p[0]));
      match Compile(p[1..])
      case None => None
      case Some(rest) => Some([t] + rest)
  }

  /** Whether the whole text matches the pattern, case-insensitively. */
  predicate Matches(p: seq<Token>, t: string)
    decreases |p| + |t|
  {
    if |p| == 0 then |t| == 0
    else match p[0]
      case AnyMany => Matches(p[1..], t) || (|t| > 0 && Matches(p, t[1..]))
      case AnyOne => |t| > 0 && Matches(p[1..], t[1..])
      case Lit(c) => |t| > 0 && LowerChar(t[0]) == c && Matches(p[1..], t[1..])
  }

  /** A query without wildcard or escape characters. */
  predicate Plain(q: string) {
    forall i :: 0 <= i < |q| ==> q[i] !in {'%', '_', '\\', '*'}
  }

  /** The literal tokens of a plain query. */
  function Literals(q: string): (r: seq<Token>)
    ensures |r| == |q|
    ensures forall i :: 0 <= i < |q| ==> r[i] == Lit(LowerChar(q[i]))
  {
    if |q| == 0 then [] else [Lit(LowerChar(q[0]))] + Literals(q[1..])
  }

  /** `%q%` */
  function SubstringPattern(q: string): string {
    "%" + q + "%"
  }

  lemma {:induction false} CompilePlain(q: string, tail: string)
    requires Plain(q)
    requires Compile(tail).Some?
    ensures Compile(q + tail) == Some(Literals(q) + Compile(tail).value)
    decreases |q|
  {
    if |q| > 0 {
      var s := q + tail;
      assert s[0] == q[0];
      assert s[1..] == q[1..] + tail;
      assert q[0] !in {'%', '_', '\\', '*'};
      CompilePlain(q[1..], tail);
      var a := Lit(LowerChar(q[0]));
      var rest := Literals(q[1..]) + Compile(tail).value;
      assert Compile(s[1..]) == Some(rest);
      assert Compile(s) == Some([a] + rest);
      assert Literals(q) == [a] + Literals(q[1..]);
      assert [a] + rest == Literals(q) + Compile(tail).value;
    } else {
      assert q + tail == tail;
      assert Literals(q) + Compile(tail).value == Compile(tail).value;
    }
  }

  lemma CompileSubstring(q: string)
    requires Plain(q)
    ensures Compile(SubstringPattern(q)) == Some([AnyMany] + Literals(q) + [AnyMany])
  {
    var e: seq<Token> := [];
    assert "%"[1..] == "";
    assert Compile("%"[1..]) == Some(e);
    assert [AnyMany] + e == [AnyMany];
    assert Compile("%") == Some([AnyMany]);
    CompilePlain(q, "%");
    var s := SubstringPattern(q);
    assert s[0] == '%';
    assert s[1..] == q + "%";
    var l := Literals(q) + [AnyMany];
    assert Compile(s) == Some([AnyMany] + l);
    assert [AnyMany] + l == [AnyMany] + Literals(q) + [AnyMany];
  }

  /** A leading `%` matches when the rest matches some suffix. */
  lemma {:induction false} LeadingAny(rest: seq<Token>, t: string)
    ensures Matches([AnyMany] + rest, t) <==> exists i :: 0 <= i <= |t| && Matches(rest, t[i..])
    decreases |t|
  {
    var p := [AnyMany] + rest;
    assert p[1..] == rest;
    assert t[0..] == t;
    if |t| > 0 {
      LeadingAny(rest, t[1..]);
      if Matches(p, t[1..]) {
        var i :| 0 <= i <= |t[1..]| && Matches(rest, t[1..][i..]);
        assert t[1..][i..] == t[i + 1..];
      }
      if exists i :: 0 <= i <= |t| && Matches(rest, t[i..]) {
        var i :| 0 <= i <= |t| && Matches(rest, t[i..]);
        if i > 0 {
          assert t[1..][i - 1..] == t[i..];
        }
      }
    }
  }

  /** Literals followed by `%` match exactly the texts they start. */
  lemma {:induction false} LiteralsThenAny(q: string, t: string)
    ensures Matches(Literals(q) + [AnyMany], t) <==> StartsWith(Lower(t), Lower(q))
    decreases |q|
  {
    var p := Literals(q) + [AnyMany];
    if |q| == 0 {
      assert Literals(q) == [];
      assert p == [AnyMany] + [];
      LeadingAny([], t);
      assert Matches([], t[|t|..]);
      assert Lower(q) == [];
    } else {
      assert p[0] == Lit(LowerChar(q[0]));
      assert p[1..] == Literals(q[1..]) + [AnyMany];
      if |t| > 0 {
        LiteralsThenAny(q[1..], t[1..]);
        assert Lower(t[1..]) == Lower(t)[1..];
        assert Lower(q[1..]) == Lower(q)[1..];
        if StartsWith(Lower(t), Lower(q)) {
          assert Lower(t)[0] == Lower(q)[0];
          assert Lower(t)[1..][..|q| - 1] == Lower(t)[..|q|][1..];
        }
        if LowerChar(t[0]) == LowerChar(q[0]) && StartsWith(Lower(t[1..]), Lower(q[1..])) {
          assert Lower(t)[..|q|] == [Lower(t)[0]] + Lower(t)[1..][..|q| - 1];
          assert Lower(q) == [Lower(q)[0]] + Lower(q)[1..];
        }
      }
    }
  }

  /** For a plain query, the search pattern `%q%` matches exactly the
      contents that hold q as a substring, ignoring case. */
  lemma PlainQueryIsSubstring(q: string, t: string)
    requires Plain(q)
    ensures Compile(SubstringPattern(q)).Some?
    ensures Matches(Compile(SubstringPattern(q)).value, t) <==> Contains(Lower(t), Lower(q))
  {
    CompileSubstring(q);
    var rest := Literals(q) + [AnyMany];
    assert [AnyMany] + Literals(q) + [AnyMany] == [AnyMany] + rest;
    LeadingAny(rest, t);
    forall i | 0 <= i <= |t|
      ensures Matches(rest, t[i..]) <==> StartsWith(Lower(t)[i..], Lower(q))
    {
      LiteralsThenAny(q, t[i..]);
      assert Lower(t[i..]) == Lower(t)[i..];
    }
    if Contains(Lower(t), Lower(q)) {
      var i :| 0 <= i <= |Lower(t)| - |Lower(q)| && StartsWith(Lower(t)[i..], Lower(q));
      assert Matches(rest, t[i..]);
    }
  }

  /** The rows the query returns: the matching notes, newest first, at most
      50. */
  function Query(rows: seq<Note>, p: seq<Token>): (r: seq<Note>)
    ensures |r| == Min(ResultLimit, |Hits(rows, p)|)
    ensures multiset(r) <= multiset(Hits(rows, p))
    ensures forall n :: n in r ==> n in rows && Matches(p, n.content)
    ensures Descending(r, CreatedAt)
    ensures forall n :: n in rows && Matches(p, n.content) && n !in r ==> |r| == ResultLimit
    ensures forall n, i :: n in rows && Matches(p, n.content) && n !in r && 0 <= i < |r| ==> CreatedAt(n) <= CreatedAt(r[i])
  {
    var hits := Hits(rows, p);
    TopIsWithin(hits);
    TopByRank(hits, CreatedAt, ResultLimit)
  }

  lemma TopIsWithin(hits: seq<Note>)
    ensures forall n :: n in TopByRank(hits, CreatedAt, ResultLimit) ==> n in hits
  {
    var r := TopByRank(hits, CreatedAt, ResultLimit);
    forall n | n in r
      ensures n in hits
    {
      assert n in multiset(r);
    }
  }

  /** The rows whose content matches, in table order. */
  function Hits(rows: seq<Note>, p: seq<Token>): (r: seq<Note>)
    ensures forall n :: n in r <==> n in rows && Matches(p, n.content)
  {
    Filter(rows, (n: Note) => Matches(p, n.content))
  }

  /** What the database does with the query: it fails, returns no data, or
      returns the rows of the table. */
  datatype DbOutcome = DbFails | NoData | Served

  /** The rows and the table's outcome for a pattern: an invalid pattern is
      a database error. */
  function Run(rows: seq<Note>, pattern: string, db: DbOutcome): Result<Option<seq<Note>>, string>
  {
    match Compile(pattern)
    case None => Failure("Database search error")
    case Some(p) =>
      match db
      case DbFails => Failure("Database search error")
      case NoData => Success(None)
      case Served => Success(Some(Query(rows, p)))
  }

  /** The serverless search endpoint: the query is trimmed, a blank query
      is refused, and a missing result set is sent as an empty list. Deleted
      notes are searched too. */
  function ApiSearch(verb: string, query: Option<string>, rows: seq<Note>, db: DbOutcome): (r: Response<seq<Note>>)
    ensures verb != "POST" ==> r == Error(405, MethodNotAllowed)
    ensures verb == "POST" && query.None? ==> r == Error(500, InternalServerError)
    ensures verb == "POST" && query.Some? && AllWhitespace(query.value) ==> r == Error(400, "Missing or empty query")
    ensures r.status == 200 ==>
      (query.Some? && !AllWhitespace(query.value) && db != DbFails && r.body.Payload?
       && Compile(SubstringPattern(Trim(query.value))).Some?
       && r.body.value == (if db == NoData then [] else Query(rows, Compile(SubstringPattern(Trim(query.value))).value)))
    ensures verb == "POST" && query.Some? && !AllWhitespace(query.value) && Plain(query.value) && db == Served ==>
      r.status == 200
    ensures verb == "POST" && query.Some? && !AllWhitespace(query.value) && db == DbFails ==> r == Error(500, InternalServerError)
    ensures verb == "POST" && query.Some? && !AllWhitespace(query.value) && r.status != 200 ==> r == Error(500, InternalServerError)
  {
    if verb != "POST" then Error(405, MethodNotAllowed)
    else match query
      case None => Error(500, InternalServerError)
      case Some(q) =>
        if q == [] || AllWhitespace(q) then Error(400, "Missing or empty query")
        else
          PlainTrimCompiles(q);
          match Run(rows, SubstringPattern(Trim(q)), db)
          case Failure(_) => Error(500, InternalServerError)
          case Success(data) => Ok(data.GetOr([]))
  }

  lemma PlainTrimCompiles(q: string)
    ensures Plain(q) ==> Compile(SubstringPattern(Trim(q))).Some?
  {
    if Plain(q) {
      PlainTrim(q);
      CompileSubstring(Trim(q));
    }
  }

  lemma PlainTrim(q: string)
    requires Plain(q)
    ensures Plain(Trim(q))
  {
    var a := TrimStart(q);
    assert Plain(a) by {
      forall i | 0 <= i < |a|
        ensures a[i] !in {'%', '_', '\\', '*'}
      {
        assert a[i] == q[|q| - |a| + i];
      }
    }
    var r := TrimEnd(a);
    forall i | 0 <= i < |r|
      ensures r[i] !in {'%', '_', '\\', '*'}
    {
      assert r[i] == a[i];
    }
  }

  /** The edge and local-server search: only an empty query is refused, the
      query is used untrimmed, and the result set is passed through even
      when missing. */
  function UntrimmedSearch(query: Option<string>, rows: seq<Note>, db: DbOutcome): (r: Response<Option<seq<Note>>>)
    ensures query.None? ==> r == Error(500, InternalServerError)
    ensures query.Some? && query.value == [] ==> r == Error(400, "Missing query")
    ensures query.Some? && query.value != [] && db == DbFails ==> r == Error(500, InternalServerError)
    ensures query.Some? && query.value != [] && r.status != 200 ==> r == Error(500, InternalServerError)
    ensures r.status == 200 ==>
      (query.Some? && query.value != [] && db != DbFails && r.body.Payload?
       && Compile(SubstringPattern(query.value)).Some?
       && r.body.value == (if db == NoData then None else Some(Query(rows, Compile(SubstringPattern(query.value)).value))))
  {
    match query
    case None => Error(500, InternalServerError)
    case Some(q) =>
      if q == [] then Error(400, "Missing query")
      else match Run(rows, SubstringPattern(q), db)
        case Failure(_) => Error(500, InternalServerError)
        case Success(data) => Ok(data)
  }

  /** The edge function adds the POST check in front. */
  function EdgeSearch(verb: string, query: Option<string>, rows: seq<Note>, db: DbOutcome): (r: Response<Option<seq<Note>>>)
    ensures verb != "POST" ==> r == Error(405, MethodNotAllowed)
    ensures verb == "POST" ==> r == UntrimmedSearch(query, rows, db)
  {
    if verb != "POST" then Error(405, MethodNotAllowed) else UntrimmedSearch(query, rows, db)
  }

  /** The two variants part ways on padded queries: a blank query is refused
      by the serverless endpoint but searched for by the edge function. */
  lemma BlankQueryVariants(q: string, rows: seq<Note>)
    requires q != [] && AllWhitespace(q) && Plain(q)
    ensures ApiSearch("POST", Some(q), rows, Served).status == 400
    ensures EdgeSearch("POST", Some(q), rows, Served).status == 200
  {
    CompileSubstring(q);
  }
}

=== FILE: seqs.dfy ===
/** Small sequence helpers shared by the list views, the cost summary and
    search: JavaScript's `slice(0, n)` and `Array.prototype.filter`. */
module Seqs {

  function Min(a: nat, b: nat): nat {
    if a <= b then a else b
  }

  /** `xs.slice(0, n)`: the first n elements, or all of them when fewer. */
  function Take<T>(xs: seq<T>, n: nat): (r: seq<T>)
    ensures |r| == Min(n, |xs|)
    ensures r == xs[..|r|]
  {
    xs[..Min(n, |xs|)]
  }

  /** `xs.slice(a, b)` for 0 <= a: clamps both ends to the length. */
  function Slice<T>(xs: seq<T>, a: nat, b: nat): (r: seq<T>)
    ensures |r| == if Min(b, |xs|) <= a then 0 else Min(b, |xs|) - a
  {
    if Min(b, |xs|) <= a then [] else xs[a..Min(b, |xs|)]
  }

  /** `xs.filter(p)`, keeping the order of the kept elements. */
  function Filter<T>(xs: seq<T>, p: T -> bool): (r: seq<T>)
    ensures |r| <= |xs|
    ensures forall x :: x in r ==> x in xs && p(x)
    ensures forall x :: x in xs && p(x) ==> x in r
  {
    if |xs| == 0 then []
    else (if p(xs[0]) then [xs[0]] else []) + Filter(xs[1..], p)
  }

  lemma {:induction false} FilterMultiset<T>(xs: seq<T>, p: T -> bool)
    ensures multiset(Filter(xs, p)) + multiset(Filter(xs, x => !p(x))) == multiset(xs)
  {
    if |xs| > 0 {
      var rest := xs[1..];
      FilterMultiset(rest, p);
      var head := multiset{xs[0]};
      var kept := multiset(Filter(rest, p));
      var dropped := multiset(Filter(rest, x => !p(x)));
      assert multiset(xs) == head + multiset(rest) by { assert xs == [xs[0]] + rest; }
      if p(xs[0]) {
        assert multiset(Filter(xs, p)) == head + kept by { FilterStep(xs, p); }
        assert multiset(Filter(xs, x => !p(x))) == dropped by { FilterStep(xs, x => !p(x)); }
      } else {
        assert multiset(Filter(xs, p)) == kept by { FilterStep(xs, p); }
        assert multiset(Filter(xs, x => !p(x))) == head + dropped by { FilterStep(xs, x => !p(x)); }
      }
    }
  }

  /** One step of `Filter`: the head is kept exactly when it passes. */
  lemma FilterStep<T>(xs: seq<T>, p: T -> bool)
    requires |xs| > 0
    ensures multiset(Filter(xs, p)) == (if p(xs[0]) then multiset{xs[0]} else multiset{}) + multiset(Filter(xs[1..], p))
  {
  }

  /** Number of elements satisfying p. */
  function Count<T>(xs: seq<T>, p: T -> bool): nat {
    |Filter(xs, p)|
  }
}

=== FILE: settings_page.dfy ===
/** The settings page: switching categories on and off, and the cost
    totals over its daily figures. Costs are exact rationals here. */
module SettingsPage {
  import opened Categories
  import opened Grouping

  /** One category switch. */
  datatype CategorySetting = CategorySetting(id: string, name: string, emoji: string, enabled: bool)

  /** The switches the page starts with. */
  const Defaults: seq<CategorySetting> := [
    CategorySetting("task", "Tasks", "✅", true),
    CategorySetting("idea", "Ideas", "💡", true),
    CategorySetting("journal", "Journal", "📖", true),
    CategorySetting("meeting", "Meetings", "👥", true),
    CategorySetting("reading", "Reading", "📚", true),
    CategorySetting("misc", "Misc", "📝", true)]

  /** There is one switch per allowed category, in the same order, and all
      start on. */
  lemma DefaultsCoverTheCategories()
    ensures |Defaults| == |ValidCategories|
    ensures forall i :: 0 <= i < |Defaults| ==> Defaults[i].id == ValidCategories[i] && Defaults[i].enabled
  {
  }

  /** `toggleCategory(id)`: the switches with that id flip and nothing
      else changes. */
  function Toggle(settings: seq<CategorySetting>, id: string): (r: seq<CategorySetting>)
    ensures |r| == |settings|
    ensures forall i :: 0 <= i < |settings| && settings[i].id == id ==>
      r[i] == settings[i].(enabled := !settings[i].enabled)
    ensures forall i :: 0 <= i < |settings| && settings[i].id != id ==> r[i] == settings[i]
  {
    seq(|settings|, i requires 0 <= i < |settings| =>
      if settings[i].id == id then settings[i].(enabled := !settings[i].enabled) else settings[i])
  }

  /** Flipping the same switch twice gives back the original list. */
  lemma ToggleTwice(settings: seq<CategorySetting>, id: string)
    ensures Toggle(Toggle(settings, id), id) == settings
  {
    var r := Toggle(Toggle(settings, id), id);
    assert forall i :: 0 <= i < |r| ==> r[i] == settings[i];
  }

  /** One day of the cost figures. */
  datatype DayCost = DayCost(date: string, cost: real, requests: nat)

  /** The figures the page shows, which it does not fetch. */
  const MockCostData: seq<DayCost> := [
    DayCost("2024-01-20", 0.15, 12),
    DayCost("2024-01-19", 0.23, 18),
    DayCost("2024-01-18", 0.08, 6),
    DayCost("2024-01-17", 0.31, 24),
    DayCost("2024-01-16", 0.19, 15)]

  function Cost(d: DayCost): real { d.cost }
  function Requests(d: DayCost): real { d.requests as real }

  /** The two totals: the summed cost and the summed request count. */
  function Totals(days: seq<DayCost>): (t: (real, real))
    ensures t.0 == SumOver(days, Cost) && t.1 == SumOver(days, Requests)
    ensures t.1 >= 0.0
  {
    RequestsNonNegative(days);
    (SumOver(days, Cost), SumOver(days, Requests))
  }

  lemma {:induction false} RequestsNonNegative(days: seq<DayCost>)
    ensures SumOver(days, Requests) >= 0.0
  {
    if |days| > 0 {
      RequestsNonNegative(days[..|days| - 1]);
    }
  }

  /** The totals of two runs of days together are the componentwise sums
      of their totals, and one day's totals are its own cost and count: so
      the totals add up every day exactly once. */
  lemma TotalsAdd(a: seq<DayCost>, b: seq<DayCost>, d: DayCost)
    ensures Totals(a + b) == (Totals(a).0 + Totals(b).0, Totals(a).1 + Totals(b).1)
    ensures Totals([d]) == (d.cost, d.requests as real)
  {
    SumOverAppend(a, b, Cost);
    SumOverAppend(a, b, Requests);
    assert [d][..0] == [];
    assert SumOver([d], Cost) == Cost(d) && SumOver([d], Requests) == Requests(d);
  }

  /** The page shows a total of 0.96 over 75 requests. */
  lemma MockTotals()
    ensures Totals(MockCostData) == (0.96, 75.0)
  {
    var d := MockCostData;
    assert d[..1][..0] == [];
    assert SumOver(d[..1], Cost) == 0.15 && SumOver(d[..1], Requests) == 12.0;
    assert d[..2][..1] == d[..1];
    assert SumOver(d[..2], Cost) == 0.38 && SumOver(d[..2], Requests) == 30.0;
    assert d[..3][..2] == d[..2];
    assert SumOver(d[..3], Cost) == 0.46 && SumOver(d[..3], Requests) == 36.0;
    assert d[..4][..3] == d[..3];
    assert SumOver(d[..4], Cost) == 0.77 && SumOver(d[..4], Requests) == 60.0;
    assert d[..4] == d[..|d| - 1];
  }
}

=== FILE: supabase_utils.dfy ===
/** `updateNoteMetadata`: the one shared write to the notes table. */
module SupabaseUtils {
  import opened Wrappers
  import opened Notes

  const UpdateError: string := "Database update error"

  /** Writes the patch to the row whose id is noteId. writeFails stands for
      the database answering with an error, which is rethrown with a fixed
      message; otherwise only that row's patched columns change. */
  function UpdateNoteMetadata(db: Store, noteId: string, p: Patch, writeFails: bool): (r: Result<Store, string>)
    ensures r.Failure? <==> writeFails
    ensures r.Failure? ==> r.error == UpdateError
    ensures r.Success? ==> r.value.Keys == db.Keys
    ensures r.Success? ==> forall k :: k in db && k != noteId ==> r.value[k] == db[k]
    ensures r.Success? && noteId in db ==> r.value[noteId] == ApplyPatch(db[noteId], p)
  {
    if writeFails then Failure(UpdateError) else Success(UpdateWhere(db, noteId, p, false))
  }
}

=== FILE: task_completions.dfy ===
/** The browser's copy of which tasks are completed: loaded from the
    `task_completions` table for the ids on screen and toggled locally. */
module TaskCompletions {

  /** The hook's state: the completed ids and whether a load is running. */
  datatype CompletionState = CompletionState(completed: set<string>, loading: bool)

  /** The state before the first load finishes. */
  const Initial := CompletionState({}, true)

  /** One run of the loading effect for the ids on screen. `table` is the
      set of ids the completion table holds; `fails` is a query error. An
      empty id list resets to the empty set without a query; a failed query
      leaves the set as it was; otherwise the set becomes the listed ids
      that the table holds. Loading is off afterwards in every case. */
  function Load(prev: CompletionState, noteIds: seq<string>, table: set<string>, fails: bool): (r: CompletionState)
    ensures !r.loading
    ensures |noteIds| == 0 ==> r.completed == {}
    ensures |noteIds| > 0 && fails ==> r.completed == prev.completed
    ensures |noteIds| > 0 && !fails ==> forall id :: id in r.completed <==> id in table && id in noteIds
  {
    if |noteIds| == 0 then CompletionState({}, false)
    else if fails then prev.(loading := false)
    else CompletionState(set id | id in table && id in noteIds, false)
  }

  /** `toggleCompletion(id)`: id changes membership and no other id does. */
  function Toggle(s: CompletionState, noteId: string): (r: CompletionState)
    ensures r.loading == s.loading
    ensures (noteId in r.completed) <==> (noteId !in s.completed)
    ensures forall other :: other != noteId ==> (other in r.completed <==> other in s.completed)
  {
    if noteId in s.completed then s.(completed := s.completed - {noteId})
    else s.(completed := s.completed + {noteId})
  }

  /** `isCompleted(id)` */
  predicate IsCompleted(s: CompletionState, noteId: string) {
    noteId in s.completed
  }

  /** Toggling the same id twice gives back the state it started from. */
  lemma ToggleTwice(s: CompletionState, noteId: string)
    ensures Toggle(Toggle(s, noteId), noteId) == s
  {
    var r := Toggle(Toggle(s, noteId), noteId);
    assert r.completed == s.completed;
  }

  /** Toggles of different ids commute. */
  lemma ToggleCommutes(s: CompletionState, a: string, b: string)
    ensures Toggle(Toggle(s, a), b) == Toggle(Toggle(s, b), a)
  {
    var x := Toggle(Toggle(s, a), b);
    var y := Toggle(Toggle(s, b), a);
    assert x.completed == y.completed;
  }
}

=== FILE: tasks_list.dfy ===
/** The task list view's own logic: the preview text, the due-date badge
    and the optimistic completion toggle. Deletion is `ListEdits`. */
module TasksList {
  import opened Wrappers
  import opened Text
  import opened Numbers
  import opened Notes
  import opened TaskCompletions

  const PreviewLength: nat := 80

  /** `truncateText(text)` with its default length. */
  function Preview(text: string): (r: string)
    ensures Utf16Length(text) <= PreviewLength ==> r == text
    ensures Utf16Length(text) > PreviewLength ==>
      && |r| >= 3 && r[|r| - 3..] == Ellipsis
      && StartsWith(text, r[..|r| - 3]) && PreviewLength - 1 <= Utf16Length(r[..|r| - 3]) <= PreviewLength
    ensures InBmp(text) && |text| > PreviewLength ==> r == text[..PreviewLength] + Ellipsis
  {
    TruncateBmp(text, PreviewLength);
    Truncate(text, PreviewLength)
  }

  /** `getDisplayContent(note)`: the classifier's cleaned text when the
      note carries a non-empty one, else what the user typed. */
  function DisplayContent(n: Note): (r: string)
    ensures HasTruthy(n.metadata, "cleaned_content") && n.metadata["cleaned_content"].Str?
      ==> r == n.metadata["cleaned_content"].s
    ensures !HasTruthy(n.metadata, "cleaned_content") ==> r == n.content
  {
    TextField(n.metadata, "cleaned_content").GetOr(n.content)
  }

  /** Milliseconds in a day: `1000 * 60 * 60 * 24`. */
  const DayMs: int := 1000 * 60 * 60 * 24

  /** The badge a due date gets; OnDate stands for the locale-formatted
      date, which is not modelled. */
  datatype DueLabel = Overdue | Today | Tomorrow | InDays(days: int) | OnDate

  /** `Math.ceil((due - now) / day)`: whole days left, rounded up. */
  function DaysLeft(dueAt: int, now: int): int {
    CeilDiv(dueAt - now, DayMs)
  }

  /** `formatDueDate(dateString)` for a due date that parses to the
      timestamp dueAt, at time now. An empty string shows no badge. The
      badge is decided by how far ahead the due time is: past by a full
      day or more is overdue, within the day before now or at now is
      today, within the next day is tomorrow, within the next 2 to 7 days
      counts the days, and anything later shows the date. */
  function FormatDueDate(dateString: string, dueAt: int, now: int): (r: Option<DueLabel>)
    ensures r.None? <==> dateString == ""
    ensures r == Some(Overdue) <==> dateString != "" && dueAt - now <= -DayMs
    ensures r == Some(Today) <==> dateString != "" && -DayMs < dueAt - now <= 0
    ensures r == Some(Tomorrow) <==> dateString != "" && 0 < dueAt - now <= DayMs
    ensures r.Some? && r.value.InDays? ==>
      (2 <= r.value.days <= 7 && (r.value.days - 1) * DayMs < dueAt - now <= r.value.days * DayMs)
    ensures dateString != "" && DayMs < dueAt - now <= 7 * DayMs ==> r.Some? && r.value.InDays?
    ensures r == Some(OnDate) <==> dateString != "" && dueAt - now > 7 * DayMs
  {
    if dateString == "" then None
    else
      var d := DaysLeft(dueAt, now);
      if d < 0 then Some(Overdue)
      else if d == 0 then Some(Today)
      else if d == 1 then Some(Tomorrow)
      else if d <= 7 then Some(InDays(d))
      else Some(OnDate)
  }

  /** The badge text; the date itself is left to the locale. */
  function DueText(l: DueLabel): string {
    match l
    case Overdue => "Overdue"
    case Today => "Today"
    case Tomorrow => "Tomorrow"
    case InDays(d) => (if d >= 0 then NatToString(d) else "") + " days"
    case OnDate => ""
  }

  /** Badges in order of urgency, least urgent highest. */
  function Urgency(l: DueLabel): int {
    match l
    case Overdue => -1
    case Today => 0
    case Tomorrow => 1
    case InDays(d) => d
    case OnDate => 8
  }

  /** A later due date never gets a more urgent badge. */
  lemma LaterIsLessUrgent(dateString: string, a: int, b: int, now: int)
    requires dateString != "" && a <= b
    ensures Urgency(FormatDueDate(dateString, a, now).value) <= Urgency(FormatDueDate(dateString, b, now).value)
  {
  }

  /** `handleToggleComplete(id)`: the request asks for the opposite of the
      current state, the toggle shows at once, and a failed persist
      toggles back so the completion state is as it was. */
  function HandleToggleComplete(s: CompletionState, id: string, persisted: bool): (r: (bool, CompletionState))
    ensures r.0 == !IsCompleted(s, id)
    ensures persisted ==> IsCompleted(r.1, id) == r.0
    ensures persisted ==> forall other :: other != id ==> (IsCompleted(r.1, other) <==> IsCompleted(s, other))
    ensures !persisted ==> r.1 == s
  {
    var requested := !IsCompleted(s, id);
    var shown := Toggle(s, id);
    if persisted then (requested, shown)
    else (ToggleTwice(s, id); (requested, Toggle(shown, id)))
  }
}

=== FILE: text.dfy ===
/** String primitives with the semantics of the JavaScript built-ins the
    application relies on: `trim`, `toLowerCase` (ASCII part only),
    `startsWith`, `includes`, `split` on one character, `join`, and the
    word-based previews the list views build from them. */
module Text {
  import opened Seqs

  const Ellipsis: string := "..."

  /** The characters matched by `\s` in a JavaScript regular expression,
      which are also the characters `String.prototype.trim` removes. */
  predicate IsWhitespace(c: char) {
    || c == ' ' || c == '\t' || c == '\n' || c == '\U{B}' || c == '\U{C}' || c == '\r'
    || c == '\U{A0}' || c == '\U{1680}' || ('\U{2000}' <= c <= '\U{200A}')
    || c == '\U{2028}' || c == '\U{2029}' || c == '\U{202F}' || c == '\U{205F}'
    || c == '\U{3000}' || c == '\U{FEFF}'
  }

  predicate AllWhitespace(s: string) {
    forall i :: 0 <= i < |s| ==> IsWhitespace(s[i])
  }

  /** Leading whitespace removed: the result is a suffix of s, what was
      dropped is whitespace, and the result does not start with whitespace. */
  function TrimStart(s: string): (r: string)
    ensures |r| <= |s| && r == s[|s| - |r|..]
    ensures AllWhitespace(s[..|s| - |r|])
    ensures r == [] || !IsWhitespace(r[0])
  {
    if |s| > 0 && IsWhitespace(s[0]) then
      var t := s[1..];
      var r := TrimStart(t);
      assert t[|t| - |r|..] == s[|s| - |r|..];
      WhitespaceCons(s, t, |s| - |r|);
      r
    else s
  }

  /** A whitespace character followed by whitespace is whitespace. */
  lemma WhitespaceCons(s: string, t: string, k: nat)
    requires 0 < k <= |s| && t == s[1..] && IsWhitespace(s[0]) && AllWhitespace(t[..k - 1])
    ensures AllWhitespace(s[..k])
  {
    forall i | 0 <= i < k
      ensures IsWhitespace(s[..k][i])
    {
      if i > 0 { assert s[..k][i] == t[..k - 1][i - 1]; }
    }
  }

  /** Trailing whitespace removed: the result is a prefix of s, what was
      dropped is whitespace, and the result does not end with whitespace. */
  function TrimEnd(s: string): (r: string)
    ensures |r| <= |s| && r == s[..|r|]
    ensures AllWhitespace(s[|r|..])
    ensures r == [] || !IsWhitespace(r[|r| - 1])
  {
    if |s| > 0 && IsWhitespace(s[|s| - 1]) then
      var t := s[..|s| - 1];
      var r := TrimEnd(t);
      assert t[..|r|] == s[..|r|];
      WhitespaceSnoc(s, t, |r|);
      r
    else s
  }

  /** Whitespace followed by a whitespace character is whitespace. */
  lemma WhitespaceSnoc(s: string, t: string, k: nat)
    requires k < |s| && t == s[..|s| - 1] && IsWhitespace(s[|s| - 1]) && AllWhitespace(t[k..])
    ensures AllWhitespace(s[k..])
  {
    forall i | 0 <= i < |s| - k
      ensures IsWhitespace(s[k..][i])
    {
      if i < |s| - 1 - k { assert s[k..][i] == t[k..][i]; }
    }
  }

  /** s is r with whitespace around it: s == w1 + r + w2 for some texts
      w1 and w2 of whitespace only. */
  predicate PaddedBy(s: string, r: string) {
    exists i :: 0 <= i <= |s| - |r| && s[i..i + |r|] == r && AllWhitespace(s[..i]) && AllWhitespace(s[i + |r|..])
  }

  /** `s.trim()`, which neither starts nor ends with whitespace. */
  function Trim(s: string): (r: string)
    ensures |r| <= |s|
    ensures r == [] || (!IsWhitespace(r[0]) && !IsWhitespace(r[|r| - 1]))
    ensures r == [] <==> AllWhitespace(s)
  {
    TrimBlank(s);
    TrimEnd(TrimStart(s))
  }

  /** The trimmed text is the infix of s left once the whitespace at both
      ends is removed; with the ends of Trim's result this determines it. */
  lemma TrimPadded(s: string)
    ensures PaddedBy(s, Trim(s))
  {
    var a := TrimStart(s);
    var r := TrimEnd(a);
    var i := |s| - |a|;
    assert a == s[i..];
    assert AllWhitespace(s[..i]);
    assert s[i..i + |r|] == r by {
      assert r == a[..|r|];
    }
    assert AllWhitespace(s[i + |r|..]) by {
      assert s[i + |r|..] == a[|r|..];
    }
    PaddedAt(s, r, i);
  }

  lemma PaddedAt(s: string, r: string, i: nat)
    requires i <= |s| - |r| && s[i..i + |r|] == r && AllWhitespace(s[..i]) && AllWhitespace(s[i + |r|..])
    ensures PaddedBy(s, r)
  {
  }

  lemma WhitespaceUpTo(s: string, j: nat)
    requires j <= |s| && AllWhitespace(s[..j])
    ensures forall k :: 0 <= k < j ==> IsWhitespace(s[k])
  {
    forall k | 0 <= k < j
      ensures IsWhitespace(s[k])
    {
      assert s[k] == s[..j][k];
    }
  }

  lemma WhitespaceFrom(s: string, j: nat)
    requires j <= |s| && AllWhitespace(s[j..])
    ensures forall k :: j <= k < |s| ==> IsWhitespace(s[k])
  {
    forall k | j <= k < |s|
      ensures IsWhitespace(s[k])
    {
      assert s[k] == s[j..][k - j];
    }
  }

  /** The first non-whitespace position of a text is unique. */
  lemma FirstNonWhitespace(s: string, i: nat, j: nat)
    requires i < |s| && AllWhitespace(s[..i]) && !IsWhitespace(s[i])
    requires j <= |s| && AllWhitespace(s[..j]) && (j == |s| || !IsWhitespace(s[j]))
    ensures i == j
  {
    WhitespaceUpTo(s, i);
    WhitespaceUpTo(s, j);
  }

  /** The last non-whitespace position of a text is unique. */
  lemma LastNonWhitespace(s: string, i: nat, j: nat)
    requires 0 < i <= |s| && AllWhitespace(s[i..]) && !IsWhitespace(s[i - 1])
    requires j <= |s| && AllWhitespace(s[j..]) && (j == 0 || !IsWhitespace(s[j - 1]))
    ensures i == j
  {
    WhitespaceFrom(s, i);
    WhitespaceFrom(s, j);
  }

  /** Trimming the start of w + r, with w whitespace and r starting with
      something else, leaves r. */
  lemma TrimStartOfPadded(s: string, i: nat)
    requires i < |s| && AllWhitespace(s[..i]) && !IsWhitespace(s[i])
    ensures TrimStart(s) == s[i..]
  {
    FirstNonWhitespace(s, i, |s| - |TrimStart(s)|);
  }

  /** Trimming the end of r + w, with w whitespace and r ending with
      something else, leaves r. */
  lemma TrimEndOfPadded(s: string, i: nat)
    requires 0 < i <= |s| && AllWhitespace(s[i..]) && !IsWhitespace(s[i - 1])
    ensures TrimEnd(s) == s[..i]
  {
    LastNonWhitespace(s, i, |TrimEnd(s)|);
  }

  /** Conversely, a text padded with whitespace around a piece that neither
      starts nor ends with whitespace trims to that piece. */
  lemma TrimOfPadded(s: string, r: string)
    requires PaddedBy(s, r)
    requires r == [] || (!IsWhitespace(r[0]) && !IsWhitespace(r[|r| - 1]))
    ensures Trim(s) == r
  {
    var i :| 0 <= i <= |s| - |r| && s[i..i + |r|] == r && AllWhitespace(s[..i]) && AllWhitespace(s[i + |r|..]);
    if r == [] {
      WhitespaceUpTo(s, i);
      WhitespaceFrom(s, i);
      assert AllWhitespace(s);
    } else {
      TrimOfPaddedAt(s, r, i);
    }
  }

  lemma TrimOfPaddedAt(s: string, r: string, i: nat)
    requires r != [] && i <= |s| - |r| && s[i..i + |r|] == r
    requires AllWhitespace(s[..i]) && AllWhitespace(s[i + |r|..])
    requires !IsWhitespace(r[0]) && !IsWhitespace(r[|r| - 1])
    ensures Trim(s) == r
  {
    var a := s[i..];
    assert TrimStart(s) == a by {
      assert s[i] == r[0];
      TrimStartOfPadded(s, i);
    }
    assert a[..|r|] == r && a[|r|..] == s[i + |r|..];
    TrimEndOfPrefix(a, r);
  }

  /** Trimming the end of r + w, with w whitespace and r non-empty and not
      ending in whitespace, leaves r. */
  lemma TrimEndOfPrefix(a: string, r: string)
    requires r != [] && |r| <= |a| && a[..|r|] == r
    requires AllWhitespace(a[|r|..]) && !IsWhitespace(r[|r| - 1])
    ensures TrimEnd(a) == r
  {
    assert a[|r| - 1] == r[|r| - 1];
    TrimEndOfPadded(a, |r|);
  }

  /** Every character of the trimmed text is a character of the original. */
  lemma TrimIsInfix(s: string)
    ensures forall c :: c in Trim(s) ==> c in s
  {
    var a := TrimStart(s);
    var r := TrimEnd(a);
    var i := |s| - |a|;
    assert a == s[i..];
    assert r == s[i..i + |r|];
    forall c | c in r
      ensures c in s
    {
      var j :| 0 <= j < |r| && r[j] == c;
      assert s[i + j] == r[j];
    }
  }

  lemma TrimBlank(s: string)
    ensures var a := TrimStart(s); var r := TrimEnd(a);
      && (r == [] || r[0] == a[0])
      && (r == [] <==> AllWhitespace(s))
  {
    var a := TrimStart(s);
    var r := TrimEnd(a);
    var d := |s| - |a|;
    assert AllWhitespace(s[..d]);
    if r == [] {
      assert a[|r|..] == a;
      assert |a| == 0;
      forall i | 0 <= i < |s|
        ensures IsWhitespace(s[i])
      {
        assert s[i] == s[..d][i];
      }
    } else {
      assert r[0] == a[0];
      assert a[0] == s[d];
      assert !IsWhitespace(s[d]);
    }
  }

  /** A text without whitespace at either end is its own trim. */
  lemma TrimUntouched(s: string)
    requires s == [] || (!IsWhitespace(s[0]) && !IsWhitespace(s[|s| - 1]))
    ensures Trim(s) == s
  {
    assert TrimStart(s) == s;
    assert TrimEnd(s) == s;
  }

  function LowerChar(c: char): char {
    if 'A' <= c <= 'Z' then (c as int + 32) as char else c
  }

  /** `s.toLowerCase()` restricted to the ASCII letters. */
  function Lower(s: string): (r: string)
    ensures |r| == |s|
  {
    seq(|s|, i requires 0 <= i < |s| => LowerChar(s[i]))
  }

  predicate StartsWith(s: string, prefix: string) {
    |prefix| <= |s| && s[..|prefix|] == prefix
  }

  /** `s.includes(sub)` */
  predicate Contains(s: string, sub: string) {
    exists i :: 0 <= i <= |s| - |sub| && StartsWith(s[i..], sub)
  }

  /** A text contains each part of a concatenation of three. */
  lemma ContainsParts(a: string, b: string, c: string)
    ensures Contains(a + b + c, a) && Contains(a + b + c, b) && Contains(a + b + c, c)
  {
    var s := a + b + c;
    assert StartsWith(s[0..], a) by { assert s[0..][..|a|] == a; }
    assert StartsWith(s[|a|..], b) by { assert s[|a|..][..|b|] == b; }
    assert StartsWith(s[|a| + |b|..], c) by { assert s[|a| + |b|..] == c; }
  }

  /** Index of the first occurrence of c in s, or |s| when there is none. */
  function FirstIndex(s: string, c: char): (k: nat)
    ensures k <= |s|
    ensures k < |s| ==> s[k] == c
    ensures forall i :: 0 <= i < k ==> s[i] != c
  {
    if |s| == 0 then 0
    else if s[0] == c then 0
    else 1 + FirstIndex(s[1..], c)
  }

  /** `s.split(c)`: always at least one part, and no part contains c. */
  function Split(s: string, c: char): (parts: seq<string>)
    ensures |parts| >= 1
    ensures forall i :: 0 <= i < |parts| ==> c !in parts[i]
    decreases |s|
  {
    var k := FirstIndex(s, c);
    if k == |s| then [s] else [s[..k]] + Split(s[k + 1..], c)
  }

  /** `parts.join(sep)` */
  function Join(parts: seq<string>, sep: string): string {
    if |parts| == 0 then ""
    else if |parts| == 1 then parts[0]
    else parts[0] + sep + Join(parts[1..], sep)
  }

  /** Every character of a joined text comes from a part or the separator. */
  lemma {:induction false} JoinChars(parts: seq<string>, sep: string, c: char)
    requires c in Join(parts, sep)
    ensures c in sep || exists i :: 0 <= i < |parts| && c in parts[i]
  {
    if |parts| > 1 {
      var rest := Join(parts[1..], sep);
      if c !in parts[0] && c !in sep {
        assert c in rest;
        JoinChars(parts[1..], sep, c);
        var i :| 0 <= i < |parts[1..]| && c in parts[1..][i];
        assert parts[i + 1] == parts[1..][i];
      }
    }
  }

  /** Joining two non-empty lists of parts is joining each and putting the
      separator between them. */
  lemma {:induction false} JoinAppend(a: seq<string>, b: seq<string>, sep: string)
    requires |a| > 0 && |b| > 0
    ensures Join(a + b, sep) == Join(a, sep) + sep + Join(b, sep)
  {
    assert (a + b)[0] == a[0];
    assert (a + b)[1..] == a[1..] + b;
    if |a| > 1 {
      JoinAppend(a[1..], b, sep);
    }
  }

  /** Splitting on a character and joining back with it is the identity. */
  lemma {:induction false} SplitJoin(s: string, c: char)
    ensures Join(Split(s, c), [c]) == s
    decreases |s|
  {
    var k := FirstIndex(s, c);
    if k < |s| {
      var rest := s[k + 1..];
      var parts := Split(s, c);
      var tail := Split(rest, c);
      assert parts == [s[..k]] + tail;
      assert |parts| >= 2 && parts[0] == s[..k] && parts[1..] == tail;
      assert Join(parts, [c]) == s[..k] + [c] + Join(tail, [c]);
      SplitJoin(rest, c);
      assert s == s[..k] + [c] + rest;
    } else {
      assert Split(s, c) == [s];
    }
  }

  /** `s.split(c)[0]`: the text before the first c. */
  function FirstField(s: string, c: char): (r: string)
    ensures r == Split(s, c)[0]
    ensures c !in r && StartsWith(s, r)
    ensures c !in s ==> r == s
  {
    s[..FirstIndex(s, c)]
  }

  predicate IsSentenceEnd(c: char) {
    c == '.' || c == '!' || c == '?'
  }

  /** `content.split(/[.!?]+/)[0]`: the text before the first sentence
      terminator. */
  function FirstSentence(s: string): (r: string)
    ensures StartsWith(s, r)
    ensures forall i :: 0 <= i < |r| ==> !IsSentenceEnd(r[i])
    ensures |r| == |s| || IsSentenceEnd(s[|r|])
  {
    if |s| == 0 || IsSentenceEnd(s[0]) then [] else [s[0]] + FirstSentence(s[1..])
  }

  /** `s.split(' ')` */
  function Words(s: string): seq<string> {
    Split(s, ' ')
  }

  /** `s.split(' ').slice(0, n).join(' ')` */
  function FirstWords(s: string, n: nat): string {
    Join(Take(Words(s), n), " ")
  }

  /** `s.split(' ').slice(0, n).join(' ') + (s.split(' ').length > n ? '...' : '')`,
      the word preview several views use as a last-resort title. */
  function WordPreview(s: string, n: nat): string {
    FirstWords(s, n) + (if |Words(s)| > n then Ellipsis else "")
  }

  /** A text with at most n words is its own preview, and a longer one is
      cut to its first n words followed by the ellipsis. */
  lemma WordPreviewOfShortText(s: string, n: nat)
    ensures |Words(s)| <= n ==> WordPreview(s, n) == s
    ensures |Words(s)| > n ==> WordPreview(s, n) == FirstWords(s, n) + Ellipsis
  {
    if |Words(s)| <= n {
      assert Take(Words(s), n) == Words(s);
      SplitJoin(s, ' ');
      assert [' '] == " ";
    }
  }

  /** The UTF-16 code units that encode c: two for a character outside the
      Basic Multilingual Plane (a surrogate pair), one otherwise. */
  function Units(c: char): nat {
    if c > '\U{FFFF}' then 2 else 1
  }

  /** `s.length`: JavaScript counts UTF-16 code units, not characters. */
  function Utf16Length(s: string): (n: nat)
    ensures |s| <= n <= 2 * |s|
  {
    if |s| == 0 then 0 else Units(s[0]) + Utf16Length(s[1..])
  }

  /** Every character of s is one code unit. */
  predicate InBmp(s: string) {
    forall i :: 0 <= i < |s| ==> s[i] <= '\U{FFFF}'
  }

  /** The code-unit length is additive over concatenation. */
  lemma {:induction false} Utf16Append(a: string, b: string)
    ensures Utf16Length(a + b) == Utf16Length(a) + Utf16Length(b)
  {
    if |a| == 0 {
      assert a + b == b;
    } else {
      assert (a + b)[0] == a[0];
      assert (a + b)[1..] == a[1..] + b;
      Utf16Append(a[1..], b);
    }
  }

  /** The code-unit length is the character count exactly when no
      character needs a surrogate pair. */
  lemma {:induction false} Utf16LengthBmp(s: string)
    ensures Utf16Length(s) == |s| <==> InBmp(s)
  {
    if |s| > 0 {
      Utf16LengthBmp(s[1..]);
      if InBmp(s) {
        assert InBmp(s[1..]) by {
          forall i | 0 <= i < |s[1..]|
            ensures s[1..][i] <= '\U{FFFF}'
          {
            assert s[1..][i] == s[i + 1];
          }
        }
      } else if Utf16Length(s) == |s| {
        assert Units(s[0]) == 1 && Utf16Length(s[1..]) == |s[1..]|;
        forall i | 0 <= i < |s|
          ensures s[i] <= '\U{FFFF}'
        {
          if i > 0 { assert s[i] == s[1..][i - 1]; }
        }
      }
    }
  }

  /** `s.slice(0, n)`, and `s.substring(0, n)` for n >= 0: the longest
      prefix of s that fits in n code units. */
  function Utf16Prefix(s: string, n: nat): (p: string)
    ensures StartsWith(s, p) && Utf16Length(p) <= n
    ensures |p| < |s| ==> Utf16Length(s[..|p| + 1]) > n && Utf16Length(p) + 1 >= n
    ensures Utf16Length(s) <= n ==> p == s
    decreases |s|
  {
    if |s| == 0 then []
    else if Units(s[0]) > n then
      assert Utf16Length(s[..1]) == Units(s[0]);
      []
    else
      var q := Utf16Prefix(s[1..], n - Units(s[0]));
      PrefixStepFits(s, n, q);
      PrefixStepLongest(s, n, q);
      [s[0]] + q
  }

  /** Putting the first character back in front of a fitting prefix of the
      rest gives a fitting prefix of the whole. */
  lemma PrefixStepFits(s: string, n: nat, q: string)
    requires |s| > 0 && Units(s[0]) <= n
    requires StartsWith(s[1..], q) && Utf16Length(q) <= n - Units(s[0])
    ensures StartsWith(s, [s[0]] + q) && Utf16Length([s[0]] + q) <= n
  {
    ConsLength(s[0], q);
    assert s[..|q| + 1] == [s[0]] + s[1..][..|q|];
  }

  /** ... and when the prefix of the rest is the longest one, so is the
      prefix of the whole. */
  lemma PrefixStepLongest(s: string, n: nat, q: string)
    requires |s| > 0 && Units(s[0]) <= n && StartsWith(s[1..], q)
    requires |q| < |s[1..]| ==> Utf16Length(s[1..][..|q| + 1]) > n - Units(s[0]) && Utf16Length(q) + 1 >= n - Units(s[0])
    requires Utf16Length(s[1..]) <= n - Units(s[0]) ==> q == s[1..]
    ensures |[s[0]] + q| < |s| ==> Utf16Length(s[..|q| + 2]) > n && Utf16Length([s[0]] + q) + 1 >= n
    ensures Utf16Length(s) <= n ==> [s[0]] + q == s
  {
    ConsLength(s[0], q);
    if |q| + 1 < |s| {
      assert s[..|q| + 2] == [s[0]] + s[1..][..|q| + 1];
      ConsLength(s[0], s[1..][..|q| + 1]);
    }
    if Utf16Length(s) <= n {
      assert s == [s[0]] + s[1..];
    }
  }

  lemma ConsLength(c: char, t: string)
    ensures Utf16Length([c] + t) == Units(c) + Utf16Length(t)
  {
    assert ([c] + t)[1..] == t;
  }

  /** A prefix of a text within the Basic Multilingual Plane has as many
      code units as characters. */
  lemma BmpPrefixLength(s: string, k: nat)
    requires InBmp(s) && k <= |s|
    ensures Utf16Length(s[..k]) == k
  {
    assert InBmp(s[..k]) by {
      forall i | 0 <= i < k
        ensures s[..k][i] <= '\U{FFFF}'
      {
        assert s[..k][i] == s[i];
      }
    }
    Utf16LengthBmp(s[..k]);
  }

  /** A text within the Basic Multilingual Plane is cut at exactly n
      characters. */
  lemma Utf16PrefixBmp(s: string, n: nat)
    requires InBmp(s) && n <= |s|
    ensures Utf16Prefix(s, n) == s[..n]
  {
    var p := Utf16Prefix(s, n);
    assert p == s[..|p|];
    BmpPrefixLength(s, |p|);
    if |p| < |s| {
      BmpPrefixLength(s, |p| + 1);
    }
  }

  /** `text.length > n ? text.substring(0, n) + '...' : text`: a text of
      at most n code units is kept; a longer one is cut to a prefix of n
      code units, one fewer when the cut would split a surrogate pair,
      and the ellipsis is appended. */
  function Truncate(text: string, n: nat): (r: string)
    ensures Utf16Length(text) <= n ==> r == text
    ensures Utf16Length(text) > n ==>
      && |r| >= 3 && r[|r| - 3..] == Ellipsis
      && StartsWith(text, r[..|r| - 3]) && n - 1 <= Utf16Length(r[..|r| - 3]) <= n
  {
    if Utf16Length(text) > n then
      var p := Utf16Prefix(text, n);
      assert |p| < |text| by {
        if |p| == |text| { assert p == text; }
      }
      assert (p + Ellipsis)[..|p|] == p;
      p + Ellipsis
    else text
  }

  /** Within the Basic Multilingual Plane the cut is at n characters. */
  lemma TruncateBmp(text: string, n: nat)
    ensures InBmp(text) && |text| <= n ==> Truncate(text, n) == text
    ensures InBmp(text) && |text| > n ==> Truncate(text, n) == text[..n] + Ellipsis
  {
    Utf16LengthBmp(text);
    if InBmp(text) && |text| > n {
      Utf16PrefixBmp(text, n);
    }
  }

  function DigitChar(d: nat): char
    requires d < 10
  {
    "0123456789"[d]
  }

  /** Decimal rendering of a natural number, as template literals print it. */
  function NatToString(n: nat): (r: string)
    ensures |r| >= 1
    decreases n
  {
    if n < 10 then [DigitChar(n)] else NatToString(n / 10) + [DigitChar(n % 10)]
  }
}

=== FILE: urls.dfy ===
/** The URL pattern `/(https?:\/\/[^\s]+)/g` of the reading enhancer, as far
    as its first match goes. */
module Urls {
  import opened Wrappers
  import opened Text

  /** Length of the scheme-and-slashes the pattern can match at i: 8 for
      "https://", 7 for "http://", 0 for neither. */
  function SchemeLength(s: string, i: nat): (n: nat)
    requires i <= |s|
    ensures n == 8 ==> StartsWith(s[i..], "https://")
    ensures n == 7 ==> StartsWith(s[i..], "http://")
    ensures n == 0 <==> !StartsWith(s[i..], "https://") && !StartsWith(s[i..], "http://")
    ensures n in {0, 7, 8}
  {
    if StartsWith(s[i..], "https://") then 8
    else if StartsWith(s[i..], "http://") then 7
    else 0
  }

  /** Whether the pattern matches at i: a scheme followed by at least one
      non-whitespace character. (At "https://" the pattern cannot fall back
      to "http", since "s" is not ":".) */
  predicate MatchesAt(s: string, i: nat)
    requires i <= |s|
  {
    var n := SchemeLength(s, i);
    n > 0 && i + n < |s| && !IsWhitespace(s[i + n])
  }

  /** End of the run of non-whitespace characters starting at j. */
  function RunEnd(s: string, j: nat): (e: nat)
    requires j <= |s|
    ensures j <= e <= |s|
    ensures forall k :: j <= k < e ==> !IsWhitespace(s[k])
    ensures e == |s| || IsWhitespace(s[e])
    decreases |s| - j
  {
    if j == |s| || IsWhitespace(s[j]) then j else RunEnd(s, j + 1)
  }

  /** The leftmost match at or after i. */
  function FirstMatchFrom(s: string, i: nat): (r: Option<nat>)
    requires i <= |s|
    ensures r.Some? ==> i <= r.value <= |s| && MatchesAt(s, r.value)
    ensures r.Some? ==> forall j :: i <= j < r.value ==> !MatchesAt(s, j)
    ensures r.None? ==> forall j :: i <= j <= |s| ==> !MatchesAt(s, j)
    decreases |s| - i
  {
    if MatchesAt(s, i) then Some(i)
    else if i == |s| then None
    else FirstMatchFrom(s, i + 1)
  }

  /** `content.match(urlRegex)?.[0]`: the leftmost match, scheme plus the
      whole non-whitespace run after it. */
  function FirstUrl(s: string): (u: Option<string>)
    ensures u.None? <==> forall j :: 0 <= j <= |s| ==> !MatchesAt(s, j)
    ensures u.Some? ==> FirstMatchFrom(s, 0).Some? && IsUrlAt(s, FirstMatchFrom(s, 0).value, u.value)
  {
    match FirstMatchFrom(s, 0)
    case None => None
    case Some(i) => MatchIsUrl(s, i); Some(MatchText(s, i))
  }

  /** The text of the match at i. */
  function MatchText(s: string, i: nat): string
    requires i <= |s| && MatchesAt(s, i)
  {
    s[i..RunEnd(s, i + SchemeLength(s, i))]
  }

  lemma MatchIsUrl(s: string, i: nat)
    requires i <= |s| && MatchesAt(s, i)
    ensures IsUrlAt(s, i, MatchText(s, i))
  {
    var n := SchemeLength(s, i);
    var u := MatchText(s, i);
    assert |u| >= n;
    assert u[..n] == s[i..][..n] by {
      forall k | 0 <= k < n
        ensures u[..n][k] == s[i..][..n][k]
      {
        assert u[k] == s[i + k];
      }
    }
    forall k | 0 <= k < |u|
      ensures !IsWhitespace(u[k])
    {
      if k >= n {
        assert u[k] == s[i + k];
      } else {
        assert u[k] == s[i..][..n][k];
        assert k < 8;
      }
    }
  }

  /** u is the match that starts at i: it opens with a scheme, holds no
      whitespace, and ends at whitespace or at the end of s. */
  predicate IsUrlAt(s: string, i: nat, u: string)
    requires i <= |s|
  {
    && i + |u| <= |s|
    && s[i..i + |u|] == u
    && (StartsWith(u, "https://") || StartsWith(u, "http://"))
    && (forall k :: 0 <= k < |u| ==> !IsWhitespace(u[k]))
    && (i + |u| == |s| || IsWhitespace(s[i + |u|]))
  }

  /** A URL standing alone after some text without a scheme in it is found. */
  lemma UrlAfterPlainText(prefix: string, url: string)
    requires forall j :: 0 <= j < |prefix| ==> prefix[j] != 'h'
    requires StartsWith(url, "https://") && |url| > 8
    requires forall k :: 0 <= k < |url| ==> !IsWhitespace(url[k])
    ensures FirstUrl(prefix + url) == Some(url)
  {
    var s := prefix + url;
    forall j | 0 <= j < |prefix|
      ensures !MatchesAt(s, j)
    {
      assert s[j] == prefix[j];
      assert s[j..][0] == s[j];
    }
    var p := |prefix|;
    assert s[p..] == url;
    assert SchemeLength(s, p) == 8;
    assert s[p + 8] == url[8];
    assert MatchesAt(s, p);
    FirstMatchFromSkips(s, 0, p);
    assert MatchText(s, p) == s[p..] == url;
  }

  /** Searching from i finds the first match when nothing before it matches. */
  lemma {:induction false} FirstMatchFromSkips(s: string, i: nat, m: nat)
    requires i <= m <= |s|
    requires MatchesAt(s, m)
    requires forall j :: i <= j < m ==> !MatchesAt(s, j)
    ensures FirstMatchFrom(s, i) == Some(m)
    decreases m - i
  {
    if i < m {
      FirstMatchFromSkips(s, i + 1, m);
    }
  }
}

=== FILE: wrappers.dfy ===
/** The two shapes a value takes in this model: `Option` for what the
    application reads as `null` or `undefined`, and `Result` for a step
    that either yields a value or throws. */
module Wrappers {

  datatype Option<+T> = None | Some(value: T) {

    /** The held value, or the fallback when absent. */
    function GetOr(fallback: T): T {
      match this
      case Some(v) => v
      case None => fallback
    }
  }

  /** A value, or the error a throwing step produced. */
  datatype Result<+R, +E> = Success(value: R) | Failure(error: E)
}
